=== FILE: README.md ===
# esp-web-tools flashing core, modelled in Dafny

This project models the part of esp-web-tools that talks to an ESP chip and
drives an installation. The modules follow the program's structure.

- **Bytes**: bytes and the 32-bit view that JavaScript's bit operators put on numbers.
- **EspUtil** (`src/vendor/esptool/util.ts`):
  - SLIP byte-stuffing;
  - `toByteArray`;
  - `pack` and `unpack`;
  - `toHex` and `formatMacAddr`.
- **EspConst** (`src/vendor/esptool/const.ts`): protocol constants, the sync packet and `timeoutPerMb`.
- **Framing** (`src/vendor/esptool/esp_loader.ts`): one command exchange.
  - the frame `sendCommand` writes;
  - the response hunt of `getResponse`;
  - the raw frame read of `readBuffer`;
  - the status check of `checkCommand`;
  - `readRegister` and `checksum`.
- **Session**: sequences of exchanges, where the first failure stops the run, and the `sync`/`_sync` retry structure.
- **Identify**:
  - chip detection from the magic register;
  - the eFuse reads and the chip name of `initialize`;
  - `macAddr`.
- **Flashing**:
  - `getFlashWriteSize` and `getEraseSize`;
  - the commands `flashBegin` sends;
  - the blocks and progress values of `flashData` and `flashBlock`.
- **Bootstrap**:
  - `memBegin`, `memBlock` and `memFinish`;
  - uploading and starting the stub in `runStub`;
  - the stub loader's `memBegin` overlap guard and `eraseFlash`.
- **ChipFamilyName**: `getChipFamilyName` of `src/util.ts`.
- **Manifests**: manifest, build and part records. Also the first-match build selection and the first failed download, both used by the two orchestrators.
- **FlashEvents**: the state events that `flash` (`src/flash.ts`) emits for each combination of outcomes of the outside world.
- **StartFlash**: the effects of `startFlash` (`src/start-flash.ts`). These are the log element's messages, the `flashData` calls, the progress updates with their percentage de-duplication, and the final reset and disconnect.
- **FlashLog**: `addRow`, `addError` and `removeRow` of `src/flash-log.ts`.
- **ConsoleColor**: `ColoredConsole.addLine` of `src/util/console-color.ts`. This covers the escape-sequence matcher, the SGR parameter switch, span splitting and the carriage-return handling.

## How the outside world is represented

The model has no time, I/O or concurrency.

- **Reads.** A read call (`getResponse`, `readBuffer`) sees the input queue as a finite sequence of polls:
  - a byte taken from the queue;
  - a poll that found the queue empty;
  - the expiry of the call's timeout.

  Running out of polls also means the call timed out.
- **Streams.** `sendCommand` empties the queue before it writes. So each command exchange gets its own poll stream, holding what the chip sends after that command. Reads that share a stream return the polls they leave unconsumed:
  - the eight probes of one `_sync`;
  - the stub's "OHAI" read after the MEM_END response.
- **Orchestrators.** `flash` and `startFlash` take one outcome record each. It holds the resolved results of the port request, the manifest fetch, each part download and each external library call. The chip's side of `startFlash` is again given as poll streams, so the orchestrator's writes run through the same model of `flashData`.

## Behaviour of the code as written

The model keeps the code's behaviour where it departs from the serial protocol. Each point below is stated by a lemma.

- **SLIP decode is not the inverse of encode.**
  - Both read loops decode 0xDB 0xDD to 0xDC, not to 0xDB (`src/vendor/esptool/esp_loader.ts:318-319`).
  - So decoding an encoded buffer gives it back exactly when the buffer holds no 0xDB (`EspUtil.SlipRoundTrip`), and a lone 0xDB comes back as 0xDC (`EspUtil.SlipRoundTripFailsOnEsc`).
  - The encoder itself is correct RFC 1055 byte-stuffing (`EspUtil.SlipEncodeRfc1055`).
- **The length header of a command frame is not escaped.**
  - `sendCommand` escapes the checksum and the payload but writes the opcode and the two length bytes raw.
  - A payload of 0xC0 bytes therefore puts a frame delimiter inside the frame (`Framing.CommandFrameLengthByteNotEscaped`).
- **`getEraseSize` can return half sectors.** It halves with real division before flooring, so two sectors at offset 0 give 6144 bytes (`Flashing.EraseSizeHalfSector`). `Flashing.EraseSizeWholeSectors` is the integer-halving variant, kept for comparison. The start sector's remainder by 16 is JavaScript's truncating `%`, so a negative offset gets more than 16 head sectors (`Flashing.EraseSizeNegativeOffset`).
- **`timeoutPerMb` divides by the literal `0x1e6`, which is 486.** The per-megabyte erase timeout of one megabyte already exceeds the longest command timeout (`EspConst.EraseTimeoutForOneMegabyte`).
- **`checkCommand` fails only when the first status byte is 1**, not on any non-zero status.
  - Before the family is known, a response whose data is neither 2 nor 4 bytes long has a status length of 0.
  - `data.slice(0, -0)` then empties the data (`Framing.CheckStatusUndetermined`).
- **`readRegister` returns a signed value.** `unpack("I")` reads four bytes as a signed 32-bit value, so registers from 2^31 up come back negative (`EspUtil.UnpackPackI`).
- **The stub loader has no family.** The `EspStubLoader` that `runStub` returns never copies the parent's `chipFamily`. Its write size is therefore 0x200 even on an ESP32-S2 (`StartFlash.IdentifiedWritesWithStub`), and its `memBegin` always fails, since `getStubCode` finds no stub for an unset family (`Bootstrap.StubMemBeginAfterRunStub`).
- **`flashData` progress counts padding.** The last progress value is the padded length, which can exceed the file size (`Flashing.FlashDataProgressOvershoots`).
- **Progress in `startFlash` restarts with each part.** The progress callback of `startFlash` receives per-part byte counts, but the percentage divides them by the total of all parts. Updates are skipped only when the percentage equals the last one reported, which starts at -1.
- **Two gaps in `flash`'s error handling.**
  - An `erase_flash` failure in `flash` is not caught. The call rejects right after the ERASING start event, with no ERROR event (`FlashEvents.FlashEraseFailure`).
  - A caught failure disconnects but sends no reset pulse.
- **`flash` does not de-duplicate progress.** Every progress report that does not complete a file emits a WRITING event (`FlashEvents.ProgressEventCount`).
- **`startFlash` rejects when the stub fails to start.** Nothing disconnects in that case (`StartFlash.IdentifiedStubFailure`).
- **Callers outside the core.**
  - `src/install-dialog.ts:543` always passes `eraseFirst = false`.
  - `src/install-button.ts:38-45` passes a fourth argument that `startFlash` does not declare.

  Both files are outside this model. `eraseFirst` stays an explicit parameter of `FlashEvents.Flash`.
- **Part file names.** `src/flash.ts:140` reads `part.path`, while `startFlash` and the manifest type use `filename`. The model's part record has `filename` and an offset, and `flash` only uses the offsets.

## Model

| member | source | states |
|---|---|---|
| EspUtil.SlipEncode | src/vendor/esptool/util.ts:1-13 | the output never contains the delimiter 0xC0; its length is the input length plus one per 0xDB and per 0xC0 |
| EspUtil.SlipEncodeAppend | src/vendor/esptool/util.ts:3-11 | encoding works byte by byte: the encoding of a concatenation is the concatenation of the encodings |
| EspUtil.SlipEncodePlain | src/vendor/esptool/util.ts:8-10 | bytes other than 0xC0 and 0xDB pass through unchanged and in order |
| EspUtil.SlipEncodeRfc1055 | src/vendor/esptool/util.ts:1-13 | the RFC 1055 reference decoder recovers every encoded buffer exactly |
| EspUtil.SlipDecodeEncode | src/vendor/esptool/esp_loader.ts:313-328 | the loader's decoder applied to an encoded buffer yields the buffer with every 0xDB turned into 0xDC |
| EspUtil.SlipDecodeFrom | src/vendor/esptool/esp_loader.ts:310-324 | the byte-by-byte decoder yields at most one byte per byte read, plus one for an escape pending at the start; with no escape pending and no 0xDB it copies its input |
| EspUtil.SlipDecode | src/vendor/esptool/esp_loader.ts:310-324 | a decoded reply is never longer than the bytes read, and bytes without 0xDB come through unchanged |
| EspUtil.SlipRoundTrip | src/vendor/esptool/esp_loader.ts:315-328 | decode(encode(b)) == b holds if and only if b contains no 0xDB |
| EspUtil.SlipRoundTripFailsOnEsc | src/vendor/esptool/esp_loader.ts:318-319 | a lone 0xDB is encoded and decoded back as 0xDC |
| EspUtil.ToByteArray | src/vendor/esptool/util.ts:19-28 | the output is no longer than the input, keeps every character with code at most 0xFF, and holds nothing else |
| EspUtil.ToByteArrayAppend | src/vendor/esptool/util.ts:21-26 | the conversion works character by character, so it preserves order across concatenation |
| EspUtil.ToByteArrayLatin1 | src/vendor/esptool/util.ts:19-28 | on a string of byte-sized characters nothing is dropped and the bytes read back as the string |
| EspUtil.RemoveFirstMarker | src/vendor/esptool/util.ts:34 | the count check removes exactly one character when the format holds a '<' or '>' and none otherwise |
| EspUtil.PushBytes | src/vendor/esptool/util.ts:40-48 | `pushBytes` emits exactly byteCount bytes, little-endian byte i being bits 8i..8i+7 of the 32-bit pattern |
| EspUtil.Pack | src/vendor/esptool/util.ts:30-66 | a letter count that differs from the argument count is a count mismatch; otherwise pack succeeds exactly when every format character is one of "<>BHI", and a failure names a character outside them |
| EspUtil.PackFields | src/vendor/esptool/util.ts:50-67 | the packing loop succeeds exactly on formats of accepted characters, and otherwise reports a character of the format it does not accept |
| EspUtil.PackSpec | src/vendor/esptool/util.ts:30-70 | pack throws a count mismatch when the letter count (first marker removed) differs from the argument count; a little-endian format packs field by field into exactly the sum of the field widths |
| EspUtil.PackFieldsLE | src/vendor/esptool/util.ts:50-67 | the packing loop over a little-endian format equals the field-by-field reference packing, whose length is the sum of the widths |
| EspUtil.PackRejectsUnknownChar | src/vendor/esptool/util.ts:64-66 | with a matching count, the first character outside "<>BHI" is reported as unhandled |
| EspUtil.PackWords | src/vendor/esptool/util.ts:30-70 | packing n values with "<" and n letters I yields their 4-byte little-endian encodings one after another |
| EspUtil.Unpack | src/vendor/esptool/util.ts:72-95 | unpack succeeds if and only if every format character is B, H or I (not even '<'), and then yields one value per character |
| EspUtil.UnpackPack | src/vendor/esptool/util.ts:72-95 | unpack inverts pack up to the field width: B and H give the value modulo 2^8 and 2^16, I gives its signed 32-bit reading |
| EspUtil.WordReads | src/vendor/esptool/util.ts:82-88 | the four bytes of a packed word, read back as an I field, give the value's signed 32-bit reading |
| EspUtil.UnpackPackI | src/vendor/esptool/util.ts:82-88 | a value below 2^31 comes back unchanged; a value from 2^31 up to 2^32 comes back less 2^32 |
| EspUtil.HexDigits | src/vendor/esptool/util.ts:98 | `toString(16).toUpperCase()` of a natural number is a non-empty run of hexadecimal digits, one digit exactly for values below 16 |
| EspUtil.ParseHexDigits | src/vendor/esptool/util.ts:98 | the hexadecimal notation reads back as the number |
| EspUtil.PadStart | src/vendor/esptool/util.ts:98 | `padStart` leaves a long enough string alone and otherwise prefixes exactly enough '0' characters to reach the size |
| EspUtil.ToHex | src/vendor/esptool/util.ts:97-99 | the result starts with "0x" |
| EspUtil.ToHexValue | src/vendor/esptool/util.ts:97-99 | for a non-negative value, "0x" is followed by max(size, digit count) hexadecimal digits that read back as the value |
| EspUtil.HexGroupOfByte | src/vendor/esptool/util.ts:106 | every byte becomes exactly two hexadecimal digits that read back as the byte |
| EspUtil.FormatMacAddr | src/vendor/esptool/util.ts:104-107 | the text is empty exactly for no values, and otherwise has at least 3n - 1 characters for n values |
| EspUtil.FormatMacAddrSeparators | src/vendor/esptool/util.ts:104-107 | for any n >= 1 values, the text holds exactly n - 1 ':' characters, since no group contains one |
| EspUtil.FormatMacAddrRoundTrip | src/vendor/esptool/util.ts:104-107 | n bytes format to n two-digit groups joined by ':' (3n - 1 characters) that parse back to the bytes |
| EspConst.FamilyTablesInjective | src/vendor/esptool/const.ts:30-40 | the three family codes are pairwise distinct, and so are the three magic register values |
| EspConst.TimeoutPerMb | src/vendor/esptool/const.ts:85-91 | the timeout is never below DEFAULT_TIMEOUT, and equals floor(secondsPerMb * sizeBytes / 486) whenever that is at least DEFAULT_TIMEOUT |
| EspConst.TimeoutPerMbMonotone | src/vendor/esptool/const.ts:85-91 | for a non-negative rate, a larger size never gets a shorter timeout |
| EspConst.EraseTimeoutForOneMegabyte | src/vendor/esptool/const.ts:86 | with 0x1e6 taken literally, the erase timeout for one megabyte is 64,726,913 ms, above MAX_TIMEOUT |
| EspConst.TimeoutOrdering | src/vendor/esptool/const.ts:68-73 | MAX_TIMEOUT is twice CHIP_ERASE_TIMEOUT (1,200,000 ms) and exceeds DEFAULT_TIMEOUT |
| EspConst.SyncPacketShape | src/vendor/esptool/const.ts:26-28 | the sync packet is 36 bytes: 0x07 0x07 0x12 0x20, then 32 bytes 0x55 |
| ChipFamilyName.GetChipFamilyName | src/util.ts:8-19 | the name is known exactly for the three family codes; every other code, and an unset family, is "Unknown Chip" |
| ChipFamilyName.FamilyNamed | src/util.ts:8-19 | a name maps back to a family that `getChipFamilyName` gives that very name |
| ChipFamilyName.ChipFamilyNameRoundTrip | src/util.ts:10-15 | each family gets its own name, and the name leads back to the family |
| ChipFamilyName.ChipFamilyNameInjective | src/util.ts:8-19 | two loaders share a known name only when they share the family code |
| Framing.Checksum | src/vendor/esptool/esp_loader.ts:440-445 | folding XOR from the seed over the bytes gives the seed XOR the order-free XOR of all bytes |
| Framing.ChecksumAppend | src/vendor/esptool/esp_loader.ts:440-445 | the checksum is a left fold: checksumming xs ++ ys continues from the checksum of xs |
| Framing.ChecksumTwice | src/vendor/esptool/esp_loader.ts:440-445 | checksumming the same bytes twice restores the starting state |
| Framing.ChecksumExamples | src/vendor/esptool/esp_loader.ts:440 | the empty checksum is the seed 0xEF |
| Framing.CommandFrame | src/vendor/esptool/esp_loader.ts:279-299 | the frame is delimited by 0xC0, carries direction 0x00 and the opcode, and its length field is the unescaped payload length modulo 2^16 |
| Framing.CommandFrameBetween | src/vendor/esptool/esp_loader.ts:282-287 | between the delimiters lie the raw header, then the escaped checksum word and the escaped payload |
| Framing.CommandFrameInner | src/vendor/esptool/esp_loader.ts:282-287 | when the header holds no SLIP control byte, the inside of the frame is the escaping of header, checksum and payload together |
| Framing.DeviceParsesCommandFrame | src/vendor/esptool/esp_loader.ts:279-299 | a chip decoding the frame by RFC 1055 reads back the opcode, the payload and the checksum modulo 2^32 when the length fits 16 bits and the header holds no control byte |
| Framing.CommandFrameDelimited | src/vendor/esptool/esp_loader.ts:282-287 | the closing delimiter is the only 0xC0 inside the frame if and only if neither the opcode nor a length byte is 0xC0 |
| Framing.CommandFrameLengthByteNotEscaped | src/vendor/esptool/esp_loader.ts:284 | a 0xC0-byte payload puts an unescaped 0xC0 at position 3, before the closing delimiter |
| Framing.Realign | src/vendor/esptool/esp_loader.ts:332-341 | the header hunt drops at most three leading bytes per iteration and keeps a suffix of the reply |
| Framing.ReceiveResponse | src/vendor/esptool/esp_loader.ts:312-349 | the receive loop consumes a prefix of the polls and leaves the rest queued |
| Framing.ResponseFrame | src/vendor/esptool/esp_loader.ts:342-355 | a completed reply is at least 10 bytes long and exactly its declared length plus 10 |
| Framing.ReceiveKeepsLength | src/vendor/esptool/esp_loader.ts:342-348 | the packet length the loop keeps is always the one declared by the current reply's header |
| Framing.GetResponse | src/vendor/esptool/esp_loader.ts:307-372 | a response exists exactly when a reply completes; its value is 4 bytes and its data as long as the declared length; unread polls stay queued |
| Framing.GetResponseOfDeviceReply | src/vendor/esptool/esp_loader.ts:307-372 | a well-formed reply frame from the chip (no 0xDB in its body) is returned with its value and data intact, and what follows stays queued |
| Framing.GetResponseSilent | src/vendor/esptool/esp_loader.ts:351-355 | a queue that delivers no byte yields `[null, null]` and leaves a queue that delivers none either |
| Framing.ReceiveBuffer | src/vendor/esptool/esp_loader.ts:385-412 | the raw read loop consumes a prefix of the polls and leaves the rest queued |
| Framing.ReadBuffer | src/vendor/esptool/esp_loader.ts:380-434 | `readBuffer` leaves the unread polls queued |
| Framing.ReadBufferOfFrame | src/vendor/esptool/esp_loader.ts:380-434 | a delimited frame whose bytes need no escaping is returned without its delimiters, and what follows stays queued |
| Framing.ReadBufferSilence | src/vendor/esptool/esp_loader.ts:414-418 | a queue that delivers no byte yields null |
| Framing.CheckStatus | src/vendor/esptool/esp_loader.ts:240-271 | a passing response keeps its value and loses its status trailer (all of its data when the status length is 0) |
| Framing.CheckCommand | src/vendor/esptool/esp_loader.ts:226-272 | the timeout is clamped to MAX_TIMEOUT; a missing response fails with "not enough status bytes"; success needs a response |
| Framing.StatusLength | src/vendor/esptool/esp_loader.ts:240-253 | the status is 2 bytes for the stub and the ESP8266, 4 for the ESP32 and ESP32-S2 ROMs, and before the family is known the whole data if it is 2 or 4 bytes long; it is 0 exactly in the remaining case |
| Framing.CheckStatusTwoBytes | src/vendor/esptool/esp_loader.ts:240-271 | for any loader whose status length is 2 (the stub, the ESP8266, or an unset family with 2 bytes of data): too short fails, status 1 with 0x05 is an invalid command, other status 1 a command failure, anything else passes without the status |
| Framing.CheckStatusFourBytes | src/vendor/esptool/esp_loader.ts:240-271 | for any loader whose status length is 4 (the ESP32 and ESP32-S2 ROMs, or an unset family with 4 bytes of data), only the first two status bytes decide, in the same way |
| Framing.CheckStatusUndetermined | src/vendor/esptool/esp_loader.ts:248-258 | before detection, data of a length other than 2 or 4 passes if and only if it is empty or does not start with 1, and then comes back empty |
| Framing.ReadRegCommand | src/vendor/esptool/esp_loader.ts:211-230 | READ_REG carries the address as four bytes that read back as the address modulo 2^32, with checksum 0 and the default timeout |
| Framing.ReadRegister | src/vendor/esptool/esp_loader.ts:211-218 | a register reads as a signed 32-bit number |
| Framing.ReadRegisterOfReply | src/vendor/esptool/esp_loader.ts:211-218 | a READ_REG reply carrying a register's bits and a passing status yields the register's signed 32-bit reading |
| Session.FirstFailure | src/vendor/esptool/esp_loader.ts:264-270 | awaiting checked exchanges in turn: all succeed and give all responses, or the run stops at the first failure, after only successes |
| Session.RunCommands | src/vendor/esptool/esp_loader.ts:540-562 | the commands sent are a prefix of those asked for, all of them when every exchange succeeds; a failure ends the run at the failing exchange |
| Session.FirstFailurePrefix | src/vendor/esptool/esp_loader.ts:540-562 | once an exchange has failed, later commands change nothing |
| Session.SyncOutcome | src/vendor/esptool/esp_loader.ts:474-485 | the retry loop stops at the first answered attempt and returns its number, none answered before it; it fails with SyncFailed exactly when no attempt is answered |
| Session.Sync | src/vendor/esptool/esp_loader.ts:474-504 | of the five `_sync` attempts, each on its own queue, sync reports the first answered one, none answered before it, and fails with SyncFailed exactly when none of the five is answered |
| Session.FirstAnswered | src/vendor/esptool/esp_loader.ts:475-482 | the first answered attempt, with no answered attempt before it |
| Session.SyncFrames | src/vendor/esptool/esp_loader.ts:493 | one SYNC frame per attempt made: the attempt count on success, five on failure |
| Session.SyncProbes | src/vendor/esptool/esp_loader.ts:492-504 | `_sync` never succeeds without a probe left; what a reply or silence gives is stated by SyncProbesOfReply and SyncProbesSilent |
| Session.SyncProbesOfReply | src/vendor/esptool/esp_loader.ts:494-501 | a reply whose data starts with two zero bytes, arriving on the first probe, makes `_sync` succeed |
| Session.SyncProbesSilent | src/vendor/esptool/esp_loader.ts:494-503 | a silent queue makes every probe time out, so `_sync` fails |
| Session.SyncSilentFails | src/vendor/esptool/esp_loader.ts:474-504 | a chip that never answers makes sync write five SYNC frames and fail with SyncFailed |
| Session.SyncFirstAnswer | src/vendor/esptool/esp_loader.ts:474-504 | a chip answering the first SYNC frame acceptably syncs after exactly one frame |
| Identify.DetectFamily | src/vendor/esptool/esp_loader.ts:79-88 | 0x15122500, 0x00062000 and 0x500 map to ESP32, ESP8266 and ESP32-S2; any other value is an unknown chip |
| Identify.DetectFamilyInverse | src/vendor/esptool/esp_loader.ts:79-88 | detection inverts the magic-value table |
| Identify.ChipName | src/vendor/esptool/esp_loader.ts:105-117 | the ESP32 is named "ESP32" and the ESP32-S2 "ESP32-S2"; an ESP8266 is named ESP8285 if and only if bit 4 of eFuse word 0 or bit 16 of word 2 is set, else ESP8266EX |
| Identify.EfuseBase | src/vendor/esptool/esp_loader.ts:91-98 | the eFuse words start at 0x3FF00050 on the ESP8266 and at 0x6001A000 on the ESP32 and ESP32-S2 |
| Identify.EfuseAddresses | src/vendor/esptool/esp_loader.ts:91-101 | the four eFuse words are read at base, base + 4, base + 8 and base + 12 |
| Identify.RegisterReads | src/vendor/esptool/esp_loader.ts:99-101 | each eFuse read is its own register exchange, in order |
| Identify.Initialize | src/vendor/esptool/esp_loader.ts:68-118 | on success sync succeeded, the family matches the magic register read with the family unset, the four eFuse words are the reads at the family's addresses, and the name follows from them; a failed sync fails initialisation |
| Identify.MacAddr | src/vendor/esptool/esp_loader.ts:163-205 | the MAC has six bytes; it fails exactly for an unset family, or for an ESP8266 with word 3 zero and an OUI index above 1 |
| Identify.MacAddrEsp32Value | src/vendor/esptool/esp_loader.ts:187-200 | on the ESP32 and ESP32-S2 the MAC, read as a 48-bit number, is the low 16 bits of eFuse word 2 above the 32 bits of word 1 |
| Identify.MacAddrEsp8266Value | src/vendor/esptool/esp_loader.ts:170-186 | on the ESP8266 a non-zero word 3 supplies the OUI as its low 24 bits, followed by bytes 1 and 0 of word 1 and byte 3 of word 0 |
| Identify.MacAddrEsp8266FixedOui | src/vendor/esptool/esp_loader.ts:171-186 | on an ESP8266 with word 3 zero, byte 2 of word 1 selects the OUI 18:FE:34 (0) or AC:D0:74 (1) and any other value fails; the last three bytes come from words 1 and 0 |
| Flashing.FlashWriteSize | src/vendor/esptool/esp_loader.ts:510-515 | the write size is 0x400 exactly on an ESP32-S2 loader and 0x200 otherwise |
| Flashing.NumBlocks | src/vendor/esptool/esp_loader.ts:598 | the block count is the fewest blocks covering the size: that many blocks hold it, one fewer do not |
| Flashing.NumBlocksStep | src/vendor/esptool/esp_loader.ts:598 | the block count of a positive size is one for at most one block, and one more than for the size less a block otherwise |
| Flashing.EraseSize | src/vendor/esptool/esp_loader.ts:648-664 | with n sectors and h head sectors, where h is 16 less the start sector's truncating remainder by 16 (so up to 31 below offset 0), twice the erase size is (n + 1) sectors when n < 2h, and the erase size is n - h sectors otherwise |
| Flashing.EraseSizeNegativeOffset | src/vendor/esptool/esp_loader.ts:652-661 | at offset -4096, 32 sectors erase 67584 bytes: the start sector -1 leaves a remainder of -1, so 17 head sectors |
| Bytes.JsRem | src/vendor/esptool/esp_loader.ts:654 | JavaScript's remainder takes the sign of the dividend, stays below the divisor in magnitude, and differs from the dividend by a multiple of the divisor |
| Flashing.EraseSizeBounds | src/vendor/esptool/esp_loader.ts:648-664 | size 0 erases nothing, and the erase never exceeds the whole sectors the image covers |
| Flashing.EraseSizeHalfSector | src/vendor/esptool/esp_loader.ts:659-661 | two sectors at offset 0 give 6144 bytes, not a whole number of sectors |
| Flashing.EraseSizeWholeSectors | src/vendor/esptool/esp_loader.ts:648-664 | the integer-halving variant always erases whole sectors |
| Flashing.EraseSizeDiffersOnlyOnEvenCounts | src/vendor/esptool/esp_loader.ts:659-661 | the code and the integer-halving variant differ only by half a sector, and only for an even sector count |
| Flashing.ReadWordsOfWords | src/vendor/esptool/esp_loader.ts:613 | the chip reads each packed word back modulo 2^32 |
| Flashing.FlashBeginWords | src/vendor/esptool/esp_loader.ts:598-616 | FLASH_BEGIN carries the erase size (getEraseSize on the ESP8266, the size otherwise), the block count, the write size and the offset, plus the encryption flag on the ESP32-S2 |
| Flashing.FlashBeginCommands | src/vendor/esptool/esp_loader.ts:586-636 | SPI_ATTACH first exactly on the ESP32 and ESP32-S2, SPI_SET_PARAMS for 4 MB on the ESP32, then FLASH_BEGIN with the size-scaled or stub timeout |
| Flashing.FlashBeginAnnouncesBlocks | src/vendor/esptool/esp_loader.ts:598-613 | the block count FLASH_BEGIN announces is the number of blocks `flashData` sends, and the block size the write size |
| Flashing.Block | src/vendor/esptool/esp_loader.ts:544-556 | a block is always exactly the block size, however few bytes remain at its position |
| Flashing.BlocksFrom | src/vendor/esptool/esp_loader.ts:540-560 | every block the loop sends is a full write |
| Flashing.BlockCount | src/vendor/esptool/esp_loader.ts:540-560 | the loop sends ceil(remaining / write size) blocks |
| Flashing.BlocksFlatten | src/vendor/esptool/esp_loader.ts:544-556 | the blocks laid end to end are the image followed by nothing but 0xFF |
| Flashing.BlocksCoverImage | src/vendor/esptool/esp_loader.ts:540-562 | the image is split into as many full blocks as FLASH_BEGIN announces, which laid end to end are the image and then 0xFF padding |
| Flashing.BlockPayload | src/vendor/esptool/esp_loader.ts:575 | the data payload is the header words (length, sequence number, 0, 0) followed by the block itself |
| Flashing.FlashBlockCommand | src/vendor/esptool/esp_loader.ts:572-579 | FLASH_DATA with the block header, the block, the checksum of the block alone and a 2000 ms timeout |
| Flashing.FlashDataCommands | src/vendor/esptool/esp_loader.ts:524-562 | `flashData` sends the `flashBegin` commands, then one FLASH_DATA per block with sequence numbers 0, 1, 2, ... |
| Flashing.FlashData | src/vendor/esptool/esp_loader.ts:524-566 | the callback receives (k + 1) times the write size after block k, once per block the chip acknowledged: for every block when all succeed, for every block before the failing one when a block fails, and never when `flashBegin` fails |
| Flashing.FlashDataSends | src/vendor/esptool/esp_loader.ts:540-562 | what `flashData` sends is a prefix of its commands, and all of them when it succeeds |
| Flashing.FlashDataFinalProgress | src/vendor/esptool/esp_loader.ts:559-561 | a successful write reports the whole padded image last, which is at least the file size |
| Flashing.FlashDataEmptyImage | src/vendor/esptool/esp_loader.ts:529-561 | an empty image never reaches the progress callback, whatever the chip answers |
| Flashing.FlashDataProgressOvershoots | src/vendor/esptool/esp_loader.ts:549-561 | a one-byte image on the ESP8266 ROM reports 512 bytes written |
| Bootstrap.MemBeginCommand | src/vendor/esptool/esp_loader.ts:670-680 | MEM_BEGIN carries size, block count, block size and address as words the chip reads back modulo 2^32 |
| Bootstrap.MemBlockCommand | src/vendor/esptool/esp_loader.ts:686-692 | MEM_DATA carries the block header and the block, checksummed over the block |
| Bootstrap.MemFinishCommand | src/vendor/esptool/esp_loader.ts:703-715 | MEM_END carries a flag that is 1 exactly when there is no entry point, then the entry point; the ROM gets the short 50 ms timeout |
| Bootstrap.RamBlocksFrom | src/vendor/esptool/esp_loader.ts:732-739 | every RAM block is non-empty and at most the RAM block size |
| Bootstrap.RamBlocksReassemble | src/vendor/esptool/esp_loader.ts:729-739 | the RAM blocks put back together are the segment, and there are as many as MEM_BEGIN announces |
| Bootstrap.SegmentCommands | src/vendor/esptool/esp_loader.ts:726-741 | a segment is uploaded as MEM_BEGIN, then one MEM_DATA per block with sequence numbers 0, 1, 2, ... |
| Bootstrap.StubCommands | src/vendor/esptool/esp_loader.ts:718-743 | the stub upload sends the text segment, then the data segment, then MEM_END with the entry point |
| Bootstrap.RunStub | src/vendor/esptool/esp_loader.ts:718-754 | the commands sent are a prefix of the upload; a failed exchange fails the call; the stub runs exactly when the frame read after MEM_END is "OHAI", and then the result is a stub loader with no family |
| Bootstrap.RunStubSilentGreeting | src/vendor/esptool/esp_loader.ts:745-750 | a chip that sends nothing after the MEM_END response never starts the stub |
| Bootstrap.RunStubGreeted | src/vendor/esptool/esp_loader.ts:745-753 | after a successful upload, an "OHAI" frame after the MEM_END response yields the stub loader |
| Bootstrap.StubMemBegin | src/vendor/esptool/esp_loader.ts:790-826 | the stub's `memBegin` sends nothing; with no family it fails because `getStubCode` finds no stub; with a family it refuses exactly a load range overlapping the data or the text segment as half-open ranges, naming the data segment first |
| Bootstrap.StubMemBeginAfterRunStub | src/vendor/esptool/esp_loader.ts:752-754 | the stub loader `runStub` returns has no family, so its `memBegin` always fails |
| Bootstrap.StubMemBeginResident | src/vendor/esptool/esp_loader.ts:806-825 | loading over a non-empty text segment is refused, and with a family set a load ending where the text starts (clear of the data) is allowed |
| Bootstrap.EraseFlash | src/vendor/esptool/esp_loader.ts:832-834 | ERASE_FLASH uses the chip-erase timeout, and fails with "not enough status bytes" without a response |
| Bootstrap.EraseFlashFrame | src/vendor/esptool/esp_loader.ts:833 | the erase frame is exactly 10 bytes: the delimiters, direction, the ERASE_FLASH opcode, a zero length and a zero checksum |
| Manifests.FirstBuildIndex | src/start-flash.ts:62-68 | the first build whose chipFamily equals the family, with no match before it, or none exactly when no build matches |
| Manifests.FirstBuild | src/flash.ts:115 | `find` returns a build of the manifest with the wanted family, or nothing exactly when no build has it |
| Manifests.FirstBuildIgnoresLater | src/start-flash.ts:62-68 | builds after a matching one never change the selection |
| Manifests.FirstFailedDownload | src/start-flash.ts:103-113 | the first part, in part order, whose download failed, after only successful ones; none exactly when all succeeded |
| FlashLog.AddRow | src/flash-log.ts:33-46 | the row is always last; the length is unchanged when it replaces the last row (same non-empty id) and grows by one otherwise; earlier rows are untouched |
| FlashLog.AddError | src/flash-log.ts:51-53 | exactly one error row without id is appended, the rows before it unchanged |
| FlashLog.RemoveRow | src/flash-log.ts:58-62 | the last row is dropped exactly when its id is the given one; otherwise the list is unchanged, also when empty |
| FlashLog.AddRowIdempotent | src/flash-log.ts:33-46 | adding the same identified row twice leaves one copy |
| FlashLog.RemoveAfterAdd | src/flash-log.ts:33-62 | removing by the id just added undoes the add, except that a replaced row stays gone |
| FlashLog.ErrorRowStays | src/flash-log.ts:51-62 | an error row can never be removed by id |
| ConsoleColor.Sgr | src/util/console-color.ts:80-174 | a parameter is ignored exactly when it is unreadable or not one of the codes the switch lists |
| ConsoleColor.Apply | src/util/console-color.ts:80-174 | a reset returns to the initial style, an ignored parameter changes nothing, only a reset or a secret code changes the secret flag, and no change touches the carriage-return flag |
| ConsoleColor.ApplyCode | src/util/console-color.ts:81-91 | no parameter touches the carriage-return flag, and 0 resets every attribute and both colours |
| ConsoleColor.ApplyCodeAttribute | src/util/console-color.ts:92-121 | 1, 3, 4, 9 set and 22, 23, 24, 29 clear bold, italic, underline and strikethrough; 5 sets and 6 clears secret; nothing else changes |
| ConsoleColor.ApplyCodeColour | src/util/console-color.ts:122-173 | 30-37 select a foreground and 39 clears it; 41-47 select a background and both 40 and 49 clear it, so 40 does not select black |
| ConsoleColor.ApplyCodeIgnored | src/util/console-color.ts:80-174 | an unreadable or unlisted parameter leaves the state unchanged |
| ConsoleColor.ApplyCodeIdempotent | src/util/console-color.ts:81-174 | applying the same parameter twice is applying it once |
| ConsoleColor.ApplyCodes | src/util/console-color.ts:80-175 | the parameters of a sequence never change the carriage-return flag |
| ConsoleColor.ApplyCodesAppend | src/util/console-color.ts:80-175 | parameters apply left to right: a longer sequence continues from the state the shorter one left |
| ConsoleColor.LastColourWins | src/util/console-color.ts:80-175 | the last colour parameter of a sequence decides the colour, whatever came before; a final 40 leaves no background |
| ConsoleColor.ResetForgetsHistory | src/util/console-color.ts:80-91 | a trailing 0 erases the effect of every earlier parameter |
| ConsoleColor.TrimStart | src/util/console-color.ts:81 | `parseInt` skips exactly the leading white space and line terminators |
| ConsoleColor.DigitRun | src/util/console-color.ts:81 | the number is read up to the first character that is not a digit |
| ConsoleColor.ParseInt | src/util/console-color.ts:81 | a number is read only when the trimmed text starts with a sign or a digit |
| ConsoleColor.ParseIntDecimal | src/util/console-color.ts:81 | `parseInt` reads back the decimal notation of any natural number, after any white space and before any text that cannot continue it |
| ConsoleColor.Split | src/util/console-color.ts:80 | `split(";")` yields at least one piece and no piece contains ';' |
| ConsoleColor.SplitJoin | src/util/console-color.ts:80 | joining the pieces with ';' gives the parameter string back |
| ConsoleColor.Codes | src/util/console-color.ts:80-81 | one parsed parameter per piece of the split, in order |
| ConsoleColor.IntroducerAt | src/util/console-color.ts:27 | an escape starts with ESC (one character) or the text `\033` (four), inside the line |
| ConsoleColor.CsiFinal | src/util/console-color.ts:27 | a control sequence ends at a final byte in '@'..'~' inside the line |
| ConsoleColor.OscEnd | src/util/console-color.ts:27 | an operating-system command ends inside the line, after its start |
| ConsoleColor.MatchAt | src/util/console-color.ts:27 | a match starting at p is non-empty and ends inside the line |
| ConsoleColor.NextMatch | src/util/console-color.ts:70-72 | the match found starts at or after the search position and is a match there |
| ConsoleColor.NextMatchLeftmost | src/util/console-color.ts:70-72 | the match found is the leftmost: nothing matches before it, and nothing at all when none is found |
| ConsoleColor.Tokenize | src/util/console-color.ts:70-78 | the line is cut into pieces ending with the text after the last match |
| ConsoleColor.TokenizeReassembles | src/util/console-color.ts:70-77 | cutting loses nothing: text and matches put back together are the line |
| ConsoleColor.PlainLine | src/util/console-color.ts:70-77 | a line without ESC or backslash is one piece of text |
| ConsoleColor.AddSpan | src/util/console-color.ts:46-68 | empty text adds no span; other text adds a span in the current style, followed by the "[redacted]" marker in secret mode |
| ConsoleColor.StepToken | src/util/console-color.ts:74-78 | a piece never changes the carriage-return flag and never adds an empty text span |
| ConsoleColor.Render | src/util/console-color.ts:70-177 | the spans of a line never hold empty text and never change the carriage-return flag |
| ConsoleColor.RenderShowsVisibleText | src/util/console-color.ts:70-177 | the spans show exactly the text between the escape sequences, in order |
| ConsoleColor.OscKeepsStyle | src/util/console-color.ts:78 | an operating-system command is dropped from the text and changes no style |
| ConsoleColor.AddLine | src/util/console-color.ts:26-44 | `addLine` throws exactly when the flag is set, the line is not a lone "\n", and there is no line to remove |
| ConsoleColor.AddLineCarriageReturn | src/util/console-color.ts:30-40 | on a console whose flag implies a line on screen: no throw; the last line is replaced exactly when the flag was set and the line is not "\n"; earlier lines stay; the flag ends up set exactly when the line holds "\r"; the new line shows its text without escapes |
| FlashEvents.SelectedBuild | src/flash.ts:115 | the build is the first one of the fetched manifest for the chip's family |
| FlashEvents.FileArray | src/flash.ts:157-177 | one entry per part, in part order, with the downloaded length and the part's offset |
| FlashEvents.TotalSizeAppend | src/flash.ts:158-164 | the total size is the sum of the downloaded lengths |
| FlashEvents.Percent | src/flash.ts:218-220 | the exact floor of 100 times the fraction written; not a finite number when the total size is 0 |
| FlashEvents.ProgressEvents | src/flash.ts:214-237 | every progress event is a WRITING event, at most one per report, and the completed total ends as the starting total plus the length of every file a report completes |
| FlashEvents.ProgressEventsValues | src/flash.ts:209-237 | a report that does not complete its file fires, in report order, an event whose bytesWritten is the completed files' bytes plus the report's own (compressed) count, and whose percentage is floor(100 · (completed + written/total · file length) / totalSize); a completing report adds exactly its file's length |
| FlashEvents.ProgressEventCount | src/flash.ts:222-226 | a report with written equal to total emits nothing: there is exactly one event per report that does not complete its file |
| FlashEvents.Flash | src/flash.ts:26-269 | the run always opens with INITIALIZING; it rejects exactly when an erase that was asked for fails after everything was prepared, and it resets the chip exactly when the run got through the write |
| FlashEvents.FlashStartsInitializing | src/flash.ts:37-60 | the first event is INITIALIZING not done, with no manifest, build or chip known |
| FlashEvents.FlashInitFailure | src/flash.ts:62-75 | a failed initialisation emits INITIALIZING, then ERROR FAILED_INITIALIZING with nothing known, then disconnects |
| FlashEvents.FlashUnsupportedChip | src/flash.ts:79-90 | an unsupported chip gives ERROR NOT_SUPPORTED before INITIALIZING done and before any MANIFEST event |
| FlashEvents.FlashNoBuild | src/flash.ts:115-131 | with no build for the chip, MANIFEST done is followed by ERROR NOT_SUPPORTED and the disconnect, and no PREPARING event appears |
| FlashEvents.FlashCaughtFailures | src/flash.ts:62-113 | initialisation, chip-support and manifest failures each end the run with exactly one ERROR event followed only by the disconnect |
| FlashEvents.FlashDownloadFailure | src/flash.ts:160-177 | a failed download ends the run with one ERROR FAILED_FIRMWARE_DOWNLOAD and the disconnect, and the call returns |
| FlashEvents.FlashWriteFailure | src/flash.ts:209-246 | a failed write is caught: exactly one WRITE_FAILED error event, then the disconnect, no reset, and the call returns |
| FlashEvents.FlashEraseFailure | src/flash.ts:185-197 | an erase failure rejects the call right after ERASING not done, with no ERROR event at all |
| FlashEvents.FlashSuccess | src/flash.ts:185-268 | writing starts at 0 % of the total; the ERASING pair appears exactly when erasing was asked for; the run ends with WRITING at 100 %, the reset, the disconnect and FINISHED, with no ERROR |
| StartFlash.Percent | src/start-flash.ts:123 | the exact floor of 100 times the fraction written; not a finite number when the total size is 0 |
| StartFlash.Dedup | src/start-flash.ts:122-130 | every value passed on moves the percentage away from the last one reported, the passed values come from the callback's values, and the last percentage remembered is that of the last value |
| StartFlash.DedupIsFilter | src/start-flash.ts:119-131 | the values passed on are exactly, and in order, those whose percentage differs from the one held when they arrive: `last` for the first value, the previous value's percentage after that |
| StartFlash.DedupKeepsChanges | src/start-flash.ts:122-130 | a value whose percentage differs from the one before it is never dropped |
| StartFlash.ChangesAppend | src/start-flash.ts:117-131 | the de-duplication carries its last percentage from one part to the next |
| StartFlash.WritePart | src/start-flash.ts:120-132 | every progress value of one part is a positive whole number of write blocks |
| StartFlash.FlashOne | src/start-flash.ts:120-132 | one part is one `flashData` call with that part's file and offset, followed by the updates that move the percentage |
| StartFlash.Writes | src/start-flash.ts:119-133 | each part is written with its own file at its own offset over its own reads |
| StartFlash.Files | src/start-flash.ts:103-113 | the files are the downloads in part order |
| StartFlash.FlashParts | src/start-flash.ts:119-133 | the loop completes exactly when every part's write succeeds; the order of the calls, the percentages and the block sizes are stated by FlashPartsCalls, FlashPartsChanges and FlashPartsWholeBlocks |
| StartFlash.FlashPartsCalls | src/start-flash.ts:119-133 | the parts are written in manifest order, each with its own file at its own offset; a failed write stops the loop after its own call |
| StartFlash.FlashPartsChanges | src/start-flash.ts:117-131 | across all parts every update moves the percentage away from the one before, starting from the given last value |
| StartFlash.FlashPartsWholeBlocks | src/start-flash.ts:119-133 | every update of every part is a whole number of write blocks |
| StartFlash.StartFlash | src/start-flash.ts:8-140 | a port request that is cancelled does nothing; every run that returns having done something ends with the disconnect; a rejection comes only after the chip was initialised and the manifest fetched |
| StartFlash.Initialized | src/start-flash.ts:35-45 | a failed initialisation returns, with effects exactly when the port is still connected; whatever a returning run did ends with the disconnect; a rejection needs a chip and a manifest |
| StartFlash.Identified | src/start-flash.ts:50-74 | a run that returns ends with the disconnect, and a run that rejects had a manifest |
| StartFlash.Selected | src/start-flash.ts:60-74 | with no build for the chip's family the board is named as unsupported and the loader disconnects |
| StartFlash.Stubbed | src/start-flash.ts:98-99 | a stub that does not start rejects the call with no effects; once it runs the call has effects, and a returning run ends with the disconnect |
| StartFlash.Downloaded | src/start-flash.ts:87-113 | an error message opens the effects exactly when a download failed, and a returning run ends with the disconnect |
| StartFlash.Write | src/start-flash.ts:115-139 | the total announced first is the sum of the files' lengths, and a returning run closes with the reset, that total and the disconnect |
| StartFlash.Close | src/start-flash.ts:115-139 | the call returns exactly when every write succeeded; the total comes first; a rejected loop adds nothing after the loop's own effects |
| StartFlash.StartFlashCancelled | src/start-flash.ts:24-29 | a cancelled port request ends the call with no effect |
| StartFlash.StartFlashInitFailure | src/start-flash.ts:35-45 | a failed initialisation returns; it disconnects exactly when the port is still connected, and has no effect at all otherwise |
| StartFlash.StartFlashSyncFailure | src/start-flash.ts:35-45 | a chip that never syncs gets the initialisation message and the disconnect, nothing else |
| StartFlash.IdentifiedManifestFailure | src/start-flash.ts:49-55 | a manifest that cannot be fetched is reported, the loader disconnects, and nothing is written |
| StartFlash.IdentifiedNoBuild | src/start-flash.ts:60-74 | with no build for the chip's family name, the board is reported unsupported, the loader disconnects, and nothing is written |
| StartFlash.IdentifiedStubFailure | src/start-flash.ts:99 | a stub that does not start rejects the call before any download or write |
| StartFlash.IdentifiedWritesWithStub | src/start-flash.ts:99-133 | the parts are written through the stub loader, whose write size is 0x200 |
| StartFlash.DownloadedFailure | src/start-flash.ts:87-113 | the first failed download, in part order, is reported with a download error for that part and the loader disconnects, before anything is written |
| StartFlash.CloseLog | src/start-flash.ts:115-139 | the total is announced first; a loop that did not reject is followed by the reset, the full total and the disconnect |
| StartFlash.WriteCalls | src/start-flash.ts:115-139 | the total comes first, the parts are written in manifest order; a run that returns has written every part and ends with reset, full total and disconnect; a run that rejects made at least one call |
| StartFlash.WriteLoopProgress | src/start-flash.ts:117-133 | every update the loop lets through moves the percentage away from -1 and from the one before, and is a whole number of blocks |
| StartFlash.WriteReturnedProgress | src/start-flash.ts:117-139 | a run that returns reports the loop's updates, then the full total last |
| StartFlash.WriteRejectedProgress | src/start-flash.ts:117-133 | a run that rejects reports only updates that move the percentage, in whole blocks |
| StartFlash.TotalLengthAppend | src/start-flash.ts:103-115 | the total is the sum of the downloaded files' lengths |

## Left out

- Serial I/O and signal lines are not modelled, and neither are `sleep` and `Date.now()`. This covers `readLoop`, `writeToStream`, `softReset`, `disconnect`, `setBaudrate`, `flashFinish` and `resetTransport`. Reads consume finite poll sequences instead of waiting on a clock, and timeouts are carried as values only.
- The background read pump and the concurrent part downloads are not modelled. Their results are given as already-resolved outcomes, consumed in part order.
- Stub images are given as a record of text, data, load addresses and entry. Loading them (dynamic JSON import and base64 decoding in `src/vendor/esptool/stubs/index.ts`) is not part of this model.
- The esptool-js calls in `src/flash.ts` are opaque outcomes:
  - `main_fn`, `flash_id`, `erase_flash`, `write_flash`;
  - the chip's `CHIP_NAME` and `ROM_TEXT`.
- The manifest fetch, `fetch` of the parts and `FileReader` are opaque outcomes too.
- Human-readable messages and log texts are represented by constructors, not strings. This also covers the `debug` logging.
- The DOM is not modelled: the log element's other fields, the `improv` pre-load in `src/start-flash.ts:76-85`, element creation and scrolling in `src/util/console-color.ts`. Console lines are sequences of styled spans.
- `connect` (`src/vendor/esptool/index.ts`) is represented only by whether the port request succeeded. Whether the port is still connected after a failed initialisation is an input.
- The big-endian branch of `pack` is modelled as written, with its shift by `(byteCount - i) * 8` taken modulo 32. No property is stated about it, since no caller uses it.
- EspConst.TimeoutPerMb: computes `floor(secondsPerMb * sizeBytes / 486)` exactly. Double-precision rounding of `secondsPerMb * (sizeBytes / 0x1e6)` is not modelled.
- FlashEvents.Percent: the progress fraction `(written / total) * length` and the percentage are exact rationals floored. Double-precision rounding is not modelled, and a non-finite percentage is `None`.
- StartFlash.Percent: exact floor instead of double-precision arithmetic, with a non-finite percentage as `None`, which the model treats as equal to nothing. In JavaScript `0 / 0` is NaN but a positive count over 0 is Infinity, and `Infinity === Infinity` holds. This never shows: a total size of 0 means every file is empty, and `flashData` then never calls back (`Flashing.FlashDataEmptyImage`).
- FlashEvents.Flash: requires every progress report to name a file of the array with 0 <= written <= total and total > 0. Other reports would make the callback throw inside the external library or produce NaN, which the model does not follow.
- FlashEvents.FlashCaughtFailures: covers the initialisation, chip-support and manifest failures. The download and write failures are stated by FlashEvents.FlashDownloadFailure and FlashEvents.FlashWriteFailure.
- StartFlash.DownloadedFailure: a failed download is carried as `DownloadFailed(filename)`. The log shows the error's message, which names the file only for a non-ok HTTP status (`src/start-flash.ts:90-93`, `src/start-flash.ts:109`). A `fetch` that throws has its own message, which the model does not distinguish.
- Rfc1055Decode is a reference decoder for the chip's side. It is not code of this repository.

=== FILE: bootstrap.dfy ===
/** Uploading the flasher stub to RAM and starting it, and the commands that
    behave differently once the stub runs. */
module Bootstrap {
  import opened Results
  import opened Bytes
  import opened EspUtil
  import opened EspConst
  import opened Framing
  import opened Session
  import opened Flashing

  /** A stub image: the text and data segments with their load addresses, and the entry point. */
  datatype StubImage = StubImage(text: seq<byte>, textStart: int, data: seq<byte>, dataStart: int, entry: int)

  /** `memBegin` on the ROM loader: MEM_BEGIN with size, block count, block size and address. */
  function MemBeginCommand(size: int, blocks: int, blockSize: int, offset: int): (r: Command)
    ensures r.opcode == ESP_MEM_BEGIN && r.checksum == 0 && r.timeout == DEFAULT_TIMEOUT
    ensures |r.payload| == 16
    ensures ReadWords(r.payload) == [size % TWO_32, blocks % TWO_32, blockSize % TWO_32, offset % TWO_32]
  {
    FourWords(size, blocks, blockSize, offset);
    Command(ESP_MEM_BEGIN, Words([size, blocks, blockSize, offset]), 0, DEFAULT_TIMEOUT)
  }

  /** `memBlock`: MEM_DATA with the same header as a flash block, checksummed over the block. */
  function MemBlockCommand(block: seq<byte>, seqNo: int): (r: Command)
    ensures r.opcode == ESP_MEM_DATA && r.timeout == DEFAULT_TIMEOUT
    ensures |r.payload| == 16 + |block| && r.payload[16..] == block
    ensures ReadWords(r.payload[..16]) == [|block| % TWO_32, seqNo % TWO_32, 0, 0]
    ensures r.checksum == Checksum(block) as int
  {
    Command(ESP_MEM_DATA, BlockPayload(block, seqNo), Checksum(block) as int, DEFAULT_TIMEOUT)
  }

  /** `memFinish`: MEM_END with a flag that is 1 exactly when there is no entry
      point, then the entry point; the ROM gets a short timeout. */
  function MemFinishCommand(loader: Loader, entry: int): (r: Command)
    ensures r.opcode == ESP_MEM_END && r.checksum == 0
    ensures r.timeout == if loader.isStub then DEFAULT_TIMEOUT else MEM_END_ROM_TIMEOUT
    ensures |r.payload| == 8
    ensures ReadWords(r.payload) == [if entry == 0 then 1 else 0, entry % TWO_32]
  {
    var vs := [if entry == 0 then 1 else 0, entry];
    ReadWordsOfWords(vs);
    Command(ESP_MEM_END, Words(vs), 0, if loader.isStub then DEFAULT_TIMEOUT else MEM_END_ROM_TIMEOUT)
  }

  /** The RAM blocks of one segment from `position` on: slices of at most
      `blockSize` bytes, the last one shorter and not padded. */
  function RamBlocksFrom(segment: seq<byte>, blockSize: nat, position: nat): (r: seq<seq<byte>>)
    requires blockSize > 0
    ensures forall k :: 0 <= k < |r| ==> 0 < |r[k]| <= blockSize
    decreases |segment| - position
  {
    if position >= |segment| then []
    else
      var upTo := if position + blockSize > |segment| then |segment| else position + blockSize;
      [segment[position..upTo]] + RamBlocksFrom(segment, blockSize, position + blockSize)
  }

  /** The RAM blocks put back together give the segment, and there are as
      many as the MEM_BEGIN command announces. */
  lemma {:induction false} RamBlocksReassemble(segment: seq<byte>, blockSize: nat, position: nat)
    requires blockSize > 0 && position <= |segment|
    ensures Flatten(RamBlocksFrom(segment, blockSize, position)) == segment[position..]
    ensures |RamBlocksFrom(segment, blockSize, position)| == NumBlocks(|segment| - position, blockSize)
    decreases |segment| - position
  {
    var blocks := RamBlocksFrom(segment, blockSize, position);
    if position == |segment| {
      assert segment[position..] == [];
      DivUnique(blockSize - 1, blockSize, 0, blockSize - 1);
    } else {
      NumBlocksStep(|segment| - position, blockSize);
      if position + blockSize < |segment| {
        RamBlocksReassemble(segment, blockSize, position + blockSize);
        assert blocks[1..] == RamBlocksFrom(segment, blockSize, position + blockSize);
        assert segment[position..] == segment[position..position + blockSize] + segment[position + blockSize..];
      } else {
        assert RamBlocksFrom(segment, blockSize, position + blockSize) == [];
        assert blocks[1..] == [];
        assert blocks[0] == segment[position..];
      }
    }
  }

  /** The commands that upload one segment: MEM_BEGIN, then one MEM_DATA per block. */
  function SegmentCommands(segment: seq<byte>, start: int): (r: seq<Command>)
    ensures var blocks := RamBlocksFrom(segment, USB_RAM_BLOCK, 0);
            |r| == 1 + |blocks|
            && r[0] == MemBeginCommand(|segment|, NumBlocks(|segment|, USB_RAM_BLOCK), USB_RAM_BLOCK, start)
            && forall k :: 0 <= k < |blocks| ==> r[1 + k] == MemBlockCommand(blocks[k], k)
  {
    var blocks := RamBlocksFrom(segment, USB_RAM_BLOCK, 0);
    [MemBeginCommand(|segment|, NumBlocks(|segment|, USB_RAM_BLOCK), USB_RAM_BLOCK, start)]
      + seq(|blocks|, k requires 0 <= k < |blocks| => MemBlockCommand(blocks[k], k))
  }

  /** Everything `runStub` writes: the text segment, the data segment, then MEM_END. */
  function StubCommands(loader: Loader, stub: StubImage): (r: seq<Command>)
    ensures var text := SegmentCommands(stub.text, stub.textStart);
            var data := SegmentCommands(stub.data, stub.dataStart);
            |r| == |text| + |data| + 1
            && r[..|text|] == text && r[|text|..|text| + |data|] == data
            && r[|r| - 1] == MemFinishCommand(loader, stub.entry)
  {
    var text := SegmentCommands(stub.text, stub.textStart);
    var data := SegmentCommands(stub.data, stub.dataStart);
    var r := text + data + [MemFinishCommand(loader, stub.entry)];
    assert r[..|text|] == text;
    assert r[|text|..|text| + |data|] == data;
    r
  }

  /** The greeting the stub sends once it runs. */
  const OHAI: seq<byte> := [0x4F, 0x48, 0x41, 0x49]

  /** `runStub`: upload both segments, send MEM_END, then read one frame from
      what follows the MEM_END response; the stub runs when that frame is
      "OHAI". The loader it returns is a stub loader whose family is unset. */
  function RunStub(loader: Loader, stub: StubImage, streams: seq<seq<Poll>>): (r: (Run, Result<Loader, LoaderError>))
    ensures var cmds := StubCommands(loader, stub);
            |r.0.sent| <= |cmds| && r.0.sent == cmds[..|r.0.sent|]
    ensures r.0.result.Err? ==> r.1 == Err(r.0.result.error)
    ensures r.1.Ok? <==> r.0.result.Ok? && StubGreeting(loader, stub, streams) == Some(OHAI)
    ensures r.1.Ok? ==> r.1.value == Loader(None, true)
    ensures r.0.result.Ok? && r.1.Err? ==> r.1.error == StubStartFailed
  {
    var cmds := StubCommands(loader, stub);
    var run := RunCommands(loader, cmds, streams);
    if run.result.Err? then (run, Err(run.result.error))
    else if StubGreeting(loader, stub, streams) == Some(OHAI) then (run, Ok(Loader(None, true)))
    else (run, Err(StubStartFailed))
  }

  /** The frame `readBuffer` returns after the MEM_END exchange, from the
      bytes left in that exchange's stream; `None` when none arrives. */
  function StubGreeting(loader: Loader, stub: StubImage, streams: seq<seq<Poll>>): Option<seq<byte>>
  {
    ReadBuffer(AfterFinish(loader, stub, streams)).0
  }

  /** What is left of the MEM_END exchange's stream once its response is read. */
  function AfterFinish(loader: Loader, stub: StubImage, streams: seq<seq<Poll>>): seq<Poll>
  {
    var cmds := StubCommands(loader, stub);
    CheckCommand(loader, cmds[|cmds| - 1], StreamAt(streams, |cmds| - 1)).rest
  }

  /** A chip that sends nothing after the MEM_END response never starts the stub. */
  lemma RunStubSilentGreeting(loader: Loader, stub: StubImage, streams: seq<seq<Poll>>)
    requires Silent(AfterFinish(loader, stub, streams))
    ensures RunStub(loader, stub, streams).1.Err?
  {
    ReadBufferSilence(AfterFinish(loader, stub, streams));
  }

  /** After a successful upload, a chip that follows the MEM_END response with
      an "OHAI" frame yields a stub loader. */
  lemma RunStubGreeted(loader: Loader, stub: StubImage, streams: seq<seq<Poll>>, after: seq<Poll>)
    requires RunStub(loader, stub, streams).0.result.Ok?
    requires AfterFinish(loader, stub, streams) == Arrivals([SLIP_END] + OHAI + [SLIP_END]) + after
    ensures RunStub(loader, stub, streams).1 == Ok(Loader(None, true))
  {
    GreetingOfFrame(AfterFinish(loader, stub, streams), after);
  }

  lemma GreetingOfFrame(rest: seq<Poll>, after: seq<Poll>)
    requires rest == Arrivals([SLIP_END] + OHAI + [SLIP_END]) + after
    ensures ReadBuffer(rest).0 == Some(OHAI)
  {
    ReadBufferOfFrame(OHAI, after);
  }

  // ---------------------------------------------------------------------------
  // The stub loader

  /** `memBegin` on a stub loader: sends nothing. It first looks up the stub
      image for the loader's family; with the family unset no image is found
      and decoding it throws. Otherwise it refuses a load range that overlaps
      the stub's own data or text segment (checked in that order, as half-open
      ranges). `stub` is the image the lookup finds for a set family. */
  function StubMemBegin(loader: Loader, stub: StubImage, size: int, offset: int): (r: Result<(), LoaderError>)
    ensures loader.family.None? <==> r == Err(NoStubCode)
    ensures var dataEnd := stub.dataStart + |stub.data|;
            var textEnd := stub.textStart + |stub.text|;
            loader.family.Some? ==>
            && (r.Ok? <==> !Overlaps(offset, offset + size, stub.dataStart, dataEnd)
                           && !Overlaps(offset, offset + size, stub.textStart, textEnd))
            && (Overlaps(offset, offset + size, stub.dataStart, dataEnd) ==> r == Err(LoaderResident(stub.dataStart, dataEnd)))
            && (r.Err? && !Overlaps(offset, offset + size, stub.dataStart, dataEnd) ==> r == Err(LoaderResident(stub.textStart, textEnd)))
  {
    if loader.family.None? then Err(NoStubCode)
    else
      var loadStart, loadEnd := offset, offset + size;
      var dataEnd := stub.dataStart + |stub.data|;
      var textEnd := stub.textStart + |stub.text|;
      if loadStart < dataEnd && loadEnd > stub.dataStart then Err(LoaderResident(stub.dataStart, dataEnd))
      else if loadStart < textEnd && loadEnd > stub.textStart then Err(LoaderResident(stub.textStart, textEnd))
      else Ok(())
  }

  /** The only stub loader the program builds is the one `runStub` returns,
      whose family is unset: on it every `memBegin` fails before the overlap
      guard is reached. */
  lemma StubMemBeginAfterRunStub(loader: Loader, stub: StubImage, streams: seq<seq<Poll>>,
                                 image: StubImage, size: int, offset: int)
    ensures var started := RunStub(loader, stub, streams).1;
            started.Ok? ==> StubMemBegin(started.value, image, size, offset) == Err(NoStubCode)
  {
  }

  /** The half-open ranges [loadStart, loadEnd) and [start, end) share an address. */
  predicate Overlaps(loadStart: int, loadEnd: int, start: int, end: int)
  {
    loadStart < end && loadEnd > start
  }

  /** Loading over a non-empty stub segment is always refused, and on a
      loader whose family is set a load that ends where the text segment starts
      (clear of the data) is not an overlap. */
  lemma StubMemBeginResident(loader: Loader, stub: StubImage, size: int)
    ensures |stub.text| > 0 ==> StubMemBegin(loader, stub, |stub.text|, stub.textStart).Err?
    ensures loader.family.Some? && size >= 0 && stub.textStart - size >= stub.dataStart + |stub.data|
            ==> StubMemBegin(loader, stub, size, stub.textStart - size).Ok?
  {
  }

  /** The stub's `eraseFlash`: ERASE_FLASH with no payload and the chip-erase timeout. */
  const ERASE_FLASH_COMMAND: Command := Command(ESP_ERASE_FLASH, [], 0, CHIP_ERASE_TIMEOUT)

  function EraseFlash(loader: Loader, polls: seq<Poll>): (r: Exchange)
    ensures r.timeout == CHIP_ERASE_TIMEOUT
    ensures r.result.Ok? ==> GetResponse(ESP_ERASE_FLASH, polls).0.Some?
    ensures GetResponse(ESP_ERASE_FLASH, polls).0.None? ==> r.result == Err(NotEnoughStatusBytes)
  {
    CheckCommand(loader, ERASE_FLASH_COMMAND, polls)
  }

  /** The erase command's frame carries no payload, so it is a fixed ten bytes. */
  lemma EraseFlashFrame()
    ensures |CommandFrame(ERASE_FLASH_COMMAND)| == 10
    ensures CommandFrame(ERASE_FLASH_COMMAND)[2] == ESP_ERASE_FLASH
    ensures CommandFrame(ERASE_FLASH_COMMAND)[3] == 0 && CommandFrame(ERASE_FLASH_COMMAND)[4] == 0
    ensures CommandFrame(ERASE_FLASH_COMMAND)[5..9] == [0, 0, 0, 0]
    ensures CommandFrame(ERASE_FLASH_COMMAND)[0] == SLIP_END && CommandFrame(ERASE_FLASH_COMMAND)[9] == SLIP_END
  {
  }
}

=== FILE: bytes.dfy ===
/** Bytes and the 32-bit integer view JavaScript's bit operators impose on numbers. */
module Bytes {

  type byte = x: int | 0 <= x < 0x100

  const TWO_16: int := 0x1_0000
  const TWO_31: int := 0x8000_0000
  const TWO_32: int := 0x1_0000_0000

  /** `x` shifted right by `8 * i` bits, for a non-negative `x`. */
  function Shr8(x: nat, i: nat): nat
  {
    if i == 0 then x else Shr8(x, i - 1) / 0x100
  }

  /** Byte `i` (0 = least significant) of the 32-bit pattern of `v`:
      JavaScript's `(v >> 8 * i) & 0xff`, which first wraps `v` modulo 2^32. */
  function ByteOf(v: int, i: nat): byte
    requires i < 4
  {
    Shr8(v % TWO_32, i) % 0x100
  }

  /** Low eight bits of `v`: JavaScript's `v & 0xff`. */
  function Low8(v: int): byte
  {
    v % 0x100
  }

  /** JavaScript's ToInt32: the signed reading of the low 32 bits of `v`. */
  function ToInt32(v: int): (r: int)
    ensures -TWO_31 <= r < TWO_31
    ensures (r - v) % TWO_32 == 0
  {
    var u := v % TWO_32;
    if u >= TWO_31 then u - TWO_32 else u
  }

  /** Bit `k` of the 32-bit pattern of `v`: JavaScript's `(v & (1 << k)) != 0`. */
  predicate BitSet(v: int, k: nat)
    requires k < 31
  {
    Shr1(v % TWO_32, k) % 2 == 1
  }

  function Shr1(x: nat, k: nat): nat
  {
    if k == 0 then x else Shr1(x, k - 1) / 2
  }

  /** The four bytes of a 32-bit value recombine to its unsigned reading. */
  lemma {:induction false} ByteOfRecombine(v: int)
    ensures ByteOf(v, 0) + 0x100 * ByteOf(v, 1) + 0x1_0000 * ByteOf(v, 2)
            + 0x100_0000 * ByteOf(v, 3) == v % TWO_32
  {
    var u := v % TWO_32;
    var s1 := Shr8(u, 1);
    var s2 := Shr8(u, 2);
    var s3 := Shr8(u, 3);
    assert Shr8(u, 0) == u;
    assert s1 == u / 0x100;
    assert s2 == s1 / 0x100;
    assert s3 == s2 / 0x100;
    assert u == u % 0x100 + 0x100 * s1;
    assert s1 == s1 % 0x100 + 0x100 * s2;
    assert s2 == s2 % 0x100 + 0x100 * s3;
    assert s1 < 0x100_0000;
    assert s2 < 0x1_0000;
    assert s3 < 0x100;
    assert s3 % 0x100 == s3;
  }

  /** The three low bytes of a value recombine to its value modulo 2^24. */
  lemma LowThreeBytes(v: int)
    ensures ByteOf(v, 0) + 0x100 * ByteOf(v, 1) + 0x1_0000 * ByteOf(v, 2) == v % 0x100_0000
  {
    ByteOfRecombine(v);
    var low: int := ByteOf(v, 0) + 0x100 * ByteOf(v, 1) + 0x1_0000 * ByteOf(v, 2);
    var a, b3: int := v / TWO_32, ByteOf(v, 3);
    assert v == TWO_32 * a + v % TWO_32;
    DivUnique(v, 0x100_0000, 0x100 * a + b3, low);
  }

  /** Division is determined by any quotient and remainder that fit: `n == b * q + r` with `0 <= r < b`. */
  lemma DivUnique(n: int, b: nat, q: int, r: int)
    requires b > 0 && 0 <= r < b && n == b * q + r
    ensures n / b == q && n % b == r
  {
    var q0, r0 := n / b, n % b;
    assert n == b * q0 + r0;
    if q0 < q {
      MulGap(b, q0, q);
    } else if q0 > q {
      MulGap(b, q, q0);
    }
  }

  lemma MulGap(b: nat, x: int, y: int)
    requires x < y
    ensures b * x + b <= b * y
  {
    var d: nat := y - x - 1;
    assert b * y == b * x + b * d + b;
    assert b * d >= 0;
  }

  /** JavaScript's `a % b`: the remainder of division truncated toward zero,
      so it takes the sign of `a`. */
  function JsRem(a: int, b: nat): (r: int)
    requires b > 0
    ensures a >= 0 ==> 0 <= r < b
    ensures a < 0 ==> -(b as int) < r <= 0
    ensures (a - r) % b == 0
  {
    var n := if a >= 0 then a else -a;
    var q, m := n / b, n % b;
    assert n == b * q + m;
    if a >= 0 then
      assert a - m == b * q;
      MultipleRem(b, q);
      m
    else
      assert b * -q == -(b * q);
      assert a + m == b * -q;
      MultipleRem(b, -q);
      -m
  }

  lemma MultipleRem(b: nat, q: int)
    requires b > 0
    ensures (b * q) % b == 0
  {
    DivUnique(b * q, b, q, 0);
  }
}

=== FILE: chip_family_name.dfy ===
/** The display name of a loader's chip family, which manifests use to select a build. */
module ChipFamilyName {
  import opened Results
  import opened EspConst

  const UNKNOWN_CHIP: string := "Unknown Chip"

  /** `getChipFamilyName`: a switch on the loader's family code, which is
      unset (`None`) on a loader that never identified its chip. */
  function GetChipFamilyName(code: Option<int>): (r: string)
    ensures r != UNKNOWN_CHIP <==> code.Some? && code.value in {CHIP_FAMILY_ESP32, CHIP_FAMILY_ESP8266, CHIP_FAMILY_ESP32S2}
  {
    match code
    case Some(c) =>
      if c == CHIP_FAMILY_ESP32 then "ESP32"
      else if c == CHIP_FAMILY_ESP8266 then "ESP8266"
      else if c == CHIP_FAMILY_ESP32S2 then "ESP32-S2"
      else UNKNOWN_CHIP
    case None => UNKNOWN_CHIP
  }

  /** The family a display name stands for: the inverse of the mapping above. */
  function FamilyNamed(name: string): (r: Option<ChipFamily>)
    ensures r.Some? ==> GetChipFamilyName(Some(r.value.Code())) == name
  {
    if name == "ESP32" then Some(ESP32)
    else if name == "ESP8266" then Some(ESP8266)
    else if name == "ESP32-S2" then Some(ESP32S2)
    else None
  }

  /** Every family has its own name, and the name gives the family back. */
  lemma ChipFamilyNameRoundTrip(f: ChipFamily)
    ensures GetChipFamilyName(Some(f.Code())) != UNKNOWN_CHIP
    ensures FamilyNamed(GetChipFamilyName(Some(f.Code()))) == Some(f)
  {
  }

  /** Two loaders get the same known name only when they share the family. */
  lemma ChipFamilyNameInjective(a: Option<int>, b: Option<int>)
    requires GetChipFamilyName(a) == GetChipFamilyName(b) != UNKNOWN_CHIP
    ensures a == b
  {
  }
}

=== FILE: console_color.dfy ===
/** The serial console's line colouring: escape sequences are cut out of each
    line, Select Graphic Rendition parameters (section 8.3.117 of ECMA-48)
    update a style state, and the text between them becomes styled spans. A
    line containing a carriage return is replaced by the next line. */
module ConsoleColor {
  import opened Results

  datatype Color = Black | Red | Green | Yellow | Blue | Magenta | Cyan | White

  /** The eight colours in SGR order: code 30 + k and 40 + k select colour k. */
  const COLORS: seq<Color> := [Black, Red, Green, Yellow, Blue, Magenta, Cyan, White]

  datatype ConsoleState = ConsoleState(
    bold: bool, italic: bool, underline: bool, strikethrough: bool,
    foreground: Option<Color>, background: Option<Color>,
    carriageReturn: bool, secret: bool)

  const INITIAL_STATE: ConsoleState := ConsoleState(false, false, false, false, None, None, false, false)

  /** The SGR parameters the console reacts to; every other value is ignored. */
  const SGR_CODES: set<int> := {0, 1, 3, 4, 5, 6, 9, 22, 23, 24, 29, 30, 31, 32, 33, 34, 35, 36, 37, 39,
                                40, 41, 42, 43, 44, 45, 46, 47, 49}

  /** What one SGR parameter does to the style. */
  datatype Change =
    | Reset
    | Bold(on: bool) | Italic(on: bool) | Underline(on: bool) | Strikethrough(on: bool) | Secret(on: bool)
    | Foreground(colour: Option<Color>) | Background(colour: Option<Color>)
    | Ignore

  /** The `switch` over one parameter, `None` standing for a parameter
      `parseInt` cannot read. */
  function Sgr(code: Option<int>): (r: Change)
    ensures r.Ignore? <==> code.None? || code.value !in SGR_CODES
  {
    match code
    case None => Ignore
    case Some(c) =>
      if c == 0 then Reset
      else if c == 1 then Bold(true)
      else if c == 3 then Italic(true)
      else if c == 4 then Underline(true)
      else if c == 5 then Secret(true)
      else if c == 6 then Secret(false)
      else if c == 9 then Strikethrough(true)
      else if c == 22 then Bold(false)
      else if c == 23 then Italic(false)
      else if c == 24 then Underline(false)
      else if c == 29 then Strikethrough(false)
      else if 30 <= c <= 37 then Foreground(Some(COLORS[c - 30]))
      else if c == 39 then Foreground(None)
      else if 41 <= c <= 47 then Background(Some(COLORS[c - 40]))
      else if c == 40 || c == 49 then Background(None)
      else Ignore
  }

  /** One style change: a reset returns to the initial style, an ignored
      parameter changes nothing, and no change touches the carriage-return flag. */
  function Apply(st: ConsoleState, change: Change): (r: ConsoleState)
    ensures r.carriageReturn == st.carriageReturn
    ensures change.Reset? ==> r == INITIAL_STATE.(carriageReturn := st.carriageReturn)
    ensures change.Ignore? ==> r == st
    ensures !change.Reset? && !change.Secret? ==> r.secret == st.secret
  {
    match change
    case Reset => st.(bold := false, italic := false, underline := false, strikethrough := false,
                      foreground := None, background := None, secret := false)
    case Bold(on) => st.(bold := on)
    case Italic(on) => st.(italic := on)
    case Underline(on) => st.(underline := on)
    case Strikethrough(on) => st.(strikethrough := on)
    case Secret(on) => st.(secret := on)
    case Foreground(c) => st.(foreground := c)
    case Background(c) => st.(background := c)
    case Ignore => st
  }

  /** One SGR parameter applied to the style; the carriage-return flag is not the parameters' to change. */
  function ApplyCode(st: ConsoleState, code: Option<int>): (r: ConsoleState)
    ensures r.carriageReturn == st.carriageReturn
    ensures code == Some(0) ==> r == INITIAL_STATE.(carriageReturn := st.carriageReturn)
  {
    Apply(st, Sgr(code))
  }

  /** The attribute parameters set or clear exactly one attribute. */
  lemma ApplyCodeAttribute(st: ConsoleState, code: Option<int>)
    ensures code == Some(1) || code == Some(22) ==> ApplyCode(st, code) == st.(bold := code == Some(1))
    ensures code == Some(3) || code == Some(23) ==> ApplyCode(st, code) == st.(italic := code == Some(3))
    ensures code == Some(4) || code == Some(24) ==> ApplyCode(st, code) == st.(underline := code == Some(4))
    ensures code == Some(9) || code == Some(29) ==> ApplyCode(st, code) == st.(strikethrough := code == Some(9))
    ensures code == Some(5) || code == Some(6) ==> ApplyCode(st, code) == st.(secret := code == Some(5))
  {
  }

  /** The colour parameters set or clear exactly one colour; 40 clears the
      background rather than selecting black. */
  lemma ApplyCodeColour(st: ConsoleState, code: Option<int>)
    ensures code.Some? && 30 <= code.value <= 37 ==> ApplyCode(st, code) == st.(foreground := Some(COLORS[code.value - 30]))
    ensures code == Some(39) ==> ApplyCode(st, code) == st.(foreground := None)
    ensures code.Some? && 41 <= code.value <= 47 ==> ApplyCode(st, code) == st.(background := Some(COLORS[code.value - 40]))
    ensures code == Some(40) || code == Some(49) ==> ApplyCode(st, code) == st.(background := None)
  {
  }

  /** Unreadable and unknown parameters leave the state alone. */
  lemma ApplyCodeIgnored(st: ConsoleState, code: Option<int>)
    requires code.None? || code.value !in SGR_CODES
    ensures ApplyCode(st, code) == st
  {
  }

  /** Every parameter sets attributes to fixed values, so applying it twice is applying it once. */
  lemma ApplyCodeIdempotent(st: ConsoleState, code: Option<int>)
    ensures ApplyCode(ApplyCode(st, code), code) == ApplyCode(st, code)
  {
    ApplyIdempotent(st, Sgr(code));
  }

  lemma ApplyIdempotent(st: ConsoleState, change: Change)
    ensures Apply(Apply(st, change), change) == Apply(st, change)
  {
  }

  /** The parameters of one sequence, applied left to right. */
  function ApplyCodes(st: ConsoleState, codes: seq<Option<int>>): (r: ConsoleState)
    ensures r.carriageReturn == st.carriageReturn
    decreases |codes|
  {
    if codes == [] then st else ApplyCodes(ApplyCode(st, codes[0]), codes[1..])
  }

  lemma {:induction false} ApplyCodesAppend(st: ConsoleState, codes: seq<Option<int>>, more: seq<Option<int>>)
    ensures ApplyCodes(st, codes + more) == ApplyCodes(ApplyCodes(st, codes), more)
    decreases |codes|
  {
    if codes != [] {
      assert (codes + more)[0] == codes[0];
      assert (codes + more)[1..] == codes[1..] + more;
      ApplyCodesAppend(ApplyCode(st, codes[0]), codes[1..], more);
    } else {
      assert codes + more == more;
    }
  }

  /** Of several colour parameters in one sequence the last one wins, whatever came before. */
  lemma LastColourWins(st: ConsoleState, codes: seq<Option<int>>, k: int)
    requires 0 <= k < 8
    ensures ApplyCodes(st, codes + [Some(30 + k)]).foreground == Some(COLORS[k])
    ensures ApplyCodes(st, codes + [Some(40 + k)]).background == if k == 0 then None else Some(COLORS[k])
  {
    ApplyCodesAppend(st, codes, [Some(30 + k)]);
    ApplyCodesAppend(st, codes, [Some(40 + k)]);
    ApplyCodeColour(ApplyCodes(st, codes), Some(30 + k));
    ApplyCodeColour(ApplyCodes(st, codes), Some(40 + k));
  }

  /** A reset at the end of a sequence erases the effect of everything before it. */
  lemma ResetForgetsHistory(st: ConsoleState, codes: seq<Option<int>>)
    ensures ApplyCodes(st, codes + [Some(0)]) == INITIAL_STATE.(carriageReturn := st.carriageReturn)
  {
    ApplyCodesAppend(st, codes, [Some(0)]);
  }

  // ---------------------------------------------------------------------------
  // parseInt and split

  /** The white space and line terminators `parseInt` skips before the number. */
  predicate IsJsSpace(c: char)
  {
    c == ' ' || c == '\t' || c == '\n' || c == '\r' || c == 11 as char || c == 12 as char
    || c == 0xA0 as char || c == 0x1680 as char || (0x2000 as char <= c <= 0x200A as char)
    || c == 0x2028 as char || c == 0x2029 as char || c == 0x202F as char || c == 0x205F as char
    || c == 0x3000 as char || c == 0xFEFF as char
  }

  function TrimStart(s: string): (r: string)
    ensures |r| <= |s| && r == s[|s| - |r|..]
    ensures r == [] || !IsJsSpace(r[0])
    ensures forall i :: 0 <= i < |s| - |r| ==> IsJsSpace(s[i])
  {
    if s != [] && IsJsSpace(s[0]) then TrimStart(s[1..]) else s
  }

  /** The value of a digit in base 10 or 16. */
  function DigitValue(c: char, radix: nat): (r: Option<nat>)
    ensures r.Some? ==> r.value < radix
  {
    if '0' <= c <= '9' && (c as int) - ('0' as int) < radix then Some((c as int) - ('0' as int))
    else if radix == 16 && 'a' <= c <= 'f' then Some((c as int) - ('a' as int) + 10)
    else if radix == 16 && 'A' <= c <= 'F' then Some((c as int) - ('A' as int) + 10)
    else None
  }

  /** Length of the run of digits at the start of `s`. */
  function DigitRun(s: string, radix: nat): (n: nat)
    ensures n <= |s|
    ensures forall i :: 0 <= i < n ==> DigitValue(s[i], radix).Some?
    ensures n < |s| ==> DigitValue(s[n], radix).None?
  {
    if s != [] && DigitValue(s[0], radix).Some? then 1 + DigitRun(s[1..], radix) else 0
  }

  /** The number a string of digits denotes, most significant first. */
  function DigitsValue(s: string, radix: nat): nat
    requires forall i :: 0 <= i < |s| ==> DigitValue(s[i], radix).Some?
  {
    if s == [] then 0 else DigitsValue(s[..|s| - 1], radix) * radix + DigitValue(s[|s| - 1], radix).value
  }

  /** JavaScript's `parseInt` without a radix: leading white space, an optional
      sign, then an unsigned number; no digits at all is NaN (`None`).
      Negative zero compares equal to zero, as in the `switch`. */
  function ParseInt(s: string): (r: Option<int>)
    ensures r.Some? ==> var t := TrimStart(s); t != [] && (t[0] == '-' || t[0] == '+' || DigitValue(t[0], 10).Some?)
  {
    var t := TrimStart(s);
    var negative := t != [] && t[0] == '-';
    var u := if t != [] && (t[0] == '-' || t[0] == '+') then t[1..] else t;
    match Magnitude(u)
    case None => None
    case Some(m) => var v: int := m; Some(if negative then -v else v)
  }

  /** The unsigned part: hexadecimal after a `0x` or `0X` prefix, decimal
      otherwise, read up to the first character that is not a digit. */
  function Magnitude(u: string): (r: Option<nat>)
    ensures r.Some? ==> u != [] && DigitValue(u[0], 10).Some?
  {
    var hex := |u| >= 2 && u[0] == '0' && (u[1] == 'x' || u[1] == 'X');
    var radix := if hex then 16 else 10;
    var v := if hex then u[2..] else u;
    var n := DigitRun(v, radix);
    if n == 0 then None else Some(DigitsValue(v[..n], radix))
  }

  function DigitChar(d: nat): (c: char)
    requires d < 10
    ensures DigitValue(c, 10) == Some(d)
  {
    (('0' as int) + d) as char
  }

  /** The decimal notation of a natural number, without leading zeros. */
  function Decimal(n: nat): (r: string)
    ensures |r| > 0 && forall i :: 0 <= i < |r| ==> DigitValue(r[i], 10).Some?
    ensures |r| > 1 ==> r[0] != '0'
  {
    if n < 10 then [DigitChar(n)] else Decimal(n / 10) + [DigitChar(n % 10)]
  }

  lemma {:induction false} DecimalValue(n: nat)
    ensures DigitsValue(Decimal(n), 10) == n
  {
    if n >= 10 {
      var r := Decimal(n);
      assert r[..|r| - 1] == Decimal(n / 10);
      DecimalValue(n / 10);
    }
  }

  /** `parseInt` reads back the decimal notation of any natural number, with or
      without leading white space and whatever text follows it that cannot
      continue the number. */
  lemma ParseIntDecimal(n: nat, pad: string, rest: string)
    requires forall i :: 0 <= i < |pad| ==> IsJsSpace(pad[i])
    requires rest == [] || (DigitValue(rest[0], 10).None? && rest[0] != 'x' && rest[0] != 'X')
    ensures ParseInt(pad + Decimal(n) + rest) == Some(n)
  {
    var d := Decimal(n);
    var u := d + rest;
    assert pad + d + rest == pad + u;
    assert u[0] == d[0];
    TrimPad(pad, u);
    MagnitudeDecimal(n, rest);
    ParseIntUnsigned(pad + u);
  }

  /** Text that starts with a digit once trimmed is read as an unsigned number. */
  lemma ParseIntUnsigned(s: string)
    requires TrimStart(s) != [] && DigitValue(TrimStart(s)[0], 10).Some?
    ensures ParseInt(s) == match Magnitude(TrimStart(s)) case None => None case Some(m) => Some(m as int)
  {
    var t := TrimStart(s);
    assert t[0] != '-' && t[0] != '+';
  }

  lemma MagnitudeDecimal(n: nat, rest: string)
    requires rest == [] || (DigitValue(rest[0], 10).None? && rest[0] != 'x' && rest[0] != 'X')
    ensures Magnitude(Decimal(n) + rest) == Some(n)
  {
    var d := Decimal(n);
    var u := d + rest;
    assert u[0] == d[0];
    if |u| >= 2 {
      assert u[1] == if |d| == 1 then rest[0] else d[1];
    }
    RunOfDigits(d, rest);
    assert u[..|d|] == d;
    DecimalValue(n);
  }

  lemma {:induction false} TrimPad(pad: string, s: string)
    requires forall i :: 0 <= i < |pad| ==> IsJsSpace(pad[i])
    requires s != [] && !IsJsSpace(s[0])
    ensures TrimStart(pad + s) == s
  {
    if pad != [] {
      assert (pad + s)[1..] == pad[1..] + s;
      TrimPad(pad[1..], s);
    } else {
      assert pad + s == s;
    }
  }

  lemma {:induction false} RunOfDigits(d: string, rest: string)
    requires forall i :: 0 <= i < |d| ==> DigitValue(d[i], 10).Some?
    requires rest == [] || DigitValue(rest[0], 10).None?
    ensures DigitRun(d + rest, 10) == |d|
  {
    if d != [] {
      assert (d + rest)[1..] == d[1..] + rest;
      RunOfDigits(d[1..], rest);
    } else {
      assert d + rest == rest;
    }
  }

  /** `split(";")`: the pieces between separators, at least one. */
  function Split(s: string, sep: char): (r: seq<string>)
    ensures |r| >= 1
    ensures forall k :: 0 <= k < |r| ==> sep !in r[k]
    decreases |s|
  {
    if sep !in s then [s]
    else
      var i := IndexOf(s, sep);
      [s[..i]] + Split(s[i + 1..], sep)
  }

  function IndexOf(s: string, c: char): (i: nat)
    requires c in s
    ensures i < |s| && s[i] == c && c !in s[..i]
  {
    if s[0] == c then 0 else 1 + IndexOf(s[1..], c)
  }

  function Join(pieces: seq<string>, sep: char): string
    requires |pieces| >= 1
  {
    if |pieces| == 1 then pieces[0] else pieces[0] + [sep] + Join(pieces[1..], sep)
  }

  /** Joining the pieces with the separator gives the string back. */
  lemma {:induction false} SplitJoin(s: string, sep: char)
    ensures Join(Split(s, sep), sep) == s
    decreases |s|
  {
    if sep in s {
      var i := IndexOf(s, sep);
      var rest := Split(s[i + 1..], sep);
      var pieces := Split(s, sep);
      assert pieces == [s[..i]] + rest;
      assert pieces[0] == s[..i] && pieces[1..] == rest;
      SplitJoin(s[i + 1..], sep);
      assert Join(pieces, sep) == s[..i] + [sep] + Join(rest, sep);
      assert s == s[..i] + [sep] + s[i + 1..];
    }
  }

  /** The parameters of a control sequence, as the `switch` sees them. */
  function Codes(params: string): (r: seq<Option<int>>)
    ensures |r| == |Split(params, ';')|
    ensures forall k :: 0 <= k < |r| ==> r[k] == ParseInt(Split(params, ';')[k])
  {
    var pieces := Split(params, ';');
    seq(|pieces|, k requires 0 <= k < |pieces| => ParseInt(pieces[k]))
  }

  // ---------------------------------------------------------------------------
  // Cutting a line at escape sequences

  const ESC: char := 27 as char
  const BEL: char := 7 as char

  /** The characters the regular expression's `.` does not match. */
  predicate IsLineTerminator(c: char)
  {
    c == '\n' || c == '\r' || c == 0x2028 as char || c == 0x2029 as char
  }

  predicate IsFinalByte(c: char)
  {
    '@' <= c <= '~'
  }

  /** Length of an escape introducer at `p`: the ESC character, or the four characters `\033`. */
  function IntroducerAt(line: string, p: nat): (n: nat)
    ensures n == 0 || n == 1 || n == 4
    ensures n > 0 ==> p + n <= |line|
  {
    if p < |line| && line[p] == ESC then 1
    else if p + 4 <= |line| && line[p] == '\\' && line[p + 1] == '0' && line[p + 2] == '3' && line[p + 3] == '3' then 4
    else 0
  }

  /** Index of the final byte of a control sequence whose parameters start at
      `k`: the first character in `@`..`~`, unless a line terminator or the end of
      the line comes first. */
  function CsiFinal(line: string, k: nat): (r: Option<nat>)
    ensures r.Some? ==> k <= r.value < |line| && IsFinalByte(line[r.value])
    decreases |line| - k
  {
    if k >= |line| then None
    else if IsFinalByte(line[k]) then Some(k)
    else if IsLineTerminator(line[k]) then None
    else CsiFinal(line, k + 1)
  }

  /** End of an operating-system command starting at `k`: just past the first
      BEL or ESC `\`, unless a line terminator or the end of the line comes first. */
  function OscEnd(line: string, k: nat): (r: Option<nat>)
    ensures r.Some? ==> k < r.value <= |line|
    decreases |line| - k
  {
    if k >= |line| then None
    else if line[k] == BEL then Some(k + 1)
    else if line[k] == ESC && k + 1 < |line| && line[k + 1] == '\\' then Some(k + 2)
    else if IsLineTerminator(line[k]) then None
    else OscEnd(line, k + 1)
  }

  /** An escape sequence: where it ends, and its SGR parameters (`None` for an
      operating-system command, whose parameters the console ignores). */
  datatype Escape = Escape(end: nat, params: Option<string>)

  /** The escape sequence the console's regular expression matches at `p`, if any. */
  function MatchAt(line: string, p: nat): (r: Option<Escape>)
    ensures r.Some? ==> p < r.value.end <= |line|
  {
    var n := IntroducerAt(line, p);
    if n == 0 || p + n >= |line| then None
    else if line[p + n] == '[' then
      match CsiFinal(line, p + n + 1)
      case None => None
      case Some(f) => Some(Escape(f + 1, Some(line[p + n + 1..f])))
    else if line[p + n] == ']' then
      match OscEnd(line, p + n + 1)
      case None => None
      case Some(e) => Some(Escape(e, None))
    else None
  }

  /** The leftmost match at or after `from`. */
  function NextMatch(line: string, from: nat): (r: Option<nat>)
    ensures r.Some? ==> from <= r.value < |line| && MatchAt(line, r.value).Some?
    decreases |line| - from
  {
    if from >= |line| then None
    else if MatchAt(line, from).Some? then Some(from)
    else NextMatch(line, from + 1)
  }

  /** The match found is the leftmost one: nothing matches before it, and
      nothing matches at all when none is found. */
  lemma {:induction false} NextMatchLeftmost(line: string, from: nat, q: nat)
    requires from <= q < |line|
    ensures NextMatch(line, from).Some? && q < NextMatch(line, from).value ==> MatchAt(line, q).None?
    ensures NextMatch(line, from).None? ==> MatchAt(line, q).None?
    decreases |line| - from
  {
    if q > from && MatchAt(line, from).None? {
      NextMatchLeftmost(line, from + 1, q);
    }
  }

  datatype Token = Text(text: string) | Sequence(raw: string, params: Option<string>)

  /** The line from `from` on, cut into the text between matches and the matches themselves. */
  function Tokenize(line: string, from: nat): (r: seq<Token>)
    requires from <= |line|
    ensures |r| >= 1 && r[|r| - 1].Text?
    decreases |line| - from
  {
    match NextMatch(line, from)
    case None => [Text(line[from..])]
    case Some(p) =>
      var m := MatchAt(line, p).value;
      [Text(line[from..p]), Sequence(line[p..m.end], m.params)] + Tokenize(line, m.end)
  }

  function Raw(t: Token): string
  {
    match t
    case Text(s) => s
    case Sequence(s, _) => s
  }

  function RawText(ts: seq<Token>): string
  {
    if ts == [] then [] else Raw(ts[0]) + RawText(ts[1..])
  }

  /** Cutting loses nothing: the pieces, put back together, are the line. */
  lemma {:induction false} TokenizeReassembles(line: string, from: nat)
    requires from <= |line|
    ensures RawText(Tokenize(line, from)) == line[from..]
    decreases |line| - from
  {
    match NextMatch(line, from)
    case None =>
      assert RawText(Tokenize(line, from)) == line[from..] + RawText([]);
    case Some(p) =>
      var m := MatchAt(line, p).value;
      var rest := Tokenize(line, m.end);
      assert Tokenize(line, from) == [Text(line[from..p]), Sequence(line[p..m.end], m.params)] + rest;
      RawTextPair(line[from..p], line[p..m.end], m.params, rest);
      TokenizeReassembles(line, m.end);
      SliceThree(line, from, p, m.end);
  }

  /** Three adjacent slices of a line make up the slice from the first's start to the end. */
  lemma SliceThree(line: string, i: nat, j: nat, k: nat)
    requires i <= j <= k <= |line|
    ensures line[i..] == line[i..j] + line[j..k] + line[k..]
  {
    assert line[i..] == line[i..j] + line[j..];
    assert line[j..] == line[j..k] + line[k..];
  }

  lemma RawTextPair(text: string, raw: string, params: Option<string>, rest: seq<Token>)
    ensures RawText([Text(text), Sequence(raw, params)] + rest) == text + raw + RawText(rest)
  {
    var ts := [Text(text), Sequence(raw, params)] + rest;
    assert ts[1..][1..] == rest;
    assert RawText(ts) == text + RawText(ts[1..]);
  }

  /** Text without any escape sequence is a single piece. */
  lemma {:induction false} PlainLine(line: string, from: nat)
    requires from <= |line|
    requires forall i :: from <= i < |line| ==> line[i] != ESC && line[i] != '\\'
    ensures Tokenize(line, from) == [Text(line[from..])]
  {
    NoMatchInPlain(line, from);
  }

  lemma NoMatchInPlain(line: string, from: nat)
    requires forall i :: from <= i < |line| ==> line[i] != ESC && line[i] != '\\'
    ensures NextMatch(line, from).None?
  {
    forall q | from <= q < |line| ensures MatchAt(line, q).None? {
      if q + 4 <= |line| {
        assert line[q..q + 4][0] == line[q];
      }
    }
  }

  // ---------------------------------------------------------------------------
  // Spans and lines

  /** A span of text in the style in force when it was added, or the
      "[redacted]" marker that follows text printed in secret mode. */
  datatype Span = Styled(text: string, style: ConsoleState) | Redacted

  /** `addSpan`: nothing for empty text. */
  function AddSpan(st: ConsoleState, content: string): (r: seq<Span>)
    ensures content == "" <==> r == []
    ensures r != [] ==> r[0] == Styled(content, st) && |r| == (if st.secret then 2 else 1)
  {
    if content == "" then [] else [Styled(content, st)] + (if st.secret then [Redacted] else [])
  }

  /** What one piece contributes: text becomes spans in the current style,
      SGR parameters change the style, an operating-system command does nothing. */
  function StepToken(st: ConsoleState, t: Token): (r: (seq<Span>, ConsoleState))
    ensures r.1.carriageReturn == st.carriageReturn
    ensures forall k :: 0 <= k < |r.0| && r.0[k].Styled? ==> r.0[k].text != ""
  {
    match t
    case Text(s) => (AddSpan(st, s), st)
    case Sequence(_, None) => ([], st)
    case Sequence(_, Some(params)) => ([], ApplyCodes(st, Codes(params)))
  }

  /** The spans of a line's pieces, and the style after them. */
  function Render(st: ConsoleState, ts: seq<Token>): (r: (seq<Span>, ConsoleState))
    ensures r.1.carriageReturn == st.carriageReturn
    ensures forall k :: 0 <= k < |r.0| && r.0[k].Styled? ==> r.0[k].text != ""
    decreases |ts|
  {
    if ts == [] then ([], st)
    else
      var first := StepToken(st, ts[0]);
      var rest := Render(first.1, ts[1..]);
      assert forall k :: |first.0| <= k < |first.0 + rest.0| ==> (first.0 + rest.0)[k] == rest.0[k - |first.0|];
      (first.0 + rest.0, rest.1)
  }

  /** The text the spans show. */
  function Shown(spans: seq<Span>): string
  {
    if spans == [] then []
    else (match spans[0] case Styled(s, _) => s case Redacted => "") + Shown(spans[1..])
  }

  /** The text between escape sequences. */
  function Visible(ts: seq<Token>): string
  {
    if ts == [] then [] else (if ts[0].Text? then ts[0].text else "") + Visible(ts[1..])
  }

  lemma {:induction false} ShownAppend(a: seq<Span>, b: seq<Span>)
    ensures Shown(a + b) == Shown(a) + Shown(b)
  {
    if a != [] {
      assert (a + b)[0] == a[0];
      assert (a + b)[1..] == a[1..] + b;
      ShownAppend(a[1..], b);
    } else {
      assert a + b == b;
    }
  }

  /** The spans show exactly the text between the escape sequences, in order. */
  lemma {:induction false} RenderShowsVisibleText(st: ConsoleState, ts: seq<Token>)
    ensures Shown(Render(st, ts).0) == Visible(ts)
    decreases |ts|
  {
    if ts != [] {
      var first := StepToken(st, ts[0]);
      RenderShowsVisibleText(first.1, ts[1..]);
      ShownAppend(first.0, Render(first.1, ts[1..]).0);
      StepShows(st, ts[0]);
    }
  }

  lemma StepShows(st: ConsoleState, t: Token)
    ensures Shown(StepToken(st, t).0) == if t.Text? then t.text else ""
  {
    if t.Text? && t.text != "" {
      var spans := StepToken(st, t).0;
      assert spans[1..] == if st.secret then [Redacted] else [];
      if st.secret {
        assert spans[1..][1..] == [];
        assert Shown(spans[1..]) == "" + Shown([]);
        assert Shown(spans) == t.text + Shown(spans[1..]);
      }
    }
  }

  /** An operating-system command changes no style. */
  lemma OscKeepsStyle(st: ConsoleState, raw: string, ts: seq<Token>)
    ensures Render(st, [Sequence(raw, None)] + ts) == Render(st, ts)
  {
    assert ([Sequence(raw, None)] + ts)[1..] == ts;
    assert [] + Render(st, ts).0 == Render(st, ts).0;
  }

  /** The console: its style state and the spans of each line shown. */
  datatype Console = Console(state: ConsoleState, lines: seq<seq<Span>>)

  /** A carriage-return flag is only ever set with a line on screen to remove. */
  predicate Valid(c: Console)
  {
    c.state.carriageReturn ==> |c.lines| > 0
  }

  /** `addLine`. A set carriage-return flag removes the last line unless the new
      line is a lone "\n"; removing from an empty console throws (`None`). */
  function AddLine(c: Console, line: string): (r: Option<Console>)
    ensures r.None? <==> c.state.carriageReturn && line != "\n" && |c.lines| == 0
  {
    var removes := c.state.carriageReturn && line != "\n";
    if removes && |c.lines| == 0 then None
    else
      var kept := if removes then c.lines[..|c.lines| - 1] else c.lines;
      var st := c.state.(carriageReturn := '\r' in line);
      var (spans, after) := Render(st, Tokenize(line, 0));
      Some(Console(after, kept + [spans]))
  }

  /** On a valid console `addLine` never throws and keeps the console valid; it
      replaces the last line exactly when the flag was set and the line is not
      a lone "\n", leaves earlier lines alone, shows the line's text without
      its escape sequences, and sets the flag exactly when the line holds a
      carriage return. */
  lemma AddLineCarriageReturn(c: Console, line: string)
    requires Valid(c)
    ensures AddLine(c, line).Some?
    ensures var r := AddLine(c, line).value;
            var replaced := c.state.carriageReturn && line != "\n";
            && Valid(r)
            && r.state.carriageReturn == ('\r' in line)
            && |r.lines| == (if replaced then |c.lines| else |c.lines| + 1)
            && r.lines[..|r.lines| - 1] == c.lines[..|r.lines| - 1]
            && Shown(r.lines[|r.lines| - 1]) == Visible(Tokenize(line, 0))
  {
    var st := c.state.(carriageReturn := '\r' in line);
    RenderShowsVisibleText(st, Tokenize(line, 0));
  }
}

=== FILE: esptool_const.dfy ===
/** Protocol constants of the ESP ROM bootloader client and the size-scaled timeout. */
module EspConst {
  import opened Bytes
  import EspUtil

  const FLASH_WRITE_SIZE: nat := 0x200
  const ESP32S2_FLASH_WRITE_SIZE: nat := 0x400
  /** Flash sector size, the minimum unit of erase. */
  const FLASH_SECTOR_SIZE: nat := 0x1000
  const ESP_ROM_BAUD: nat := 115200

  /** The text "\x07\x07\x12 " followed by 32 'U' characters, converted to bytes. */
  const SYNC_PACKET_TEXT: string := "\U{7}\U{7}\U{12} " + seq(32, _ => 'U')
  const SYNC_PACKET: seq<byte> := EspUtil.ToByteArray(SYNC_PACKET_TEXT)

  const CHIP_DETECT_MAGIC_REG_ADDR: nat := 0x40001000
  const CHIP_FAMILY_ESP8266: int := 0x8266
  const CHIP_FAMILY_ESP32: int := 0x32
  const CHIP_FAMILY_ESP32S2: int := 0x3252

  const ESP32_DATAREGVALUE: int := 0x15122500
  const ESP8266_DATAREGVALUE: int := 0x00062000
  const ESP32S2_DATAREGVALUE: int := 0x500

  // Commands supported by the ESP8266 ROM bootloader
  const ESP_FLASH_BEGIN: byte := 0x02
  const ESP_FLASH_DATA: byte := 0x03
  const ESP_FLASH_END: byte := 0x04
  const ESP_MEM_BEGIN: byte := 0x05
  const ESP_MEM_END: byte := 0x06
  const ESP_MEM_DATA: byte := 0x07
  const ESP_SYNC: byte := 0x08
  const ESP_WRITE_REG: byte := 0x09
  const ESP_READ_REG: byte := 0x0A

  // Commands supported by the stub only
  const ESP_ERASE_FLASH: byte := 0xD0
  const ESP_ERASE_REGION: byte := 0xD1

  const ESP_SPI_SET_PARAMS: byte := 0x0B
  const ESP_SPI_ATTACH: byte := 0x0D
  const ESP_CHANGE_BAUDRATE: byte := 0x0F
  const ESP_SPI_FLASH_MD5: byte := 0x13
  const ESP_CHECKSUM_MAGIC: byte := 0xEF

  const ROM_INVALID_RECV_MSG: byte := 0x05

  const USB_RAM_BLOCK: nat := 0x800
  const ESP_RAM_BLOCK: nat := 0x1800

  // Timeouts, in milliseconds
  const DEFAULT_TIMEOUT: int := 3000
  const CHIP_ERASE_TIMEOUT: int := 600000
  const MAX_TIMEOUT: int := CHIP_ERASE_TIMEOUT * 2
  const SYNC_TIMEOUT: int := 100
  const ERASE_REGION_TIMEOUT_PER_MB: int := 30000
  const MEM_END_ROM_TIMEOUT: int := 50

  /** The divisor `timeoutPerMb` uses: the hexadecimal literal 0x1e6. */
  const TIMEOUT_DIVISOR: int := 0x1e6

  /** The three chip families the loader can identify. */
  datatype ChipFamily = ESP8266 | ESP32 | ESP32S2 {
    /** The numeric family code the loader stores. */
    function Code(): int
    {
      match this
      case ESP8266 => CHIP_FAMILY_ESP8266
      case ESP32 => CHIP_FAMILY_ESP32
      case ESP32S2 => CHIP_FAMILY_ESP32S2
    }

    /** The value of the magic register identifying this family. */
    function DataRegValue(): int
    {
      match this
      case ESP8266 => ESP8266_DATAREGVALUE
      case ESP32 => ESP32_DATAREGVALUE
      case ESP32S2 => ESP32S2_DATAREGVALUE
    }
  }

  /** Family codes and magic values are pairwise distinct, so both identify the family. */
  lemma FamilyTablesInjective(a: ChipFamily, b: ChipFamily)
    ensures a.Code() == b.Code() ==> a == b
    ensures a.DataRegValue() == b.DataRegValue() ==> a == b
  {
  }

  /** Scales a timeout with a region size: `floor(secondsPerMb * (sizeBytes / 0x1e6))`,
      never less than the default timeout. */
  function TimeoutPerMb(secondsPerMb: int, sizeBytes: int): (r: int)
    ensures r >= DEFAULT_TIMEOUT
    ensures r == DEFAULT_TIMEOUT || r == secondsPerMb * sizeBytes / TIMEOUT_DIVISOR
    ensures secondsPerMb * sizeBytes / TIMEOUT_DIVISOR >= DEFAULT_TIMEOUT ==> r == secondsPerMb * sizeBytes / TIMEOUT_DIVISOR
  {
    var result := secondsPerMb * sizeBytes / TIMEOUT_DIVISOR;
    if result < DEFAULT_TIMEOUT then DEFAULT_TIMEOUT else result
  }

  lemma DivMonotone(a: int, b: int)
    requires a <= b
    ensures a / TIMEOUT_DIVISOR <= b / TIMEOUT_DIVISOR
  {
    var qa := a / TIMEOUT_DIVISOR;
    var qb := b / TIMEOUT_DIVISOR;
    assert a == TIMEOUT_DIVISOR * qa + a % TIMEOUT_DIVISOR;
    assert b == TIMEOUT_DIVISOR * qb + b % TIMEOUT_DIVISOR;
  }

  /** A larger region never gets a shorter timeout. */
  lemma TimeoutPerMbMonotone(secondsPerMb: nat, size1: int, size2: int)
    requires size1 <= size2
    ensures TimeoutPerMb(secondsPerMb, size1) <= TimeoutPerMb(secondsPerMb, size2)
  {
    assert secondsPerMb * size1 <= secondsPerMb * size2 by {
      MulMonotone(secondsPerMb, size1, size2);
    }
    DivMonotone(secondsPerMb * size1, secondsPerMb * size2);
  }

  lemma MulMonotone(k: nat, a: int, b: int)
    requires a <= b
    ensures k * a <= k * b
  {
    assert k * b - k * a == k * (b - a);
  }

  /** Because 0x1e6 is 486 rather than a million, the per-megabyte erase timeout for
      a one-megabyte region already exceeds the longest timeout any command may use. */
  lemma EraseTimeoutForOneMegabyte()
    ensures TimeoutPerMb(ERASE_REGION_TIMEOUT_PER_MB, 0x10_0000) == 64_726_913
    ensures TimeoutPerMb(ERASE_REGION_TIMEOUT_PER_MB, 0x10_0000) > MAX_TIMEOUT
  {
  }

  /** The longest command timeout is twice the chip-erase timeout and exceeds the default. */
  lemma TimeoutOrdering()
    ensures MAX_TIMEOUT == 2 * CHIP_ERASE_TIMEOUT == 1_200_000
    ensures DEFAULT_TIMEOUT < MAX_TIMEOUT
    ensures MEM_END_ROM_TIMEOUT < SYNC_TIMEOUT < DEFAULT_TIMEOUT
  {
  }

  /** The sync packet is 0x07 0x07 0x12 0x20 followed by 32 bytes 0x55. */
  lemma SyncPacketShape()
    ensures |SYNC_PACKET| == 36
    ensures SYNC_PACKET[..4] == [0x07, 0x07, 0x12, 0x20]
    ensures forall i :: 4 <= i < |SYNC_PACKET| ==> SYNC_PACKET[i] == 0x55
  {
    var text := SYNC_PACKET_TEXT;
    var head := "\U{7}\U{7}\U{12} ";
    assert |text| == 36;
    assert forall i :: 0 <= i < 4 ==> text[i] == head[i];
    assert forall i :: 4 <= i < 36 ==> text[i] == 'U';
    SyncPacketBytes(text);
  }

  lemma {:induction false} SyncPacketBytes(text: string)
    requires forall i :: 0 <= i < |text| ==> text[i] as int <= 0xFF
    ensures |EspUtil.ToByteArray(text)| == |text|
    ensures forall i :: 0 <= i < |text| ==> EspUtil.ToByteArray(text)[i] == text[i] as int
  {
    if text != [] {
      SyncPacketBytes(text[1..]);
      var r := EspUtil.ToByteArray(text);
      assert r == [text[0] as int] + EspUtil.ToByteArray(text[1..]);
      forall i | 0 < i < |text| ensures r[i] == text[i] as int {
        assert r[i] == EspUtil.ToByteArray(text[1..])[i - 1];
        assert text[1..][i - 1] == text[i];
      }
    }
  }
}

=== FILE: esptool_util.dfy ===
/** Byte helpers of the ESP loader client: SLIP byte-stuffing, string-to-bytes,
    little-endian struct packing and hexadecimal formatting. */
module EspUtil {
  import opened Results
  import opened Bytes

  const SLIP_END: byte := 0xC0
  const SLIP_ESC: byte := 0xDB
  const SLIP_ESC_END: byte := 0xDC
  const SLIP_ESC_ESC: byte := 0xDD

  // ---------------------------------------------------------------------------
  // SLIP encoding

  /** The escape sequence one input byte becomes. */
  function SlipEscape(b: byte): seq<byte>
  {
    if b == SLIP_ESC then [SLIP_ESC, SLIP_ESC_ESC]
    else if b == SLIP_END then [SLIP_ESC, SLIP_ESC_END]
    else [b]
  }

  function Count(s: seq<byte>, x: byte): nat
  {
    if s == [] then 0 else (if s[0] == x then 1 else 0) + Count(s[1..], x)
  }

  /** Byte-stuffing: 0xDB becomes 0xDB 0xDD and 0xC0 becomes 0xDB 0xDC, so the
      frame delimiter 0xC0 never occurs in the output. */
  function SlipEncode(buffer: seq<byte>): (r: seq<byte>)
    ensures SLIP_END !in r
    ensures |r| == |buffer| + Count(buffer, SLIP_ESC) + Count(buffer, SLIP_END)
    ensures |buffer| <= |r| <= 2 * |buffer|
  {
    if buffer == [] then [] else SlipEscape(buffer[0]) + SlipEncode(buffer[1..])
  }

  lemma {:induction false} SlipEncodeAppend(a: seq<byte>, b: seq<byte>)
    ensures SlipEncode(a + b) == SlipEncode(a) + SlipEncode(b)
  {
    if a == [] {
      assert a + b == b;
    } else {
      assert (a + b)[0] == a[0];
      assert (a + b)[1..] == a[1..] + b;
      SlipEncodeAppend(a[1..], b);
    }
  }

  /** Bytes other than 0xC0 and 0xDB pass through the encoder unchanged. */
  lemma {:induction false} SlipEncodePlain(buffer: seq<byte>)
    requires SLIP_END !in buffer && SLIP_ESC !in buffer
    ensures SlipEncode(buffer) == buffer
  {
    if buffer != [] {
      SlipEncodePlain(buffer[1..]);
    }
  }

  // ---------------------------------------------------------------------------
  // SLIP decoding, as done byte by byte inside the loader's read loops

  /** One byte through the decoder: returns the new escape flag and the bytes
      appended to the reply. 0xDB only raises the flag (even when it is already
      raised); after it, 0xDD yields 0xDC, 0xDC yields 0xC0, anything else
      yields 0xDB followed by that byte. */
  function SlipDecodeStep(escaped: bool, c: byte): (bool, seq<byte>)
  {
    if c == SLIP_ESC then (true, [])
    else if escaped then
      (false, if c == SLIP_ESC_ESC then [SLIP_ESC_END]
              else if c == SLIP_ESC_END then [SLIP_END]
              else [SLIP_ESC, c])
    else (false, [c])
  }

  /** The decoder run over a whole byte sequence from the given escape state.
      It never lengthens its input by more than the pending escape, and with
      no escape pending and no 0xDB in the input it copies the input. */
  function SlipDecodeFrom(escaped: bool, s: seq<byte>): (r: seq<byte>)
    ensures |r| <= |s| + (if escaped then 1 else 0)
    ensures !escaped && SLIP_ESC !in s ==> r == s
    decreases |s|
  {
    if s == [] then []
    else
      var step := SlipDecodeStep(escaped, s[0]);
      step.1 + SlipDecodeFrom(step.0, s[1..])
  }

  /** The decoder from the unescaped state: the reply is never longer than the
      bytes read, and bytes without 0xDB come through unchanged. */
  function SlipDecode(s: seq<byte>): (r: seq<byte>)
    ensures |r| <= |s|
    ensures SLIP_ESC !in s ==> r == s
  {
    SlipDecodeFrom(false, s)
  }

  /** What decoding an encoded buffer actually yields: every 0xDB comes back as 0xDC. */
  function DbToDc(buffer: seq<byte>): (r: seq<byte>)
    ensures |r| == |buffer|
    ensures forall i :: 0 <= i < |buffer| ==> r[i] == (if buffer[i] == SLIP_ESC then SLIP_ESC_END else buffer[i])
  {
    if buffer == [] then []
    else [if buffer[0] == SLIP_ESC then SLIP_ESC_END else buffer[0]] + DbToDc(buffer[1..])
  }

  lemma {:induction false} SlipDecodeEncode(buffer: seq<byte>)
    ensures SlipDecode(SlipEncode(buffer)) == DbToDc(buffer)
  {
    if buffer != [] {
      var b := buffer[0];
      var enc := SlipEncode(buffer);
      var tail := SlipEncode(buffer[1..]);
      assert enc == SlipEscape(b) + tail;
      SlipDecodeEncode(buffer[1..]);
      if b == SLIP_ESC || b == SLIP_END {
        assert enc[0] == SLIP_ESC && enc[1..] == [enc[1]] + tail;
        assert SlipDecodeFrom(true, enc[1..]) == SlipDecodeStep(true, enc[1]).1 + SlipDecodeFrom(false, tail);
      } else {
        assert enc[1..] == tail;
      }
    }
  }

  /** Decoding inverts encoding exactly when the buffer holds no 0xDB. */
  lemma SlipRoundTrip(buffer: seq<byte>)
    ensures SlipDecode(SlipEncode(buffer)) == buffer <==> SLIP_ESC !in buffer
  {
    SlipDecodeEncode(buffer);
    if SLIP_ESC in buffer {
      var i :| 0 <= i < |buffer| && buffer[i] == SLIP_ESC;
      assert DbToDc(buffer)[i] != buffer[i];
    } else {
      assert DbToDc(buffer) == buffer;
    }
  }

  /** The smallest witness: a lone 0xDB comes back as 0xDC. */
  lemma SlipRoundTripFailsOnEsc()
    ensures SlipDecode(SlipEncode([SLIP_ESC])) == [SLIP_ESC_END]
  {
    SlipDecodeEncode([SLIP_ESC]);
  }

  /** Reference decoding of section "SLIP DRIVERS" of RFC 1055 (0xDB 0xDC is 0xC0,
      0xDB 0xDD is 0xDB), as the bootloader on the chip performs it. */
  function Rfc1055Decode(s: seq<byte>): seq<byte>
    decreases |s|
  {
    if s == [] then []
    else if s[0] == SLIP_ESC && |s| > 1 then
      [if s[1] == SLIP_ESC_END then SLIP_END else if s[1] == SLIP_ESC_ESC then SLIP_ESC else s[1]]
      + Rfc1055Decode(s[2..])
    else [s[0]] + Rfc1055Decode(s[1..])
  }

  /** The encoder is correct byte-stuffing: the reference decoder recovers every buffer. */
  lemma {:induction false} SlipEncodeRfc1055(buffer: seq<byte>)
    ensures Rfc1055Decode(SlipEncode(buffer)) == buffer
  {
    if buffer != [] {
      var enc := SlipEncode(buffer);
      var tail := SlipEncode(buffer[1..]);
      assert enc == SlipEscape(buffer[0]) + tail;
      SlipEncodeRfc1055(buffer[1..]);
      if buffer[0] == SLIP_ESC || buffer[0] == SLIP_END {
        assert enc[2..] == tail;
      } else {
        assert enc[1..] == tail;
      }
    }
  }

  // ---------------------------------------------------------------------------
  // toByteArray

  /** Keeps, in order, the characters whose code fits in a byte. */
  function ToByteArray(str: string): (r: seq<byte>)
    ensures |r| <= |str|
    ensures forall c :: c in str && c as int <= 0xFF ==> c as int in r
    ensures forall b :: b in r ==> b as char in str
  {
    if str == [] then []
    else
      var c := str[0];
      var rest := ToByteArray(str[1..]);
      assert str == [c] + str[1..];
      if c as int <= 0xFF then [c as int] + rest else rest
  }

  lemma {:induction false} ToByteArrayAppend(a: string, b: string)
    ensures ToByteArray(a + b) == ToByteArray(a) + ToByteArray(b)
  {
    if a == [] {
      assert a + b == b;
    } else {
      assert (a + b)[0] == a[0];
      assert (a + b)[1..] == a[1..] + b;
      ToByteArrayAppend(a[1..], b);
    }
  }

  function FromBytes(bytes: seq<byte>): (r: string)
    ensures |r| == |bytes|
  {
    if bytes == [] then [] else [bytes[0] as char] + FromBytes(bytes[1..])
  }

  /** On a string of byte-sized characters the conversion is lossless. */
  lemma {:induction false} ToByteArrayLatin1(str: string)
    requires forall i :: 0 <= i < |str| ==> str[i] as int <= 0xFF
    ensures |ToByteArray(str)| == |str|
    ensures FromBytes(ToByteArray(str)) == str
  {
    if str != [] {
      ToByteArrayLatin1(str[1..]);
    }
  }

  // ---------------------------------------------------------------------------
  // pack / unpack

  datatype PackError =
    | CountMismatch            // "Pack format to Argument count mismatch"
    | UnhandledChar(c: char)   // "Unhandled character ... in pack/unpack format"

  /** `format.replace(/[<>]/, "")`: removes only the first '<' or '>'. */
  function RemoveFirstMarker(format: string): (r: string)
    ensures |r| == if '<' in format || '>' in format then |format| - 1 else |format|
  {
    if format == [] then []
    else if format[0] == '<' || format[0] == '>' then format[1..]
    else [format[0]] + RemoveFirstMarker(format[1..])
  }

  function FieldWidth(c: char): nat
  {
    if c == 'B' then 1 else if c == 'H' then 2 else if c == 'I' then 4 else 0
  }

  predicate IsField(c: char)
  {
    c == 'B' || c == 'H' || c == 'I'
  }

  /** Byte `i` pushed by `pushBytes(value, byteCount)`: little-endian byte i is
      `(v >> 8i) & 0xff`; the big-endian branch shifts by `(byteCount - i) * 8`,
      which JavaScript takes modulo 32. */
  function PushedByte(value: int, byteCount: nat, littleEndian: bool, i: nat): byte
    requires i < byteCount <= 4
  {
    if littleEndian then ByteOf(value, i) else ByteOf(value, (byteCount - i) % 4)
  }

  function PushFrom(value: int, byteCount: nat, littleEndian: bool, i: nat): (r: seq<byte>)
    requires i <= byteCount <= 4
    ensures |r| == byteCount - i
    ensures forall k :: 0 <= k < |r| ==> r[k] == PushedByte(value, byteCount, littleEndian, i + k)
    decreases byteCount - i
  {
    if i == byteCount then [] else [PushedByte(value, byteCount, littleEndian, i)] + PushFrom(value, byteCount, littleEndian, i + 1)
  }

  function PushBytes(value: int, byteCount: nat, littleEndian: bool): (r: seq<byte>)
    requires byteCount <= 4
    ensures |r| == byteCount
    ensures littleEndian ==> forall i :: 0 <= i < byteCount ==> r[i] == ByteOf(value, i)
  {
    PushFrom(value, byteCount, littleEndian, 0)
  }

  /** `data[index]`, where reading past the end gives `undefined`, which the
      bit operators treat as 0. */
  function DataAt(data: seq<int>, index: nat): int
  {
    if index < |data| then data[index] else 0
  }

  /** The characters `pack` accepts in a format. */
  predicate PackChar(c: char)
  {
    c == '<' || c == '>' || IsField(c)
  }

  /** The main loop of `pack`, from character `format[0]` on: it succeeds
      exactly on formats of accepted characters, and otherwise reports one
      character it does not accept. */
  function PackFields(format: string, data: seq<int>, index: nat, littleEndian: bool): (r: Result<seq<byte>, PackError>)
    ensures r.Ok? <==> forall i :: 0 <= i < |format| ==> PackChar(format[i])
    ensures r.Err? ==> r.error.UnhandledChar? && r.error.c in format && !PackChar(r.error.c)
  {
    if format == [] then Ok([])
    else
      var c := format[0];
      if c == '<' then PackFields(format[1..], data, index, true)
      else if c == '>' then PackFields(format[1..], data, index, false)
      else if IsField(c) then
        var rest :- PackFields(format[1..], data, index + 1, littleEndian);
        Ok(PushBytes(DataAt(data, index), FieldWidth(c), littleEndian) + rest)
      else Err(UnhandledChar(c))
  }

  /** `pack`: a count mismatch is checked first, then every character of the
      format must be accepted. */
  function Pack(format: string, data: seq<int>): (r: Result<seq<byte>, PackError>)
    ensures |RemoveFirstMarker(format)| != |data| ==> r == Err(CountMismatch)
    ensures r.Ok? <==> |RemoveFirstMarker(format)| == |data| && forall i :: 0 <= i < |format| ==> PackChar(format[i])
    ensures r.Err? && r != Err(CountMismatch) ==> r.error.UnhandledChar? && !PackChar(r.error.c)
  {
    if |RemoveFirstMarker(format)| != |data| then Err(CountMismatch)
    else PackFields(format, data, 0, true)
  }

  /** Little-endian encodings used throughout the protocol. */
  function U16(v: int): (r: seq<byte>)
    ensures |r| == 2
  {
    PushBytes(v, 2, true)
  }

  function U32(v: int): (r: seq<byte>)
    ensures |r| == 4
  {
    PushBytes(v, 4, true)
  }

  predicate LittleEndianFormat(format: string)
  {
    forall i :: 0 <= i < |format| ==> format[i] == '<' || IsField(format[i])
  }

  function SumWidths(format: string): nat
  {
    if format == [] then 0 else FieldWidth(format[0]) + SumWidths(format[1..])
  }

  function CountFields(format: string): nat
  {
    if format == [] then 0 else (if IsField(format[0]) then 1 else 0) + CountFields(format[1..])
  }

  /** The little-endian packing the loader relies on, field by field. */
  function PackLE(format: string, data: seq<int>, index: nat): seq<byte>
  {
    if format == [] then []
    else if IsField(format[0]) then
      PushBytes(DataAt(data, index), FieldWidth(format[0]), true) + PackLE(format[1..], data, index + 1)
    else PackLE(format[1..], data, index)
  }

  lemma {:induction false} PackFieldsLE(format: string, data: seq<int>, index: nat)
    requires LittleEndianFormat(format)
    ensures PackFields(format, data, index, true) == Ok(PackLE(format, data, index))
    ensures |PackLE(format, data, index)| == SumWidths(format)
  {
    if format != [] {
      assert LittleEndianFormat(format[1..]) by {
        forall i | 0 <= i < |format[1..]| ensures format[1..][i] == '<' || IsField(format[1..][i]) {
          assert format[1..][i] == format[i + 1];
        }
      }
      if IsField(format[0]) {
        PackFieldsLE(format[1..], data, index + 1);
      } else {
        PackFieldsLE(format[1..], data, index);
      }
    }
  }

  /** pack throws iff the count, taken after removing the first endianness
      marker, differs from the number of arguments, or some character is not
      one of '<', '>', 'B', 'H', 'I'; a little-endian format packs field by
      field into exactly the sum of the field widths. */
  lemma PackSpec(format: string, data: seq<int>)
    ensures |RemoveFirstMarker(format)| != |data| ==> Pack(format, data) == Err(CountMismatch)
    ensures |RemoveFirstMarker(format)| == |data| && LittleEndianFormat(format) ==>
              Pack(format, data) == Ok(PackLE(format, data, 0)) && |Pack(format, data).value| == SumWidths(format)
  {
    if |RemoveFirstMarker(format)| == |data| && LittleEndianFormat(format) {
      PackFieldsLE(format, data, 0);
    }
  }

  /** 32-bit words, each little-endian, one after another: what `pack("<II…I", …)` yields. */
  function Words(vs: seq<int>): (r: seq<byte>)
    ensures |r| == 4 * |vs|
  {
    if vs == [] then [] else U32(vs[0]) + Words(vs[1..])
  }

  /** The format `"<"` followed by `n` letters `I`. */
  function WordFormat(n: nat): string
  {
    "<" + seq(n, _ => 'I')
  }

  lemma {:induction false} PackLEWords(vs: seq<int>, p: nat)
    requires p <= |vs|
    ensures PackLE(seq(|vs| - p, _ => 'I'), vs, p) == Words(vs[p..])
    decreases |vs| - p
  {
    var f := seq(|vs| - p, _ => 'I');
    if p < |vs| {
      assert f[0] == 'I' && f[1..] == seq(|vs| - (p + 1), _ => 'I');
      PackLEWords(vs, p + 1);
      assert vs[p..][1..] == vs[p + 1..];
    } else {
      assert vs[p..] == [];
    }
  }

  /** Packing n words with `"<" + "I" * n` yields their concatenated little-endian encodings. */
  lemma PackWords(vs: seq<int>)
    ensures Pack(WordFormat(|vs|), vs) == Ok(Words(vs))
  {
    var f := WordFormat(|vs|);
    var body := seq(|vs|, _ => 'I');
    assert f[0] == '<' && f[1..] == body;
    assert |RemoveFirstMarker(f)| == |vs| by {
      assert RemoveFirstMarker(f) == f[1..];
    }
    assert LittleEndianFormat(f) by {
      forall i | 0 <= i < |f| ensures f[i] == '<' || IsField(f[i]) {
        if i > 0 {
          assert f[i] == body[i - 1];
        }
      }
    }
    PackFieldsLE(f, vs, 0);
    assert PackLE(f, vs, 0) == PackLE(body, vs, 0);
    PackLEWords(vs, 0);
    assert vs[0..] == vs;
  }

  lemma {:induction false} PackFieldsBadChar(format: string, data: seq<int>, index: nat, le: bool, k: nat)
    requires k < |format|
    requires forall i :: 0 <= i < k ==> format[i] == '<' || format[i] == '>' || IsField(format[i])
    requires !(format[k] == '<' || format[k] == '>' || IsField(format[k]))
    ensures PackFields(format, data, index, le) == Err(UnhandledChar(format[k]))
  {
    if k > 0 {
      var np := if IsField(format[0]) then index + 1 else index;
      var nle := if format[0] == '<' then true else if format[0] == '>' then false else le;
      PackFieldsBadChar(format[1..], data, np, nle, k - 1);
    }
  }

  /** With a matching count, the first character outside "<>BHI" is reported. */
  lemma PackRejectsUnknownChar(format: string, data: seq<int>, k: nat)
    requires |RemoveFirstMarker(format)| == |data|
    requires k < |format|
    requires forall i :: 0 <= i < k ==> format[i] == '<' || format[i] == '>' || IsField(format[i])
    requires !(format[k] == '<' || format[k] == '>' || IsField(format[k]))
    ensures Pack(format, data) == Err(UnhandledChar(format[k]))
  {
    PackFieldsBadChar(format, data, 0, true, k);
  }

  /** `bytes[index] & 0xff`, with `undefined & 0xff == 0` past the end. */
  function ByteAt(bytes: seq<int>, index: nat): byte
  {
    if index < |bytes| then Low8(bytes[index]) else 0
  }

  /** The value one unpack field reads at `index`; "I" is a signed 32-bit value
      because `<< 24` and `|` work on 32-bit signed integers. */
  function UnpackField(c: char, bytes: seq<int>, index: nat): int
    requires IsField(c)
  {
    if c == 'B' then ByteAt(bytes, index)
    else if c == 'H' then ByteAt(bytes, index) + 0x100 * ByteAt(bytes, index + 1)
    else ToInt32(ByteAt(bytes, index) + 0x100 * ByteAt(bytes, index + 1)
                 + 0x1_0000 * ByteAt(bytes, index + 2) + 0x100_0000 * ByteAt(bytes, index + 3))
  }

  function UnpackFrom(format: string, bytes: seq<int>, index: nat): (r: Result<seq<int>, PackError>)
    ensures r.Ok? ==> |r.value| == |format|
  {
    if format == [] then Ok([])
    else if IsField(format[0]) then
      var rest :- UnpackFrom(format[1..], bytes, index + FieldWidth(format[0]));
      Ok([UnpackField(format[0], bytes, index)] + rest)
    else Err(UnhandledChar(format[0]))
  }

  /** unpack accepts only 'B', 'H' and 'I' (not even '<') and yields one value per character. */
  function Unpack(format: string, bytes: seq<int>): (r: Result<seq<int>, PackError>)
    ensures r.Ok? <==> forall i :: 0 <= i < |format| ==> IsField(format[i])
    ensures r.Ok? ==> |r.value| == |format|
  {
    UnpackOk(format, bytes, 0);
    UnpackFrom(format, bytes, 0)
  }

  lemma {:induction false} UnpackOk(format: string, bytes: seq<int>, index: nat)
    ensures UnpackFrom(format, bytes, index).Ok? <==> forall i :: 0 <= i < |format| ==> IsField(format[i])
  {
    if format != [] {
      UnpackOk(format[1..], bytes, index + FieldWidth(format[0]));
      if !IsField(format[0]) {
      } else if forall i :: 0 <= i < |format[1..]| ==> IsField(format[1..][i]) {
        forall i | 0 <= i < |format| ensures IsField(format[i]) {
          if i > 0 { assert format[i] == format[1..][i - 1]; }
        }
      } else {
        var i :| 0 <= i < |format[1..]| && !IsField(format[1..][i]);
        assert format[i + 1] == format[1..][i];
      }
    }
  }

  lemma PackSingle(c: char, v: int)
    requires IsField(c)
    ensures Pack([c], [v]) == Ok(PushBytes(v, FieldWidth(c), true))
  {
    assert [c][1..] == [];
    assert RemoveFirstMarker([c]) == [c];
    assert LittleEndianFormat([c]);
    PackSpec([c], [v]);
    assert DataAt([v], 0) == v;
    assert PackLE([c], [v], 0) == PushBytes(v, FieldWidth(c), true) + PackLE([], [v], 1);
    assert Pack([c], [v]) == Ok(PackLE([c], [v], 0));
    assert PackLE([], [v], 1) == [];
    assert PushBytes(v, FieldWidth(c), true) + [] == PushBytes(v, FieldWidth(c), true);
  }

  lemma UnpackSingle(c: char, bytes: seq<int>)
    requires IsField(c)
    ensures Unpack([c], bytes) == Ok([UnpackField(c, bytes, 0)])
  {
    assert [c][1..] == [];
    assert UnpackFrom([c][1..], bytes, FieldWidth(c)) == Ok([]);
    assert UnpackFrom([c], bytes, 0) == Ok([UnpackField(c, bytes, 0)] + []);
    assert Unpack([c], bytes) == UnpackFrom([c], bytes, 0);
    assert [UnpackField(c, bytes, 0)] + [] == [UnpackField(c, bytes, 0)];
  }

  lemma UnpackPackB(v: int)
    ensures Pack("B", [v]) == Ok([ByteOf(v, 0)]) && Unpack("B", [ByteOf(v, 0)]) == Ok([v % 0x100])
  {
    PackSingle('B', v);
    UnpackSingle('B', [ByteOf(v, 0)]);
    LowBytes(v);
  }

  lemma UnpackPackH(v: int)
    ensures Pack("H", [v]) == Ok(U16(v)) && Unpack("H", U16(v)) == Ok([v % TWO_16])
  {
    PackSingle('H', v);
    UnpackSingle('H', U16(v));
    LowBytes(v);
    assert ByteAt(U16(v), 0) == ByteOf(v, 0);
    assert ByteAt(U16(v), 1) == ByteOf(v, 1);
  }

  /** unpack inverts pack up to the width of the field: "B" and "H" give the
      value modulo 2^8 and 2^16, "I" gives the signed 32-bit reading. */
  lemma UnpackPack(v: int)
    ensures Pack("B", [v]) == Ok([ByteOf(v, 0)]) && Unpack("B", [ByteOf(v, 0)]) == Ok([v % 0x100])
    ensures Pack("H", [v]) == Ok(U16(v)) && Unpack("H", U16(v)) == Ok([v % TWO_16])
    ensures Pack("I", [v]) == Ok(U32(v)) && Unpack("I", U32(v)) == Ok([ToInt32(v)])
  {
    UnpackPackB(v);
    UnpackPackH(v);
    UnpackPackWord(v);
  }

  lemma UnpackPackWord(v: int)
    ensures Pack("I", [v]) == Ok(U32(v)) && Unpack("I", U32(v)) == Ok([ToInt32(v)])
  {
    PackSingle('I', v);
    UnpackSingle('I', U32(v));
    WordReads(v);
  }

  /** The four bytes of `U32(v)` read back as one "I" field give `v` as a signed 32-bit value. */
  lemma WordReads(v: int)
    ensures UnpackField('I', U32(v), 0) == ToInt32(v)
  {
    var w := U32(v);
    var b0: int, b1: int, b2: int, b3: int := ByteOf(v, 0), ByteOf(v, 1), ByteOf(v, 2), ByteOf(v, 3);
    assert ByteAt(w, 0) == b0 && ByteAt(w, 1) == b1 && ByteAt(w, 2) == b2 && ByteAt(w, 3) == b3;
    ByteOfRecombine(v);
    assert b0 + 0x100 * b1 + 0x1_0000 * b2 + 0x100_0000 * b3 == v % TWO_32;
    ToInt32Mod(v);
  }

  lemma ToInt32Mod(v: int)
    ensures ToInt32(v % TWO_32) == ToInt32(v)
  {
  }

  lemma LowBytes(v: int)
    ensures ByteOf(v, 0) == v % 0x100
    ensures ByteOf(v, 0) + 0x100 * ByteOf(v, 1) == v % TWO_16
  {
    var a, u := v / TWO_32, v % TWO_32;
    assert Shr8(u, 0) == u;
    assert Shr8(u, 1) == u / 0x100;
    var q, r := u / 0x100, u % 0x100;
    var q1, r1 := q / 0x100, q % 0x100;
    assert v == TWO_32 * a + u && u == 0x100 * q + r && q == 0x100 * q1 + r1;
    DivUnique(v, 0x100, 0x100_0000 * a + q, r);
    DivUnique(v, TWO_16, 0x1_0000 * a + q1, r + 0x100 * r1);
  }

  /** The round trip the register reads rely on: unsigned values below 2^31 come back unchanged,
      and values from 2^31 up to 2^32 come back less 2^32. */
  lemma UnpackPackI(v: int)
    requires 0 <= v < TWO_32
    ensures v < TWO_31 ==> Unpack("I", U32(v)) == Ok([v])
    ensures v >= TWO_31 ==> Unpack("I", U32(v)) == Ok([v - TWO_32])
  {
    UnpackPackWord(v);
    DivUnique(v, TWO_32, 0, v);
  }

  // ---------------------------------------------------------------------------
  // toHex / formatMacAddr

  function HexDigit(d: nat): char
    requires d < 16
  {
    "0123456789ABCDEF"[d]
  }

  function HexDigitValue(c: char): int
  {
    if '0' <= c <= '9' then c as int - '0' as int
    else if 'A' <= c <= 'F' then c as int - 'A' as int + 10
    else -1
  }

  /** `n.toString(16).toUpperCase()` for a non-negative integer. */
  function HexDigits(n: nat): (r: string)
    ensures |r| >= 1
    ensures forall i :: 0 <= i < |r| ==> 0 <= HexDigitValue(r[i]) < 16
    ensures n < 16 <==> |r| == 1
  {
    if n < 16 then [HexDigit(n)] else HexDigits(n / 16) + [HexDigit(n % 16)]
  }

  /** Reads a run of upper-case hexadecimal digits back into a number. */
  function ParseHex(s: string): int
  {
    if s == [] then 0 else 16 * ParseHex(s[..|s| - 1]) + HexDigitValue(s[|s| - 1])
  }

  lemma HexDigitRoundTrip(d: nat)
    requires d < 16
    ensures HexDigitValue(HexDigit(d)) == d
  {
  }

  lemma {:induction false} ParseHexDigits(n: nat)
    ensures ParseHex(HexDigits(n)) == n
  {
    HexDigitRoundTrip(n % 16);
    if n >= 16 {
      var s := HexDigits(n);
      assert s[..|s| - 1] == HexDigits(n / 16);
      assert s[|s| - 1] == HexDigit(n % 16);
      ParseHexDigits(n / 16);
      assert ParseHex(s) == 16 * (n / 16) + n % 16;
    } else {
      assert HexDigits(n) == [HexDigit(n)];
      assert [HexDigit(n)][..0] == [];
    }
  }

  lemma {:induction false} HexDigitsOfByte(b: byte)
    ensures |HexDigits(b)| <= 2
  {
    if b >= 16 {
      assert b / 16 < 16;
    }
  }

  /** Leading '0' characters do not change a hexadecimal value. */
  lemma {:induction false} ParseHexZeros(k: nat, s: string)
    ensures ParseHex(Zeros(k) + s) == ParseHex(s)
    decreases |s|
  {
    if s == [] {
      assert Zeros(k) + s == Zeros(k);
      ZerosParse(k);
    } else {
      var t := Zeros(k) + s;
      assert t[..|t| - 1] == Zeros(k) + s[..|s| - 1];
      ParseHexZeros(k, s[..|s| - 1]);
    }
  }

  lemma {:induction false} ZerosParse(k: nat)
    ensures ParseHex(Zeros(k)) == 0
  {
    if k > 0 {
      assert Zeros(k)[..k - 1] == Zeros(k - 1);
      ZerosParse(k - 1);
    }
  }

  function Zeros(k: nat): (r: string)
    ensures |r| == k
    ensures forall i :: 0 <= i < k ==> r[i] == '0'
  {
    seq(k, _ => '0')
  }

  /** `s.padStart(size, "0")`. */
  function PadStart(s: string, size: int): (r: string)
    ensures |s| >= size ==> r == s
    ensures |s| < size ==> |r| == size && r == Zeros(size - |s|) + s
  {
    if |s| >= size then s else Zeros(size - |s|) + s
  }

  /** `value.toString(16).toUpperCase()`, with a minus sign for negative values. */
  function HexString(value: int): string
  {
    if value < 0 then "-" + HexDigits(-value) else HexDigits(value)
  }

  function ToHex(value: int, size: int := 2): (r: string)
    ensures |r| >= 2 && r[..2] == "0x"
  {
    "0x" + PadStart(HexString(value), size)
  }

  /** toHex of a non-negative value is "0x" followed by exactly max(size, digits)
      upper-case hexadecimal digits that read back as the value. */
  lemma ToHexValue(value: nat, size: int)
    ensures var r := ToHex(value, size);
            |r| == 2 + (if size > |HexDigits(value)| then size else |HexDigits(value)|)
            && ParseHex(r[2..]) == value
            && forall i :: 2 <= i < |r| ==> 0 <= HexDigitValue(r[i]) < 16
  {
    var r := ToHex(value, size);
    var d := HexDigits(value);
    assert r[2..] == PadStart(d, size);
    ParseHexDigits(value);
    PadStartDigits(d, size);
  }

  lemma PadStartDigits(d: string, size: int)
    requires forall i :: 0 <= i < |d| ==> 0 <= HexDigitValue(d[i]) < 16
    ensures ParseHex(PadStart(d, size)) == ParseHex(d)
    ensures forall i :: 0 <= i < |PadStart(d, size)| ==> 0 <= HexDigitValue(PadStart(d, size)[i]) < 16
  {
    if |d| < size {
      var z := size - |d|;
      ParseHexZeros(z, d);
      var p := PadStart(d, size);
      forall i | 0 <= i < |p| ensures 0 <= HexDigitValue(p[i]) < 16 {
        if i >= z {
          assert p[i] == d[i - z];
        } else {
          assert p[i] == '0';
        }
      }
    }
  }

  /** One MAC group: `value.toString(16).toUpperCase().padStart(2, "0")`. */
  function HexGroup(value: int): (r: string)
    ensures |r| >= 2 && ':' !in r
  {
    var h := HexString(value);
    assert forall i :: 0 <= i < |h| ==> h[i] != ':' by {
      var d := HexDigits(if value < 0 then -value else value);
      assert forall i :: 0 <= i < |d| ==> HexDigitValue(d[i]) >= 0;
    }
    PadStart(h, 2)
  }

  /** `macAddr.map(hexGroup).join(":")`: empty only for no values, otherwise
      at least two characters per value and one more between neighbours. */
  function FormatMacAddr(macAddr: seq<int>): (r: string)
    ensures macAddr == [] <==> r == ""
    ensures macAddr != [] ==> |r| >= 3 * |macAddr| - 1
  {
    if macAddr == [] then ""
    else if |macAddr| == 1 then HexGroup(macAddr[0])
    else HexGroup(macAddr[0]) + ":" + FormatMacAddr(macAddr[1..])
  }

  lemma HexGroupOfByte(b: byte)
    ensures |HexGroup(b)| == 2
    ensures ParseHex(HexGroup(b)) == b
    ensures 0 <= HexDigitValue(HexGroup(b)[0]) < 16 && 0 <= HexDigitValue(HexGroup(b)[1]) < 16
  {
    var d := HexDigits(b);
    ParseHexDigits(b);
    HexDigitsOfByte(b);
    if |d| < 2 {
      ParseHexZeros(2 - |d|, d);
      assert HexGroup(b) == ['0'] + d;
    }
  }

  /** Whatever the values, the text holds exactly one ':' between each pair of neighbours. */
  lemma {:induction false} FormatMacAddrSeparators(macAddr: seq<int>)
    requires macAddr != []
    ensures multiset(FormatMacAddr(macAddr))[':'] == |macAddr| - 1
  {
    var g := HexGroup(macAddr[0]);
    assert multiset(g)[':'] == 0;
    if |macAddr| > 1 {
      FormatMacAddrSeparators(macAddr[1..]);
      assert FormatMacAddr(macAddr) == g + ":" + FormatMacAddr(macAddr[1..]);
    }
  }

  /** Reads "HH:HH:...:HH" back into bytes. */
  function ParseMac(s: string): seq<int>
    decreases |s|
  {
    if |s| < 2 then []
    else [ParseHex(s[..2])] + (if |s| < 3 then [] else ParseMac(s[3..]))
  }

  /** A formatted MAC of n bytes is n two-digit upper-case groups separated by ':'
      (3n - 1 characters) and parses back to the same bytes. */
  lemma {:induction false} FormatMacAddrRoundTrip(mac: seq<byte>)
    requires |mac| >= 1
    ensures |FormatMacAddr(mac)| == 3 * |mac| - 1
    ensures ParseMac(FormatMacAddr(mac)) == mac
    ensures forall k :: 0 <= k < |mac| - 1 ==> FormatMacAddr(mac)[3 * k + 2] == ':'
  {
    var g := HexGroup(mac[0]);
    HexGroupOfByte(mac[0]);
    var s := FormatMacAddr(mac);
    if |mac| == 1 {
      assert s == g && s[..2] == s;
    } else {
      var t := FormatMacAddr(mac[1..]);
      FormatMacAddrRoundTrip(mac[1..]);
      assert s == g + ":" + t;
      MacGroupCons(g, t);
      assert mac == [mac[0]] + mac[1..];
      forall k | 0 < k < |mac| - 1 ensures s[3 * k + 2] == ':' {
        var j := 3 * (k - 1) + 2;
        assert t[j] == ':';
        assert s[3..][j] == s[j + 3];
      }
    }
  }

  /** One group in front of the rest: the group, a ':' and the rest, read back one group at a time. */
  lemma MacGroupCons(g: string, t: string)
    requires |g| == 2
    ensures var s := g + ":" + t;
            |s| == |t| + 3 && s[2] == ':' && s[3..] == t
            && ParseMac(s) == [ParseHex(g)] + ParseMac(t)
  {
    var s := g + ":" + t;
    assert s[..2] == g;
    assert s[3..] == t;
  }
}

=== FILE: flash_events.dfy ===
/** The state events `flash` emits while installing a build through the
    external esptool library. Every call into that library, every download and
    the manifest fetch are given as already-resolved outcomes. */
module FlashEvents {
  import opened Results
  import opened Manifests

  datatype StateType = Initializing | ManifestFetch | Preparing | Erasing | Writing | Finished | Error

  datatype FlashError = FailedInitializing | NotSupported | FailedManifestFetch | FailedFirmwareDownload | WriteFailed

  /** The details of an event. A percentage is `None` when it is not a finite number. */
  datatype Details = Done(done: bool) | Failure(error: FlashError)
                   | Progress(bytesTotal: int, bytesWritten: int, percentage: Option<int>) | NoDetails

  /** An event, with the manifest, build and chip family known when it was emitted. */
  datatype FlashEvent = FlashEvent(state: StateType, details: Details,
                                   manifest: Option<Manifest>, build: Option<Build>, chipFamily: Option<string>)

  /** What `flash` does that can be observed: events, disconnecting the transport, and the hard reset. */
  datatype Effect = Fire(event: FlashEvent) | Disconnect | HardReset

  /** A progress report from the library: the file, and bytes written out of the file's total. */
  datatype Report = Report(fileIndex: int, written: int, total: int)

  /** What the outside world does during one call.
      `downloads[i]` is the length of part i's file, `None` (or missing) when its download fails. */
  datatype Outcome = Outcome(
    initOk: bool, chipName: string, romText: bool,
    manifest: Option<Manifest>,
    downloads: seq<Option<nat>>,
    eraseOk: bool,
    reports: seq<Report>, writeOk: bool)

  /** How the call ends: it returns, or the promise rejects (an uncaught erase failure). */
  datatype Ending = Returned | Rejected

  /** The manifest, build and chip family variables at some point of the run. */
  datatype Known = Known(manifest: Option<Manifest>, build: Option<Build>, chipFamily: Option<string>)

  function Event(k: Known, state: StateType, details: Details): Effect
  {
    Fire(FlashEvent(state, details, k.manifest, k.build, k.chipFamily))
  }

  /** An error event, then the disconnect that precedes the return. */
  function Fail(k: Known, error: FlashError): seq<Effect>
  {
    [Event(k, Error, Failure(error)), Disconnect]
  }

  /** The build `flash` selects: the first one for the detected chip. */
  function SelectedBuild(o: Outcome): (r: Option<Build>)
    ensures r.Some? ==> o.manifest.Some? && r == FirstBuild(o.manifest.value.builds, o.chipName)
  {
    match o.manifest
    case None => None
    case Some(m) => FirstBuild(m.builds, o.chipName)
  }

  /** One entry of the file array: the file's length and the part's offset. */
  datatype FileEntry = FileEntry(length: nat, address: int)

  /** The file array of a build whose downloads all succeeded: in part order,
      each file with its part's offset. */
  function FileArray(parts: seq<Part>, downloads: seq<Option<nat>>): (r: seq<FileEntry>)
    requires forall j :: 0 <= j < |parts| ==> DownloadAt(downloads, j).Some?
    ensures |r| == |parts|
    ensures forall j :: 0 <= j < |parts| ==> r[j] == FileEntry(DownloadAt(downloads, j).value, parts[j].offset)
  {
    seq(|parts|, j requires 0 <= j < |parts| => FileEntry(DownloadAt(downloads, j).value, parts[j].offset))
  }

  function TotalSize(files: seq<FileEntry>): nat
  {
    if files == [] then 0 else files[0].length + TotalSize(files[1..])
  }

  /** A report the progress callback can handle: a file of the array and a
      written count within a positive total. */
  predicate ReportFits(rep: Report, files: nat)
  {
    0 <= rep.fileIndex < files && 0 < rep.total && 0 <= rep.written <= rep.total
  }

  /** The library only reports on files it was given. */
  predicate ReportsFit(o: Outcome)
  {
    match SelectedBuild(o)
    case None => true
    case Some(b) => forall k :: 0 <= k < |o.reports| ==> ReportFits(o.reports[k], |b.parts|)
  }

  /** `Math.floor(x / d * 100)` for a non-negative rational x / d over a total
      size, computed exactly; not finite when the total size is 0. */
  function Percent(num: nat, den: nat, totalSize: nat): (r: Option<int>)
    requires den > 0
    ensures r.Some? <==> totalSize > 0
    ensures r.Some? ==> r.value * den * totalSize <= 100 * num < (r.value + 1) * den * totalSize
  {
    if totalSize == 0 then None else Some(100 * num / (den * totalSize))
  }

  /** The events of the progress callback, and the bytes of completed files.
      A report with `written == total` completes its file and emits nothing. */
  function ProgressEvents(k: Known, reports: seq<Report>, files: seq<FileEntry>, totalSize: nat, done: nat)
    : (r: (seq<Effect>, nat))
    requires forall j :: 0 <= j < |reports| ==> ReportFits(reports[j], |files|)
    ensures |r.0| <= |reports|
    ensures forall j :: 0 <= j < |r.0| ==> r.0[j].Fire? && r.0[j].event.state == Writing
    ensures r.1 == done + CompletedBytes(reports, files)
    decreases |reports|
  {
    if reports == [] then ([], done)
    else
      var rep := reports[0];
      assert ReportFits(rep, |files|);
      var len := files[rep.fileIndex].length;
      if rep.written == rep.total then ProgressEvents(k, reports[1..], files, totalSize, done + len)
      else
        var rest := ProgressEvents(k, reports[1..], files, totalSize, done);
        ([ProgressEvent(k, rep, len, totalSize, done)] + rest.0, rest.1)
  }

  /** The number of reports that do not complete a file: one event each. */
  function Unfinished(reports: seq<Report>): nat
  {
    if reports == [] then 0 else (if reports[0].written == reports[0].total then 0 else 1) + Unfinished(reports[1..])
  }

  lemma {:induction false} ProgressEventCount(k: Known, reports: seq<Report>, files: seq<FileEntry>, totalSize: nat, done: nat)
    requires forall j :: 0 <= j < |reports| ==> ReportFits(reports[j], |files|)
    ensures |ProgressEvents(k, reports, files, totalSize, done).0| == Unfinished(reports)
    decreases |reports|
  {
    if reports != [] {
      var rep := reports[0];
      if rep.written == rep.total {
        ProgressEventCount(k, reports[1..], files, totalSize, done + files[rep.fileIndex].length);
      } else {
        ProgressEventCount(k, reports[1..], files, totalSize, done);
      }
    }
  }

  /** The uncompressed bytes of the files the reports complete: a report with
      `written == total` adds its whole file. */
  function CompletedBytes(reports: seq<Report>, files: seq<FileEntry>): nat
    requires forall j :: 0 <= j < |reports| ==> ReportFits(reports[j], |files|)
  {
    if reports == [] then 0
    else
      assert ReportFits(reports[0], |files|);
      (if reports[0].written == reports[0].total then files[reports[0].fileIndex].length else 0)
      + CompletedBytes(reports[1..], files)
  }

  /** The event a report that does not complete its file fires, when `before`
      bytes of earlier files are complete: bytesWritten adds the report's own
      count, which is of compressed bytes, to the uncompressed total, while the
      percentage scales that count to the file's length. */
  function ProgressEvent(k: Known, rep: Report, len: nat, totalSize: nat, before: nat): Effect
    requires 0 <= rep.written <= rep.total && rep.total > 0
  {
    Event(k, Writing, Progress(totalSize, before + rep.written,
                               Percent(before * rep.total + rep.written * len, rep.total, totalSize)))
  }

  /** What the progress callback computes: the completed total grows by each
      completed file's length, and the report at index j, when it does not
      complete its file, fires event number `Unfinished(reports[..j])` with the
      bytes of the files completed before it. */
  lemma {:induction false} ProgressEventsValues(k: Known, reports: seq<Report>, files: seq<FileEntry>,
                                                totalSize: nat, done: nat)
    requires forall j :: 0 <= j < |reports| ==> ReportFits(reports[j], |files|)
    ensures ProgressEvents(k, reports, files, totalSize, done).1 == done + CompletedBytes(reports, files)
    ensures forall j :: 0 <= j < |reports| && reports[j].written != reports[j].total ==>
              var events := ProgressEvents(k, reports, files, totalSize, done).0;
              && Unfinished(reports[..j]) < |events|
              && events[Unfinished(reports[..j])]
                 == ProgressEvent(k, reports[j], files[reports[j].fileIndex].length, totalSize,
                                  done + CompletedBytes(reports[..j], files))
    decreases |reports|
  {
    if reports != [] {
      var rep := reports[0];
      var rest := reports[1..];
      assert ReportFits(rep, |files|);
      var len := files[rep.fileIndex].length;
      var completes := rep.written == rep.total;
      var done' := if completes then done + len else done;
      ProgressEventsValues(k, rest, files, totalSize, done');
      var events := ProgressEvents(k, reports, files, totalSize, done).0;
      var restEvents := ProgressEvents(k, rest, files, totalSize, done').0;
      assert events == (if completes then [] else [ProgressEvent(k, rep, len, totalSize, done)]) + restEvents;
      forall j | 0 <= j < |reports| && reports[j].written != reports[j].total
        ensures Unfinished(reports[..j]) < |events|
        ensures events[Unfinished(reports[..j])]
                == ProgressEvent(k, reports[j], files[reports[j].fileIndex].length, totalSize,
                                 done + CompletedBytes(reports[..j], files))
      {
        if j == 0 {
          assert reports[..0] == [];
        } else {
          var pre := reports[..j];
          assert pre[0] == rep && pre[1..] == rest[..j - 1];
          assert reports[j] == rest[j - 1];
          assert Unfinished(pre) == (if completes then 0 else 1) + Unfinished(rest[..j - 1]);
          assert CompletedBytes(pre, files) == (if completes then len else 0) + CompletedBytes(rest[..j - 1], files);
        }
      }
    }
  }

  /** The run got as far as the erase: the chip was initialised and supported,
      a build was selected and every part downloaded. */
  predicate Prepared(o: Outcome)
  {
    o.initOk && o.romText && SelectedBuild(o).Some?
    && FirstFailedDownload(o.downloads, |SelectedBuild(o).value.parts|).None?
  }

  /** `flash`: the effects, in order, and how the call ends. It always opens
      with INITIALIZING; the only failure that escapes as a rejection is the
      erase, and the chip is reset only after a complete write. */
  function Flash(o: Outcome, eraseFirst: bool): (r: (seq<Effect>, Ending))
    requires ReportsFit(o)
    ensures |r.0| >= 2 && r.0[0] == Fire(FlashEvent(Initializing, Done(false), None, None, None))
    ensures r.1 == Rejected <==> Prepared(o) && eraseFirst && !o.eraseOk
    ensures HardReset in r.0 <==> Prepared(o) && (eraseFirst ==> o.eraseOk) && o.writeOk
  {
    var k0 := Known(None, None, None);
    var start := [Event(k0, Initializing, Done(false))];
    if !o.initOk then (start + Fail(k0, FailedInitializing), Returned)
    else
      var k1 := k0.(chipFamily := Some(o.chipName));
      if !o.romText then (start + Fail(k1, NotSupported), Returned)
      else
        var fetching := start + [Event(k1, Initializing, Done(true)), Event(k1, ManifestFetch, Done(false))];
        match o.manifest
        case None => (fetching + Fail(k1, FailedManifestFetch), Returned)
        case Some(m) =>
          var build := FirstBuild(m.builds, o.chipName);
          var k2 := k1.(manifest := Some(m), build := build);
          var fetched := fetching + [Event(k2, ManifestFetch, Done(true))];
          match build
          case None => (fetched + Fail(k2, NotSupported), Returned)
          case Some(b) =>
            var preparing := fetched + [Event(k2, Preparing, Done(false))];
            match FirstFailedDownload(o.downloads, |b.parts|)
            case Some(_) => (preparing + Fail(k2, FailedFirmwareDownload), Returned)
            case None =>
              var files := FileArray(b.parts, o.downloads);
              var totalSize := TotalSize(files);
              var prepared := preparing + [Event(k2, Preparing, Done(true))];
              if eraseFirst && !o.eraseOk then (prepared + [Event(k2, Erasing, Done(false))], Rejected)
              else
                var erased := prepared + (if eraseFirst then [Event(k2, Erasing, Done(false)), Event(k2, Erasing, Done(true))] else []);
                var writing := erased + [Event(k2, Writing, Progress(totalSize, 0, Some(0)))];
                var (progress, written) := ProgressEvents(k2, o.reports, files, totalSize, 0);
                if !o.writeOk then (writing + progress + Fail(k2, WriteFailed), Returned)
                else
                  (writing + progress
                     + [Event(k2, Writing, Progress(totalSize, written, Some(100))), HardReset, Disconnect,
                        Event(k2, Finished, NoDetails)],
                   Returned)
  }

  // ---------------------------------------------------------------------------
  // Properties of the event sequence

  predicate IsError(e: Effect)
  {
    e.Fire? && e.event.state == Error
  }

  /** The run stops at its error: exactly one error event, followed only by the disconnect. */
  predicate EndsInError(effects: seq<Effect>, error: FlashError)
  {
    |effects| >= 2
    && IsError(effects[|effects| - 2]) && effects[|effects| - 2].event.details == Failure(error)
    && effects[|effects| - 1] == Disconnect
    && forall j :: 0 <= j < |effects| - 2 ==> !IsError(effects[j])
  }

  /** The first event announces initialisation, before anything is known. */
  lemma FlashStartsInitializing(o: Outcome, eraseFirst: bool)
    requires ReportsFit(o)
    ensures Flash(o, eraseFirst).0[0] == Fire(FlashEvent(Initializing, Done(false), None, None, None))
  {
  }

  /** A failed initialisation is reported with no chip known. */
  lemma FlashInitFailure(o: Outcome, eraseFirst: bool)
    requires ReportsFit(o) && !o.initOk
    ensures Flash(o, eraseFirst).0 == [Fire(FlashEvent(Initializing, Done(false), None, None, None)),
                                       Fire(FlashEvent(Error, Failure(FailedInitializing), None, None, None)),
                                       Disconnect]
  {
  }

  /** An unsupported chip is reported before initialisation completes and before any manifest event. */
  lemma FlashUnsupportedChip(o: Outcome, eraseFirst: bool)
    requires ReportsFit(o) && o.initOk && !o.romText
    ensures Flash(o, eraseFirst) == ([Fire(FlashEvent(Initializing, Done(false), None, None, None)),
                                      Fire(FlashEvent(Error, Failure(NotSupported), None, None, Some(o.chipName))),
                                      Disconnect], Returned)
  {
    var k1 := Known(None, None, Some(o.chipName));
    assert Flash(o, eraseFirst).0 == [Fire(FlashEvent(Initializing, Done(false), None, None, None))] + Fail(k1, NotSupported);
    assert Flash(o, eraseFirst).1 == Returned;
    var a := Fire(FlashEvent(Initializing, Done(false), None, None, None));
    var b := Fire(FlashEvent(Error, Failure(NotSupported), None, None, Some(o.chipName)));
    assert Fail(k1, NotSupported) == [b, Disconnect];
    assert [a] + [b, Disconnect] == [a, b, Disconnect];
  }

  /** With no build for the chip, the manifest is reported fetched and the run
      stops with NOT_SUPPORTED, never preparing. */
  lemma FlashNoBuild(o: Outcome, eraseFirst: bool)
    requires ReportsFit(o) && o.initOk && o.romText && o.manifest.Some?
    requires forall j :: 0 <= j < |o.manifest.value.builds| ==> o.manifest.value.builds[j].chipFamily != o.chipName
    ensures var effects := Flash(o, eraseFirst).0;
            && EndsInError(effects, NotSupported)
            && effects[|effects| - 3] == Fire(FlashEvent(ManifestFetch, Done(true), o.manifest, None, Some(o.chipName)))
            && forall j :: 0 <= j < |effects| ==> !(effects[j].Fire? && effects[j].event.state == Preparing)
  {
  }

  /** Every failure the run catches ends it with one error event and a disconnect. */
  lemma FlashCaughtFailures(o: Outcome, eraseFirst: bool)
    requires ReportsFit(o)
    ensures !o.initOk ==> EndsInError(Flash(o, eraseFirst).0, FailedInitializing)
    ensures o.initOk && !o.romText ==> EndsInError(Flash(o, eraseFirst).0, NotSupported)
    ensures o.initOk && o.romText && o.manifest.None? ==> EndsInError(Flash(o, eraseFirst).0, FailedManifestFetch)
  {
  }

  /** A failed download stops the run after the PREPARING start, before any write. */
  lemma FlashDownloadFailure(o: Outcome, eraseFirst: bool)
    requires ReportsFit(o) && o.initOk && o.romText
    requires SelectedBuild(o).Some? && FirstFailedDownload(o.downloads, |SelectedBuild(o).value.parts|).Some?
    ensures EndsInError(Flash(o, eraseFirst).0, FailedFirmwareDownload)
    ensures Flash(o, eraseFirst).1 == Returned
  {
  }

  /** A failed write is caught: one error event, the disconnect, no reset, and the call returns. */
  lemma FlashWriteFailure(o: Outcome, eraseFirst: bool)
    requires ReportsFit(o) && o.initOk && o.romText
    requires SelectedBuild(o).Some? && FirstFailedDownload(o.downloads, |SelectedBuild(o).value.parts|).None?
    requires eraseFirst ==> o.eraseOk
    requires !o.writeOk
    ensures EndsInError(Flash(o, eraseFirst).0, WriteFailed)
    ensures Flash(o, eraseFirst).1 == Returned
    ensures HardReset !in Flash(o, eraseFirst).0
  {
    var b := SelectedBuild(o).value;
    var files := FileArray(b.parts, o.downloads);
    var k := Known(o.manifest, Some(b), Some(o.chipName));
    var progress := ProgressEvents(k, o.reports, files, TotalSize(files), 0).0;
    assert forall j :: 0 <= j < |progress| ==> !IsError(progress[j]);
  }

  /** An erase failure is not caught: the call rejects right after ERASING starts, with no error event. */
  lemma FlashEraseFailure(o: Outcome)
    requires ReportsFit(o) && o.initOk && o.romText
    requires SelectedBuild(o).Some? && FirstFailedDownload(o.downloads, |SelectedBuild(o).value.parts|).None?
    requires !o.eraseOk
    ensures var (effects, ending) := Flash(o, true);
            && ending == Rejected
            && effects[|effects| - 1].Fire? && effects[|effects| - 1].event.state == Erasing
            && effects[|effects| - 1].event.details == Done(false)
            && forall j :: 0 <= j < |effects| ==> !IsError(effects[j])
  {
  }

  /** A successful run: the writing starts at 0 of the total size, the
      ERASING pair appears exactly when erasing was asked for, and the run ends
      with WRITING at 100, the reset, the disconnect and FINISHED. */
  lemma FlashSuccess(o: Outcome, eraseFirst: bool)
    requires ReportsFit(o) && o.initOk && o.romText
    requires SelectedBuild(o).Some? && FirstFailedDownload(o.downloads, |SelectedBuild(o).value.parts|).None?
    requires eraseFirst ==> o.eraseOk
    requires o.writeOk
    ensures var (effects, ending) := Flash(o, eraseFirst);
            var b := SelectedBuild(o).value;
            var totalSize := TotalSize(FileArray(b.parts, o.downloads));
            var n := |effects|;
            var k := Known(o.manifest, Some(b), Some(o.chipName));
            var firstWrite := if eraseFirst then 8 else 6;
            && ending == Returned
            && n >= firstWrite + 5
            && effects[firstWrite] == Event(k, Writing, Progress(totalSize, 0, Some(0)))
            && (effects[6] == Event(k, Erasing, Done(false)) <==> eraseFirst)
            && effects[n - 4].Fire? && effects[n - 4].event.state == Writing
            && effects[n - 4].event.details.Progress? && effects[n - 4].event.details.percentage == Some(100)
            && effects[n - 3] == HardReset && effects[n - 2] == Disconnect
            && effects[n - 1] == Event(k, Finished, NoDetails)
            && forall j :: 0 <= j < n ==> !IsError(effects[j])
  {
    var b := SelectedBuild(o).value;
    var files := FileArray(b.parts, o.downloads);
    var k := Known(o.manifest, Some(b), Some(o.chipName));
    var progress := ProgressEvents(k, o.reports, files, TotalSize(files), 0).0;
    assert forall j :: 0 <= j < |progress| ==> !IsError(progress[j]);
  }

  /** The total size is the sum of the downloaded lengths, in part order. */
  lemma {:induction false} TotalSizeAppend(a: seq<FileEntry>, b: seq<FileEntry>)
    ensures TotalSize(a + b) == TotalSize(a) + TotalSize(b)
  {
    if a != [] {
      assert (a + b)[1..] == a[1..] + b;
      TotalSizeAppend(a[1..], b);
    } else {
      assert a + b == b;
    }
  }
}

=== FILE: flash_log.dfy ===
/** The flash log's rows: a list where a row may replace the last one when
    both carry the same id. */
module FlashLog {
  import opened Results

  /** A log row. An id that is absent or empty is falsy and never replaces a row. */
  datatype Row = Row(id: Option<string>, content: string, error: bool, action: bool)

  /** Whether `row` takes the place of the last row: it has a non-empty id equal to the last row's. */
  predicate ReplacesLast(rows: seq<Row>, row: Row)
  {
    row.id.Some? && row.id.value != "" && |rows| > 0 && rows[|rows| - 1].id == row.id
  }

  /** `addRow`. */
  function AddRow(rows: seq<Row>, row: Row): (r: seq<Row>)
    ensures |r| == if ReplacesLast(rows, row) then |rows| else |rows| + 1
    ensures r[|r| - 1] == row
    ensures r[..|r| - 1] == rows[..|r| - 1]
  {
    if ReplacesLast(rows, row) then rows[..|rows| - 1] + [row] else rows + [row]
  }

  /** `addError`: an error row with no id. */
  function AddError(rows: seq<Row>, content: string): (r: seq<Row>)
    ensures |r| == |rows| + 1 && r[..|rows|] == rows
    ensures r[|rows|] == Row(None, content, true, false)
  {
    AddRow(rows, Row(None, content, true, false))
  }

  /** `removeRow`: drops the last row when its id is `id`. */
  function RemoveRow(rows: seq<Row>, id: string): (r: seq<Row>)
    ensures |r| <= |rows| && r == rows[..|r|]
    ensures |r| < |rows| <==> |rows| > 0 && rows[|rows| - 1].id == Some(id)
    ensures |rows| - 1 <= |r|
  {
    if |rows| > 0 && rows[|rows| - 1].id == Some(id) then rows[..|rows| - 1] else rows
  }

  /** Adding the same identified row twice leaves one copy. */
  lemma AddRowIdempotent(rows: seq<Row>, row: Row)
    requires row.id.Some? && row.id.value != ""
    ensures AddRow(AddRow(rows, row), row) == AddRow(rows, row)
  {
  }

  /** Removing by the id of a row just added undoes the add, except that a
      replaced row stays gone. */
  lemma RemoveAfterAdd(rows: seq<Row>, row: Row)
    requires row.id.Some?
    ensures RemoveRow(AddRow(rows, row), row.id.value)
            == if ReplacesLast(rows, row) then rows[..|rows| - 1] else rows
  {
    var added := AddRow(rows, row);
    assert added[..|added| - 1] == if ReplacesLast(rows, row) then rows[..|rows| - 1] else rows;
  }

  /** An error row cannot be removed by id, so a later `removeRow` leaves it in place. */
  lemma ErrorRowStays(rows: seq<Row>, content: string, id: string)
    ensures RemoveRow(AddError(rows, content), id) == AddError(rows, content)
  {
  }
}

=== FILE: flashing.dfy ===
/** Writing a firmware image to SPI flash through the loader: the write size,
    the ESP8266 erase-size workaround, the commands `flashBegin` sends, and the
    blocks `flashData` sends after them. */
module Flashing {
  import opened Results
  import opened Bytes
  import opened EspUtil
  import opened EspConst
  import opened Framing
  import opened Session

  /** `getFlashWriteSize`: 0x400 on the ESP32-S2, 0x200 otherwise (also when the family is unset). */
  function FlashWriteSize(loader: Loader): (r: nat)
    ensures r == ESP32S2_FLASH_WRITE_SIZE <==> loader.family == Some(ESP32S2)
    ensures r == FLASH_WRITE_SIZE || r == ESP32S2_FLASH_WRITE_SIZE
  {
    if loader.family == Some(ESP32S2) then ESP32S2_FLASH_WRITE_SIZE else FLASH_WRITE_SIZE
  }

  /** Flash size the loader assumes for SPI_SET_PARAMS: 4 MB. */
  const ASSUMED_FLASH_SIZE: int := 4 * 1024 * 1024

  const SECTORS_PER_BLOCK: nat := 16

  /** Number of blocks of `blockSize` needed for `size` bytes: `floor((size + blockSize - 1) / blockSize)`,
      the fewest blocks that cover `size` bytes. */
  function NumBlocks(size: int, blockSize: nat): (r: int)
    requires blockSize > 0
    ensures r * blockSize >= size
    ensures (r - 1) * blockSize < size
  {
    var n := size + blockSize - 1;
    var q, m := n / blockSize, n % blockSize;
    assert n == blockSize * q + m;
    assert q * blockSize == n - m;
    assert (q - 1) * blockSize == n - m - blockSize;
    q
  }

  lemma NumBlocksStep(n: int, b: nat)
    requires b > 0 && n > 0
    ensures n <= b ==> NumBlocks(n, b) == 1
    ensures n > b ==> NumBlocks(n, b) == 1 + NumBlocks(n - b, b)
  {
    if n <= b {
      DivUnique(n + b - 1, b, 1, n - 1);
    } else {
      var q, r := (n - 1) / b, (n - 1) % b;
      assert n - 1 == b * q + r;
      DivUnique(n + b - 1, b, q + 1, r);
      DivUnique(n - b + b - 1, b, q, r);
    }
  }

  /** `getEraseSize`, the ESP8266 ROM erase-bug workaround, as written: the
      halving `((numSectors + 1) / 2) * sectorSize` is computed on reals and
      only then floored, so an odd `numSectors + 1` yields half a sector. */
  function EraseSize(offset: int, size: int): (r: int)
    ensures var n := NumBlocks(size, FLASH_SECTOR_SIZE);
            var head0 := SECTORS_PER_BLOCK - JsRem(offset / FLASH_SECTOR_SIZE, SECTORS_PER_BLOCK);
            var head := if n < head0 then n else head0;
            (n < 2 * head ==> 2 * r == (n + 1) * FLASH_SECTOR_SIZE)
            && (n >= 2 * head ==> r == (n - head) * FLASH_SECTOR_SIZE)
  {
    var numSectors := NumBlocks(size, FLASH_SECTOR_SIZE);
    var startSector := offset / FLASH_SECTOR_SIZE;
    var head := SECTORS_PER_BLOCK - JsRem(startSector, SECTORS_PER_BLOCK);
    var headSectors := if numSectors < head then numSectors else head;
    if numSectors < 2 * headSectors then (numSectors + 1) * (FLASH_SECTOR_SIZE / 2)
    else (numSectors - headSectors) * FLASH_SECTOR_SIZE
  }

  /** `startSector % sectorsPerBlock` truncates toward zero, so below offset 0
      the head of the first block counts up to 31 sectors. */
  lemma EraseSizeNegativeOffset()
    ensures EraseSize(-0x1000, 32 * FLASH_SECTOR_SIZE) == 67584
    ensures EraseSize(-0x1000, 32 * FLASH_SECTOR_SIZE) != (32 - 1) * FLASH_SECTOR_SIZE
  {
    assert NumBlocks(32 * FLASH_SECTOR_SIZE, FLASH_SECTOR_SIZE) == 32;
    assert -0x1000 / FLASH_SECTOR_SIZE == -1;
    assert JsRem(-1, SECTORS_PER_BLOCK) == -1;
  }

  /** Nothing to write means nothing to erase, and the erase never exceeds the
      whole sectors the image covers. */
  lemma EraseSizeBounds(offset: int, size: nat)
    ensures EraseSize(offset, 0) == 0
    ensures 0 <= EraseSize(offset, size) <= NumBlocks(size, FLASH_SECTOR_SIZE) * FLASH_SECTOR_SIZE
  {
  }

  /** Two sectors at offset 0 get an erase of one and a half sectors. */
  lemma EraseSizeHalfSector()
    ensures EraseSize(0, 2 * FLASH_SECTOR_SIZE) == 6144
    ensures EraseSize(0, 2 * FLASH_SECTOR_SIZE) % FLASH_SECTOR_SIZE != 0
  {
  }

  /** The erase size the intended workaround computes, with integer halving
      as in the Python esptool: always whole sectors. */
  function EraseSizeWholeSectors(offset: int, size: int): (r: int)
    ensures r % FLASH_SECTOR_SIZE == 0
  {
    var numSectors := NumBlocks(size, FLASH_SECTOR_SIZE);
    var startSector := offset / FLASH_SECTOR_SIZE;
    var head := SECTORS_PER_BLOCK - JsRem(startSector, SECTORS_PER_BLOCK);
    var headSectors := if numSectors < head then numSectors else head;
    if numSectors < 2 * headSectors then (numSectors + 1) / 2 * FLASH_SECTOR_SIZE
    else (numSectors - headSectors) * FLASH_SECTOR_SIZE
  }

  /** The two differ only by half a sector, and only for an even sector count. */
  lemma EraseSizeDiffersOnlyOnEvenCounts(offset: int, size: int)
    ensures var n := NumBlocks(size, FLASH_SECTOR_SIZE);
            EraseSize(offset, size) != EraseSizeWholeSectors(offset, size)
            ==> EraseSize(offset, size) == EraseSizeWholeSectors(offset, size) + FLASH_SECTOR_SIZE / 2 && n % 2 == 0
  {
  }

  // ---------------------------------------------------------------------------
  // flashBegin

  /** Reads a payload as consecutive little-endian 32-bit words, as the chip does. */
  function ReadWords(b: seq<byte>): (r: seq<nat>)
    requires |b| % 4 == 0
    ensures |r| == |b| / 4
    decreases |b|
  {
    if b == [] then [] else [Word32(b[..4])] + ReadWords(b[4..])
  }

  /** The chip reads back each packed word modulo 2^32. */
  lemma {:induction false} ReadWordsOfWords(vs: seq<int>)
    ensures ReadWords(Words(vs)) == seq(|vs|, i requires 0 <= i < |vs| => vs[i] % TWO_32)
  {
    if vs != [] {
      var w := Words(vs);
      assert w == U32(vs[0]) + Words(vs[1..]);
      assert w[..4] == U32(vs[0]) && w[4..] == Words(vs[1..]);
      Word32OfU32(vs[0]);
      ReadWordsOfWords(vs[1..]);
    }
  }

  /** The FLASH_BEGIN timeout: the default for the stub, otherwise scaled with the size. */
  function FlashBeginTimeout(loader: Loader, size: int): int
  {
    if loader.isStub then DEFAULT_TIMEOUT else TimeoutPerMb(ERASE_REGION_TIMEOUT_PER_MB, size)
  }

  /** The words of the FLASH_BEGIN payload: erase size, block count, block
      size and offset, plus the encryption flag on the ESP32-S2. */
  function FlashBeginWords(loader: Loader, size: int, offset: int, encrypted: bool): (r: seq<int>)
    ensures |r| == if loader.family == Some(ESP32S2) then 5 else 4
    ensures r[0] == (if loader.family == Some(ESP8266) then EraseSize(offset, size) else size)
    ensures r[1] == NumBlocks(size, FlashWriteSize(loader)) && r[2] == FlashWriteSize(loader) && r[3] == offset
    ensures loader.family == Some(ESP32S2) ==> r[4] == if encrypted then 1 else 0
  {
    var ws := FlashWriteSize(loader);
    var eraseSize := if loader.family == Some(ESP8266) then EraseSize(offset, size) else size;
    [eraseSize, NumBlocks(size, ws), ws, offset] + (if loader.family == Some(ESP32S2) then [if encrypted then 1 else 0] else [])
  }

  const SPI_ATTACH_COMMAND: Command := Command(ESP_SPI_ATTACH, [0, 0, 0, 0, 0, 0, 0, 0], 0, DEFAULT_TIMEOUT)

  /** SPI_SET_PARAMS for the assumed 4 MB flash: id, total size, block size,
      sector size, page size and status mask. */
  const SPI_SET_PARAMS_WORDS: seq<int> := [0, ASSUMED_FLASH_SIZE, 0x10000, 4096, 256, 0xFFFF]

  /** The commands `flashBegin` sends, in order: SPI_ATTACH on the ESP32 and
      ESP32-S2, SPI_SET_PARAMS on the ESP32, then FLASH_BEGIN. */
  function FlashBeginCommands(loader: Loader, size: int, offset: int, encrypted: bool): (r: seq<Command>)
    ensures |r| == (if loader.family == Some(ESP32) then 3 else if loader.family == Some(ESP32S2) then 2 else 1)
    ensures (loader.family == Some(ESP32) || loader.family == Some(ESP32S2)) <==> r[0] == SPI_ATTACH_COMMAND
    ensures loader.family == Some(ESP32) ==> r[1] == Command(ESP_SPI_SET_PARAMS, Words(SPI_SET_PARAMS_WORDS), 0, DEFAULT_TIMEOUT)
    ensures var last := r[|r| - 1];
            last.opcode == ESP_FLASH_BEGIN && last.checksum == 0 && last.timeout == FlashBeginTimeout(loader, size)
            && last.payload == Words(FlashBeginWords(loader, size, offset, encrypted))
  {
    var attach := if loader.family == Some(ESP32) || loader.family == Some(ESP32S2) then [SPI_ATTACH_COMMAND] else [];
    var params := if loader.family == Some(ESP32) then [Command(ESP_SPI_SET_PARAMS, Words(SPI_SET_PARAMS_WORDS), 0, DEFAULT_TIMEOUT)] else [];
    var begin := Command(ESP_FLASH_BEGIN, Words(FlashBeginWords(loader, size, offset, encrypted)), 0, FlashBeginTimeout(loader, size));
    attach + params + [begin]
  }

  /** The chip reads the FLASH_BEGIN words back: the block count it is told is
      the number of blocks `flashData` will send. */
  lemma FlashBeginAnnouncesBlocks(loader: Loader, data: seq<byte>, offset: int, encrypted: bool)
    ensures var cmds := FlashBeginCommands(loader, |data|, offset, encrypted);
            var words := ReadWords(cmds[|cmds| - 1].payload);
            words[1] == |Blocks(data, FlashWriteSize(loader))| % TWO_32 && words[2] == FlashWriteSize(loader)
  {
    var vs := FlashBeginWords(loader, |data|, offset, encrypted);
    ReadWordsOfWords(vs);
    BlocksCoverImage(data, FlashWriteSize(loader));
  }

  // ---------------------------------------------------------------------------
  // flashData

  /** Block `k` of an image: `blockSize` bytes from `k * blockSize`, the last one padded with 0xFF. */
  function Block(data: seq<byte>, blockSize: nat, position: nat): (r: seq<byte>)
    requires position < |data|
    ensures |r| == blockSize
  {
    if |data| - position >= blockSize then data[position..position + blockSize]
    else data[position..] + seq(blockSize - (|data| - position), _ => 0xFF)
  }

  /** The blocks `flashData` sends from `position` on. */
  function BlocksFrom(data: seq<byte>, blockSize: nat, position: nat): (r: seq<seq<byte>>)
    requires blockSize > 0
    ensures forall k :: 0 <= k < |r| ==> |r[k]| == blockSize
    decreases |data| - position
  {
    if position >= |data| then []
    else [Block(data, blockSize, position)] + BlocksFrom(data, blockSize, position + blockSize)
  }

  function Blocks(data: seq<byte>, blockSize: nat): seq<seq<byte>>
    requires blockSize > 0
  {
    BlocksFrom(data, blockSize, 0)
  }

  lemma {:induction false} BlockCount(data: seq<byte>, blockSize: nat, position: nat)
    requires blockSize > 0 && position <= |data|
    ensures |BlocksFrom(data, blockSize, position)| == NumBlocks(|data| - position, blockSize)
    decreases |data| - position
  {
    if position < |data| {
      NumBlocksStep(|data| - position, blockSize);
      if position + blockSize < |data| {
        BlockCount(data, blockSize, position + blockSize);
      }
    } else {
      assert NumBlocks(0, blockSize) == 0 by { DivUnique(blockSize - 1, blockSize, 0, blockSize - 1); }
    }
  }

  function Flatten(blocks: seq<seq<byte>>): seq<byte>
  {
    if blocks == [] then [] else blocks[0] + Flatten(blocks[1..])
  }

  lemma {:induction false} FlattenLength(blocks: seq<seq<byte>>, blockSize: nat)
    requires forall k :: 0 <= k < |blocks| ==> |blocks[k]| == blockSize
    ensures |Flatten(blocks)| == |blocks| * blockSize
  {
    if blocks != [] {
      FlattenLength(blocks[1..], blockSize);
    }
  }

  /** `flat` is `image` followed by nothing but 0xFF bytes. */
  predicate PaddedImage(flat: seq<byte>, image: seq<byte>)
  {
    |flat| >= |image| && flat[..|image|] == image && forall i :: |image| <= i < |flat| ==> flat[i] == 0xFF
  }

  lemma PaddedPrepend(a: seq<byte>, flat: seq<byte>, image: seq<byte>)
    requires PaddedImage(flat, image)
    ensures PaddedImage(a + flat, a + image)
  {
    assert (a + flat)[..|a + image|] == a + flat[..|image|];
    forall i | |a + image| <= i < |a + flat| ensures (a + flat)[i] == 0xFF {
      assert (a + flat)[i] == flat[i - |a|];
    }
  }

  /** The blocks, laid end to end, are the image followed by 0xFF padding. */
  lemma {:induction false} BlocksFlatten(data: seq<byte>, blockSize: nat, position: nat)
    requires blockSize > 0 && position <= |data|
    ensures PaddedImage(Flatten(BlocksFrom(data, blockSize, position)), data[position..])
    decreases |data| - position
  {
    var blocks := BlocksFrom(data, blockSize, position);
    if position == |data| {
      assert data[position..] == [];
    } else if position + blockSize <= |data| {
      var rest := BlocksFrom(data, blockSize, position + blockSize);
      var head := data[position..position + blockSize];
      BlocksFlatten(data, blockSize, position + blockSize);
      assert blocks[0] == head && blocks[1..] == rest;
      assert data[position..] == head + data[position + blockSize..];
      PaddedPrepend(head, Flatten(rest), data[position + blockSize..]);
    } else {
      assert BlocksFrom(data, blockSize, position + blockSize) == [];
      assert blocks[1..] == [];
      assert Flatten(blocks) == blocks[0];
      assert blocks[0] == data[position..] + seq(blockSize - (|data| - position), _ => 0xFF);
    }
  }

  /** Splitting covers the image exactly: as many blocks as `flashBegin`
      announces, each a full write, laid end to end the image and then 0xFF. */
  lemma BlocksCoverImage(data: seq<byte>, blockSize: nat)
    requires blockSize > 0
    ensures |Blocks(data, blockSize)| == NumBlocks(|data|, blockSize)
    ensures |Flatten(Blocks(data, blockSize))| == |Blocks(data, blockSize)| * blockSize
    ensures PaddedImage(Flatten(Blocks(data, blockSize)), data)
  {
    BlockCount(data, blockSize, 0);
    FlattenLength(Blocks(data, blockSize), blockSize);
    BlocksFlatten(data, blockSize, 0);
    assert data[0..] == data;
  }

  /** The chip reads a four-word header back modulo 2^32. */
  lemma FourWords(a: int, b: int, c: int, d: int)
    ensures ReadWords(Words([a, b, c, d])) == [a % TWO_32, b % TWO_32, c % TWO_32, d % TWO_32]
  {
    ReadWordsOfWords([a, b, c, d]);
  }

  /** The payload of a FLASH_DATA or MEM_DATA command: the block length, the
      sequence number and two zero words, then the block itself. */
  function BlockPayload(block: seq<byte>, seqNo: int): (r: seq<byte>)
    ensures |r| == 16 + |block| && r[16..] == block
    ensures ReadWords(r[..16]) == [|block| % TWO_32, seqNo % TWO_32, 0, 0]
  {
    var header := Words([|block|, seqNo, 0, 0]);
    FourWords(|block|, seqNo, 0, 0);
    assert (header + block)[..16] == header && (header + block)[16..] == block;
    header + block
  }

  /** `flashBlock`: FLASH_DATA checksummed over the block, with a 2000 ms timeout. */
  function FlashBlockCommand(block: seq<byte>, seqNo: int): (r: Command)
    ensures r.opcode == ESP_FLASH_DATA && r.timeout == 2000
    ensures |r.payload| == 16 + |block| && r.payload[16..] == block
    ensures ReadWords(r.payload[..16]) == [|block| % TWO_32, seqNo % TWO_32, 0, 0]
    ensures r.checksum == Checksum(block) as int
  {
    Command(ESP_FLASH_DATA, BlockPayload(block, seqNo), Checksum(block) as int, 2000)
  }

  /** Everything `flashData` sends: the `flashBegin` commands, then one
      FLASH_DATA per block with sequence numbers 0, 1, 2, … */
  function FlashDataCommands(loader: Loader, data: seq<byte>, offset: int): (r: seq<Command>)
    ensures var begin := FlashBeginCommands(loader, |data|, offset, false);
            var blocks := Blocks(data, FlashWriteSize(loader));
            |r| == |begin| + |blocks| && r[..|begin|] == begin
            && forall k :: 0 <= k < |blocks| ==> r[|begin| + k] == FlashBlockCommand(blocks[k], k)
  {
    var blocks := Blocks(data, FlashWriteSize(loader));
    FlashBeginCommands(loader, |data|, offset, false)
      + seq(|blocks|, k requires 0 <= k < |blocks| => FlashBlockCommand(blocks[k], k))
  }

  /** The progress values reported after `written` blocks of `blockSize`. */
  function Progress(written: nat, blockSize: nat): (r: seq<nat>)
    ensures |r| == written && forall k :: 0 <= k < written ==> r[k] == (k + 1) * blockSize
  {
    seq(written, k => (k + 1) * blockSize)
  }

  /** How many FLASH_DATA exchanges of a run succeeded, after `begin` commands of `flashBegin`. */
  function BlocksWritten(run: Run, begin: nat): (r: nat)
    ensures r + begin <= |run.sent| || r == 0
  {
    var done := |run.sent| - (if run.result.Err? then 1 else 0);
    if done > begin then done - begin else 0
  }

  /** `flashData`: the exchanges it makes, and the values passed to the
      progress callback, one per block the chip acknowledged, counting padded
      bytes. A failure inside `flashBegin` reports nothing; a failed block
      reports every block before it. */
  function FlashData(loader: Loader, data: seq<byte>, offset: int, streams: seq<seq<Poll>>): (r: (Run, seq<nat>))
    ensures |r.1| <= |Blocks(data, FlashWriteSize(loader))|
    ensures forall k :: 0 <= k < |r.1| ==> r.1[k] == (k + 1) * FlashWriteSize(loader)
    ensures r.0.result.Ok? ==> |r.1| == |Blocks(data, FlashWriteSize(loader))|
    ensures var begin := |FlashBeginCommands(loader, |data|, offset, false)|;
            r.0.result.Err? && |r.0.sent| > begin ==> |r.1| == |r.0.sent| - begin - 1
    ensures var begin := |FlashBeginCommands(loader, |data|, offset, false)|;
            r.0.result.Err? && |r.0.sent| <= begin ==> r.1 == []
  {
    var run := RunCommands(loader, FlashDataCommands(loader, data, offset), streams);
    (run, Progress(BlocksWritten(run, |FlashBeginCommands(loader, |data|, offset, false)|), FlashWriteSize(loader)))
  }

  /** `flashData` sends its commands in order and stops at the first failure:
      what it sent is a prefix of the `flashBegin` commands and the blocks, and
      all of them when it succeeds. */
  lemma FlashDataSends(loader: Loader, data: seq<byte>, offset: int, streams: seq<seq<Poll>>)
    ensures var run := FlashData(loader, data, offset, streams).0;
            var cmds := FlashDataCommands(loader, data, offset);
            |run.sent| <= |cmds| && run.sent == cmds[..|run.sent|]
            && (run.result.Ok? ==> run.sent == cmds)
  {
  }

  /** A successful `flashData` reports the whole padded image as written,
      which is at least the image size. */
  lemma FlashDataFinalProgress(loader: Loader, data: seq<byte>, offset: int, streams: seq<seq<Poll>>)
    requires FlashData(loader, data, offset, streams).0.result.Ok?
    requires |data| > 0
    ensures var progress := FlashData(loader, data, offset, streams).1;
            |progress| == |Blocks(data, FlashWriteSize(loader))|
            && progress[|progress| - 1] == |Flatten(Blocks(data, FlashWriteSize(loader)))|
            && progress[|progress| - 1] >= |data|
  {
    var ws := FlashWriteSize(loader);
    var run := FlashData(loader, data, offset, streams).0;
    FlashDataSends(loader, data, offset, streams);
    BlocksCoverImage(data, ws);
  }

  /** An empty image is never reported on, whatever the chip answers. */
  lemma FlashDataEmptyImage(loader: Loader, offset: int, streams: seq<seq<Poll>>)
    ensures FlashData(loader, [], offset, streams).1 == []
  {
    assert NumBlocks(0, FlashWriteSize(loader)) == 0;
  }

  /** A one-byte image on the ESP8266 ROM reports 512 bytes written. */
  lemma FlashDataProgressOvershoots(streams: seq<seq<Poll>>, offset: int)
    requires FlashData(Loader(Some(ESP8266), false), [0x42], offset, streams).0.result.Ok?
    ensures FlashData(Loader(Some(ESP8266), false), [0x42], offset, streams).1 == [FLASH_WRITE_SIZE]
  {
    var loader := Loader(Some(ESP8266), false);
    var progress := FlashData(loader, [0x42], offset, streams).1;
    assert FlashWriteSize(loader) == FLASH_WRITE_SIZE;
    assert |Blocks([0x42], FLASH_WRITE_SIZE)| == 1 by {
      assert BlocksFrom([0x42], FLASH_WRITE_SIZE, FLASH_WRITE_SIZE) == [];
    }
    assert progress[0] == FLASH_WRITE_SIZE;
  }
}

=== FILE: framing.dfy ===
/** Command/response framing of the ESP loader: building a command frame,
    hunting for a response frame in the input queue, the raw frame read used
    for the stub handshake, the status trailer check and the block checksum.

    Time is not modelled. A read call sees the input queue as a sequence of
    polls: a byte taken from the queue, a poll that found the queue empty, or
    the expiry of the call's timeout. A call that runs out of polls has timed
    out. Because `sendCommand` empties the queue before writing, the polls of
    one command exchange are exactly the bytes that arrive after the command. */
module Framing {
  import opened Results
  import opened Bytes
  import opened EspUtil
  import opened EspConst

  datatype Poll = Arrived(b: byte) | Empty | Expired

  function Arrivals(bytes: seq<byte>): (r: seq<Poll>)
    ensures |r| == |bytes|
    ensures forall i :: 0 <= i < |bytes| ==> r[i] == Arrived(bytes[i])
  {
    seq(|bytes|, i requires 0 <= i < |bytes| => Arrived(bytes[i]))
  }

  /** What a loader instance knows about its peer: the detected family (unset
      before detection, and on a stub loader, whose constructor never copies it)
      and whether the uploaded stub rather than the ROM answers. */
  datatype Loader = Loader(family: Option<ChipFamily>, isStub: bool)

  datatype Command = Command(opcode: byte, payload: seq<byte>, checksum: int, timeout: int)

  /** `value` is the 4-byte value field, `data` everything after it but the closing byte. */
  datatype Response = Response(value: seq<byte>, data: seq<byte>)

  datatype LoaderError =
    | NotEnoughStatusBytes                  // no response, or a status shorter than expected
    | InvalidCommand(opcode: byte)          // status 1 with ROM_INVALID_RECV_MSG
    | CommandFailed(code: Option<byte>)     // status 1 with any other code
    | SyncFailed                            // "Couldn't sync to ESP. Try resetting."
    | UnknownChip                           // unrecognised magic register value
    | OuiUnknown                            // "Couldnt determine OUI"
    | UnknownChipFamily                     // macAddr on an undetermined family
    | StubStartFailed                       // the stub did not answer "OHAI"
    | LoaderResident(start: int, end: int)  // stub memBegin overlapping the stub
    | NoStubCode                            // getStubCode for an unset family: stubcode stays undefined

  /** Little-endian readings of two and four bytes. */
  function Word16(lo: byte, hi: byte): nat
  {
    lo as int + 0x100 * (hi as int)
  }

  function Word32(b: seq<byte>): nat
    requires |b| == 4
  {
    Word16(b[0], b[1]) + 0x1_0000 * Word16(b[2], b[3])
  }

  lemma Word16OfU16(v: int)
    ensures Word16(U16(v)[0], U16(v)[1]) == v % TWO_16
  {
    LowBytes(v);
  }

  lemma Word32OfU32(v: int)
    ensures Word32(U32(v)) == v % TWO_32
  {
    ByteOfRecombine(v);
  }

  lemma ArrivalsAppend(a: seq<byte>, b: seq<byte>)
    ensures Arrivals(a + b) == Arrivals(a) + Arrivals(b)
  {
  }

  // ---------------------------------------------------------------------------
  // checksum

  /** The ROM's block checksum: XOR of all bytes, starting from `state`.
      Folded from the left, it agrees with the order-free `XorAll`. */
  function Checksum(data: seq<byte>, state: bv8 := ESP_CHECKSUM_MAGIC as bv8): (r: bv8)
    ensures r == state ^ XorAll(data)
  {
    if data == [] then state else Checksum(data[1..], state ^ (data[0] as bv8))
  }

  /** XOR of all bytes, folded from the right: an order-free reference for the checksum. */
  function XorAll(data: seq<byte>): bv8
  {
    if data == [] then 0 else (data[0] as bv8) ^ XorAll(data[1..])
  }

  /** The checksum is a left fold: checksumming a concatenation continues from the first part's result. */
  lemma {:induction false} ChecksumAppend(xs: seq<byte>, ys: seq<byte>, state: bv8)
    ensures Checksum(xs + ys, state) == Checksum(ys, Checksum(xs, state))
  {
    if xs == [] {
      assert xs + ys == ys;
    } else {
      assert (xs + ys)[0] == xs[0];
      assert (xs + ys)[1..] == xs[1..] + ys;
      ChecksumAppend(xs[1..], ys, state ^ (xs[0] as bv8));
    }
  }

  /** Checksumming the same bytes twice cancels out. */
  lemma ChecksumTwice(data: seq<byte>, state: bv8)
    ensures Checksum(data, Checksum(data, state)) == state
  {
  }

  lemma ChecksumExamples()
    ensures Checksum([]) == 0xEF
    ensures Checksum([0xEF]) == 0
  {
  }

  // ---------------------------------------------------------------------------
  // sendCommand

  /** The frame `sendCommand` writes: 0xC0, direction 0x00, the opcode, the
      payload length as two raw little-endian bytes, then the checksum as four
      bytes and the payload, both SLIP-escaped, and a closing 0xC0. */
  function CommandFrame(cmd: Command): (r: seq<byte>)
    ensures |r| >= 10 + |cmd.payload|
    ensures r[0] == SLIP_END && r[|r| - 1] == SLIP_END
    ensures r[1] == 0x00 && r[2] == cmd.opcode
    ensures Word16(r[3], r[4]) == |cmd.payload| % TWO_16
  {
    LowBytes(|cmd.payload|);
    [SLIP_END] + (CommandHeader(cmd) + (SlipEncode(U32(cmd.checksum)) + SlipEncode(cmd.payload))) + [SLIP_END]
  }

  /** How the chip's bootloader reads a command frame: strip the delimiters,
      undo the escaping of RFC 1055 over everything between them, then read
      direction, opcode, length, checksum and payload. */
  function DeviceParse(frame: seq<byte>): Option<Command>
  {
    if |frame| < 2 || frame[0] != SLIP_END || frame[|frame| - 1] != SLIP_END then None
    else
      var body := Rfc1055Decode(frame[1..|frame| - 1]);
      if |body| < 8 || body[0] != 0x00 || |body| - 8 != Word16(body[2], body[3]) then None
      else Some(Command(body[1], body[8..], Word32(body[4..8]), 0))
  }

  /** The header bytes `sendCommand` writes without escaping. */
  function CommandHeader(cmd: Command): seq<byte>
  {
    [0x00, cmd.opcode] + U16(|cmd.payload|)
  }

  /** Between its delimiters a frame holds the raw header, then the escaped checksum and payload. */
  lemma CommandFrameBetween(cmd: Command)
    ensures var f := CommandFrame(cmd);
            f[1..|f| - 1] == CommandHeader(cmd) + (SlipEncode(U32(cmd.checksum)) + SlipEncode(cmd.payload))
  {
    Delimited(CommandHeader(cmd) + (SlipEncode(U32(cmd.checksum)) + SlipEncode(cmd.payload)), SLIP_END);
  }

  lemma Delimited(mid: seq<byte>, d: byte)
    ensures var f := [d] + mid + [d]; |f| == |mid| + 2 && f[1..|f| - 1] == mid
  {
  }

  lemma CommandFrameInner(cmd: Command)
    requires SLIP_END !in CommandHeader(cmd) && SLIP_ESC !in CommandHeader(cmd)
    ensures var f := CommandFrame(cmd);
            f[1..|f| - 1] == SlipEncode(CommandHeader(cmd) + U32(cmd.checksum) + cmd.payload)
  {
    var h := CommandHeader(cmd);
    var c := U32(cmd.checksum);
    var sc, sp := SlipEncode(c), SlipEncode(cmd.payload);
    CommandFrameBetween(cmd);
    assert SlipEncode(h + c + cmd.payload) == h + sc + sp by {
      SlipEncodePlain(h);
      SlipEncodeAppend(h, c);
      SlipEncodeAppend(h + c, cmd.payload);
    }
    assert h + sc + sp == h + (sc + sp);
  }

  /** The chip reads back the opcode, payload and checksum of a frame exactly
      when the payload length fits the 16-bit field and none of the unescaped
      header bytes is a SLIP control byte. */
  lemma DeviceParsesCommandFrame(cmd: Command)
    requires |cmd.payload| < TWO_16
    requires SLIP_END !in CommandHeader(cmd) && SLIP_ESC !in CommandHeader(cmd)
    ensures DeviceParse(CommandFrame(cmd)) == Some(Command(cmd.opcode, cmd.payload, cmd.checksum % TWO_32, 0))
  {
    var f := CommandFrame(cmd);
    var body := CommandHeader(cmd) + U32(cmd.checksum) + cmd.payload;
    assert Rfc1055Decode(f[1..|f| - 1]) == body by {
      CommandFrameInner(cmd);
      SlipEncodeRfc1055(body);
    }
    ParseBody(cmd, body);
  }

  lemma ParseBody(cmd: Command, body: seq<byte>)
    requires |cmd.payload| < TWO_16
    requires body == CommandHeader(cmd) + U32(cmd.checksum) + cmd.payload
    ensures |body| >= 8 && body[0] == 0x00 && body[1] == cmd.opcode
    ensures |body| - 8 == Word16(body[2], body[3])
    ensures Word32(body[4..8]) == cmd.checksum % TWO_32 && body[8..] == cmd.payload
  {
    var n := |cmd.payload|;
    var len, c := U16(n), U32(cmd.checksum);
    assert body == [0x00, cmd.opcode, len[0], len[1]] + c + cmd.payload;
    assert body[2] == len[0] && body[3] == len[1];
    assert body[4..8] == c;
    assert body[8..] == cmd.payload;
    Word16OfU16(n);
    DivUnique(n, TWO_16, 0, n);
    Word32OfU32(cmd.checksum);
  }

  /** The closing delimiter is the only 0xC0 after the opening one exactly when
      neither the opcode nor the two unescaped length bytes are 0xC0. */
  lemma CommandFrameDelimited(cmd: Command)
    ensures var f := CommandFrame(cmd);
            (SLIP_END !in f[1..|f| - 1]) <==> (cmd.opcode != SLIP_END && SLIP_END !in U16(|cmd.payload|))
  {
    var f := CommandFrame(cmd);
    var enc := SlipEncode(U32(cmd.checksum)) + SlipEncode(cmd.payload);
    var len := U16(|cmd.payload|);
    CommandFrameBetween(cmd);
    var mid := f[1..|f| - 1];
    assert mid == [0x00, cmd.opcode] + len + enc;
    assert SLIP_END !in enc;
    assert mid[1] == cmd.opcode && mid[2] == len[0] && mid[3] == len[1];
    assert SLIP_END in mid <==> SLIP_END in [0x00, cmd.opcode] + len;
  }

  /** A payload of 0xC0 bytes puts an unescaped 0xC0 inside the frame. */
  lemma CommandFrameLengthByteNotEscaped(cmd: Command)
    requires |cmd.payload| == 0xC0
    ensures var f := CommandFrame(cmd); f[3] == SLIP_END && 3 < |f| - 1
  {
    LowBytes(0xC0);
  }

  // ---------------------------------------------------------------------------
  // getResponse

  /** Takes one poll into the reply, through the SLIP decoder. */
  function Absorb(reply: seq<byte>, escaped: bool, p: Poll): (r: (seq<byte>, bool))
    ensures |reply| <= |r.0| <= |reply| + 2
  {
    match p
    case Arrived(c) =>
      var step := SlipDecodeStep(escaped, c);
      (reply + step.1, step.0)
    case _ => (reply, escaped)
  }

  /** The header hunt of `getResponse`: at most one leading byte is dropped for
      each of the three checks (0xC0 first, 0x01 second, the opcode third). */
  function Realign(reply: seq<byte>, opcode: byte): (r: seq<byte>)
    ensures |reply| - 3 <= |r| <= |reply|
    ensures r == reply[|reply| - |r|..]
  {
    var r1 := if |reply| > 0 && reply[0] != SLIP_END then reply[1..] else reply;
    var r2 := if |r1| > 1 && r1[1] != 0x01 then r1[1..] else r1;
    if |r2| > 2 && r2[2] != opcode then r2[1..] else r2
  }

  datatype RxState = RxState(reply: seq<byte>, packetLength: nat, escaped: bool)

  const RX_START := RxState([], 0, false)

  /** The length the header declares: `reply[3] + (reply[4] << 8)`. */
  function DeclaredLength(reply: seq<byte>): nat
    requires |reply| > 4
  {
    Word16(reply[3], reply[4])
  }

  /** One iteration of the receive loop. */
  function ResponseStep(st: RxState, p: Poll, opcode: byte): RxState
  {
    var a := Absorb(st.reply, st.escaped, p);
    var r := Realign(a.0, opcode);
    RxState(r, if |r| > 4 then DeclaredLength(r) else st.packetLength, a.1)
  }

  predicate Complete(st: RxState)
  {
    |st.reply| == st.packetLength + 10
  }

  /** The receive loop: stops when the reply is complete (leaving the remaining
      polls in the queue) or when the call's time is up. */
  function ReceiveResponse(opcode: byte, st: RxState, polls: seq<Poll>): (r: (RxState, seq<Poll>))
    ensures |r.1| <= |polls| && r.1 == polls[|polls| - |r.1|..]
    decreases |polls|
  {
    if polls == [] then (st, [])
    else if polls[0].Expired? then (st, polls[1..])
    else
      var next := ResponseStep(st, polls[0], opcode);
      if Complete(next) then (next, polls[1..])
      else
        var r := ReceiveResponse(opcode, next, polls[1..]);
        assert polls[1..][|polls| - 1 - |r.1|..] == polls[|polls| - |r.1|..];
        r
  }

  /** The decoded frame `getResponse` settled on, if any. */
  function ResponseFrame(opcode: byte, polls: seq<Poll>): (r: Option<seq<byte>>)
    ensures r.Some? ==> |r.value| >= 10 && |r.value| == DeclaredLength(r.value) + 10
  {
    var st := ReceiveResponse(opcode, RX_START, polls).0;
    if Complete(st) && |st.reply| > 4 && st.packetLength == DeclaredLength(st.reply)
    then Some(st.reply) else None
  }

  lemma {:induction false} ReceiveKeepsLength(opcode: byte, st: RxState, polls: seq<Poll>)
    requires |st.reply| > 4 ==> st.packetLength == DeclaredLength(st.reply)
    requires !Complete(st)
    ensures var fin := ReceiveResponse(opcode, st, polls).0;
            (|fin.reply| > 4 ==> fin.packetLength == DeclaredLength(fin.reply))
            && (Complete(fin) ==> |fin.reply| > 4)
    decreases |polls|
  {
    if polls != [] && !polls[0].Expired? {
      var next := ResponseStep(st, polls[0], opcode);
      if !Complete(next) {
        ReceiveKeepsLength(opcode, next, polls[1..]);
      }
    }
  }

  /** `getResponse`: on completion, value is bytes 5..9 of the reply and data
      runs from byte 9 to the byte before the last; otherwise `[null, null]`.
      The unconsumed polls stay in the queue. */
  function GetResponse(opcode: byte, polls: seq<Poll>): (r: (Option<Response>, seq<Poll>))
    ensures r.0.Some? <==> ResponseFrame(opcode, polls).Some?
    ensures r.0.Some? ==> |r.0.value.value| == 4
    ensures r.0.Some? ==> |r.0.value.data| == DeclaredLength(ResponseFrame(opcode, polls).value)
    ensures |r.1| <= |polls| && r.1 == polls[|polls| - |r.1|..]
  {
    ReceiveKeepsLength(opcode, RX_START, polls);
    var (st, rest) := ReceiveResponse(opcode, RX_START, polls);
    if Complete(st) then
      assert ResponseFrame(opcode, polls) == Some(st.reply);
      (Some(Response(st.reply[5..9], st.reply[9..|st.reply| - 1])), rest)
    else
      assert ResponseFrame(opcode, polls).None?;
      (None, rest)
  }

  /** A response frame as the chip sends it: direction 0x01, the opcode echoed,
      the data length, the value and the data, SLIP-escaped between delimiters. */
  function ReplyBody(opcode: byte, value: seq<byte>, data: seq<byte>): seq<byte>
  {
    [0x01, opcode] + U16(|data|) + value + data
  }

  function DeviceReply(opcode: byte, value: seq<byte>, data: seq<byte>): seq<byte>
  {
    [SLIP_END] + SlipEncode(ReplyBody(opcode, value, data)) + [SLIP_END]
  }

  /** A decoded reply the loop accepts without realigning: delimited, direction
      0x01, the expected opcode, a length field matching the data, and no 0xDB
      in between (the decoder would turn it into 0xDC). */
  predicate WellFormedReply(t: seq<byte>, opcode: byte)
  {
    && |t| >= 10 && t[0] == SLIP_END && t[|t| - 1] == SLIP_END
    && t[1] == 0x01 && t[2] == opcode && Word16(t[3], t[4]) == |t| - 10
    && SLIP_ESC !in t[1..|t| - 1]
  }

  /** The packet length the loop holds after it has rebuilt `k` bytes of `t`. */
  function LengthSeen(t: seq<byte>, k: nat): nat
    requires |t| >= 10
  {
    if k > 4 then |t| - 10 else 0
  }

  function Partial(t: seq<byte>, k: nat, escaped: bool): RxState
    requires |t| >= 10 && k <= |t|
  {
    RxState(t[..k], LengthSeen(t, k), escaped)
  }

  lemma RealignPrefix(t: seq<byte>, k: nat, opcode: byte)
    requires WellFormedReply(t, opcode) && 1 <= k <= |t|
    ensures Realign(t[..k], opcode) == t[..k]
  {
  }

  /** A byte that arrives unescaped extends the rebuilt prefix by one. */
  lemma StepPlain(t: seq<byte>, k: nat, opcode: byte)
    requires WellFormedReply(t, opcode) && 1 <= k < |t|
    requires t[k] != SLIP_ESC
    ensures ResponseStep(Partial(t, k, false), Arrived(t[k]), opcode) == Partial(t, k + 1, false)
  {
    AbsorbPlain(t[..k], t[k]);
    assert t[..k] + [t[k]] == t[..k + 1];
    RealignPrefix(t, k + 1, opcode);
  }

  /** An escape byte only raises the flag; the escaped 0xDC then adds 0xC0. */
  lemma StepEscapedEnd(t: seq<byte>, k: nat, opcode: byte)
    requires WellFormedReply(t, opcode) && 1 <= k < |t|
    requires t[k] == SLIP_END
    ensures ResponseStep(Partial(t, k, false), Arrived(SLIP_ESC), opcode) == Partial(t, k, true)
    ensures ResponseStep(Partial(t, k, true), Arrived(SLIP_ESC_END), opcode) == Partial(t, k + 1, false)
  {
    StepEscapeFlag(t, k, opcode);
    StepEscapedByte(t, k, opcode);
  }

  lemma StepEscapeFlag(t: seq<byte>, k: nat, opcode: byte)
    requires WellFormedReply(t, opcode) && 1 <= k < |t|
    ensures ResponseStep(Partial(t, k, false), Arrived(SLIP_ESC), opcode) == Partial(t, k, true)
  {
    var a := Absorb(t[..k], false, Arrived(SLIP_ESC));
    assert a == (t[..k], true) by {
      assert SlipDecodeStep(false, SLIP_ESC) == (true, []);
      assert t[..k] + [] == t[..k];
    }
    RealignPrefix(t, k, opcode);
  }

  lemma StepEscapedByte(t: seq<byte>, k: nat, opcode: byte)
    requires WellFormedReply(t, opcode) && 1 <= k < |t|
    requires t[k] == SLIP_END
    ensures ResponseStep(Partial(t, k, true), Arrived(SLIP_ESC_END), opcode) == Partial(t, k + 1, false)
  {
    var a := Absorb(t[..k], true, Arrived(SLIP_ESC_END));
    assert a == (t[..k + 1], false) by {
      assert SlipDecodeStep(true, SLIP_ESC_END) == (false, [SLIP_END]);
      assert t[..k] + [SLIP_END] == t[..k + 1];
    }
    RealignPrefix(t, k + 1, opcode);
    var r := t[..k + 1];
    if k + 1 > 4 {
      assert r[3] == t[3] && r[4] == t[4];
      assert DeclaredLength(r) == |t| - 10;
    }
  }

  /** The polls a prefix of `k` bytes still waits for: the encoded remainder of the body and the closing 0xC0. */
  function Remaining(t: seq<byte>, k: nat, rest: seq<Poll>): seq<Poll>
    requires 1 <= k < |t|
  {
    Arrivals(SlipEncode(t[k..|t| - 1]) + [SLIP_END]) + rest
  }

  lemma RemainingLast(t: seq<byte>, opcode: byte, rest: seq<Poll>)
    requires WellFormedReply(t, opcode)
    ensures ReceiveResponse(opcode, Partial(t, |t| - 1, false), Remaining(t, |t| - 1, rest))
            == (Partial(t, |t|, false), rest)
  {
    var k := |t| - 1;
    var enc := SlipEncode(t[k..|t| - 1]) + [SLIP_END];
    assert t[k..|t| - 1] == [];
    assert enc == [SLIP_END];
    PollsCons(enc, rest);
    assert enc[1..] == [];
    StepPlain(t, k, opcode);
  }

  lemma RemainingSplit(t: seq<byte>, k: nat, rest: seq<Poll>)
    requires 1 <= k < |t| - 1
    ensures SlipEncode(t[k..|t| - 1]) + [SLIP_END] == SlipEscape(t[k]) + (SlipEncode(t[k + 1..|t| - 1]) + [SLIP_END])
  {
    assert t[k..|t| - 1] == [t[k]] + t[k + 1..|t| - 1];
  }

  lemma RemainingPlain(t: seq<byte>, k: nat, opcode: byte, rest: seq<Poll>)
    requires WellFormedReply(t, opcode) && 1 <= k < |t| - 1
    requires t[k] != SLIP_END && t[k] != SLIP_ESC
    ensures Remaining(t, k, rest)[0] == Arrived(t[k])
    ensures Remaining(t, k, rest)[1..] == Remaining(t, k + 1, rest)
  {
    RemainingSplit(t, k, rest);
    var enc := SlipEncode(t[k..|t| - 1]) + [SLIP_END];
    PollsCons(enc, rest);
  }

  lemma RemainingEscaped(t: seq<byte>, k: nat, opcode: byte, rest: seq<Poll>)
    requires WellFormedReply(t, opcode) && 1 <= k < |t| - 1
    requires t[k] == SLIP_END
    ensures Remaining(t, k, rest)[0] == Arrived(SLIP_ESC)
    ensures Remaining(t, k, rest)[1..][0] == Arrived(SLIP_ESC_END)
    ensures Remaining(t, k, rest)[1..][1..] == Remaining(t, k + 1, rest)
  {
    RemainingSplit(t, k, rest);
    var enc := SlipEncode(t[k..|t| - 1]) + [SLIP_END];
    PollsCons(enc, rest);
    PollsCons(enc[1..], rest);
    assert enc[1..][1..] == SlipEncode(t[k + 1..|t| - 1]) + [SLIP_END];
  }

  /** From a prefix of `k` bytes, the remaining polls complete the reply
      exactly at the closing byte. */
  lemma {:induction false} ReceiveRest(t: seq<byte>, k: nat, opcode: byte, rest: seq<Poll>)
    requires WellFormedReply(t, opcode) && 1 <= k < |t|
    ensures ReceiveResponse(opcode, Partial(t, k, false), Remaining(t, k, rest)) == (Partial(t, |t|, false), rest)
    decreases |t| - k
  {
    if k == |t| - 1 {
      RemainingLast(t, opcode, rest);
    } else {
      ReceiveRest(t, k + 1, opcode, rest);
      ReceiveByte(t, k, opcode, rest);
    }
  }

  /** Each byte of the body, escaped or not, moves the loop from one prefix to the next. */
  lemma ReceiveByte(t: seq<byte>, k: nat, opcode: byte, rest: seq<Poll>)
    requires WellFormedReply(t, opcode) && 1 <= k < |t| - 1
    ensures ReceiveResponse(opcode, Partial(t, k, false), Remaining(t, k, rest))
            == ReceiveResponse(opcode, Partial(t, k + 1, false), Remaining(t, k + 1, rest))
  {
    assert t[k] == t[1..|t| - 1][k - 1];
    var polls := Remaining(t, k, rest);
    PartialIncomplete(t, k + 1);
    if t[k] == SLIP_END {
      RemainingEscaped(t, k, opcode, rest);
      StepEscapedEnd(t, k, opcode);
      PartialIncomplete(t, k);
      ReceiveStep(opcode, Partial(t, k, false), polls);
      ReceiveStep(opcode, Partial(t, k, true), polls[1..]);
    } else {
      RemainingPlain(t, k, opcode, rest);
      StepPlain(t, k, opcode);
      ReceiveStep(opcode, Partial(t, k, false), polls);
    }
  }

  /** A prefix short of the whole reply is not complete, escaped or not. */
  lemma PartialIncomplete(t: seq<byte>, k: nat)
    requires |t| >= 10 && k < |t|
    ensures !Complete(Partial(t, k, false)) && !Complete(Partial(t, k, true))
  {
  }

  /** One poll that neither expires the call nor completes the reply is taken and the loop goes on. */
  lemma ReceiveStep(opcode: byte, st: RxState, polls: seq<Poll>)
    requires polls != [] && !polls[0].Expired? && !Complete(ResponseStep(st, polls[0], opcode))
    ensures ReceiveResponse(opcode, st, polls) == ReceiveResponse(opcode, ResponseStep(st, polls[0], opcode), polls[1..])
  {
  }

  /** The decoded form of a device reply. */
  function Decoded(opcode: byte, value: seq<byte>, data: seq<byte>): seq<byte>
  {
    [SLIP_END] + ReplyBody(opcode, value, data) + [SLIP_END]
  }

  lemma DecodedWellFormed(opcode: byte, value: seq<byte>, data: seq<byte>)
    requires |value| == 4 && |data| < TWO_16
    requires SLIP_ESC !in ReplyBody(opcode, value, data)
    ensures WellFormedReply(Decoded(opcode, value, data), opcode)
    ensures var t := Decoded(opcode, value, data); t[5..9] == value && t[9..|t| - 1] == data
  {
    var t := Decoded(opcode, value, data);
    assert t[1..|t| - 1] == ReplyBody(opcode, value, data);
    assert t[3] == U16(|data|)[0] && t[4] == U16(|data|)[1];
    Word16OfU16(|data|);
    assert t[5..9] == value;
    assert t[9..|t| - 1] == data;
  }

  lemma DeviceReplyPolls(opcode: byte, value: seq<byte>, data: seq<byte>, rest: seq<Poll>)
    requires |value| == 4
    ensures var polls := Arrivals(DeviceReply(opcode, value, data)) + rest;
            polls[0] == Arrived(SLIP_END) && polls[1..] == Remaining(Decoded(opcode, value, data), 1, rest)
  {
    var t := Decoded(opcode, value, data);
    var enc := DeviceReply(opcode, value, data);
    PollsCons(enc, rest);
    assert t[1..|t| - 1] == ReplyBody(opcode, value, data);
    assert enc[1..] == SlipEncode(t[1..|t| - 1]) + [SLIP_END];
  }

  /** A well-formed reply arriving in the queue is returned intact, and whatever
      arrives after it stays queued. */
  lemma GetResponseOfDeviceReply(opcode: byte, value: seq<byte>, data: seq<byte>, rest: seq<Poll>)
    requires |value| == 4 && |data| < TWO_16
    requires SLIP_ESC !in ReplyBody(opcode, value, data)
    ensures GetResponse(opcode, Arrivals(DeviceReply(opcode, value, data)) + rest)
            == (Some(Response(value, data)), rest)
  {
    var t := Decoded(opcode, value, data);
    var polls := Arrivals(DeviceReply(opcode, value, data)) + rest;
    DecodedWellFormed(opcode, value, data);
    DeviceReplyPolls(opcode, value, data, rest);
    assert ResponseStep(RX_START, Arrived(SLIP_END), opcode) == Partial(t, 1, false) by {
      assert t[..1] == [SLIP_END];
      assert [] + [SLIP_END] == [SLIP_END];
    }
    ReceiveRest(t, 1, opcode, rest);
    assert t[..|t|] == t;
    assert ReceiveResponse(opcode, RX_START, polls) == (RxState(t, |t| - 10, false), rest);
  }

  predicate Silent(polls: seq<Poll>)
  {
    forall i :: 0 <= i < |polls| ==> !polls[i].Arrived?
  }

  lemma SilentTail(polls: seq<Poll>)
    requires Silent(polls) && polls != []
    ensures Silent(polls[1..])
  {
    forall i | 0 <= i < |polls[1..]| ensures !polls[1..][i].Arrived? {
      assert polls[1..][i] == polls[i + 1];
    }
  }

  lemma {:induction false} ReceiveSilent(opcode: byte, polls: seq<Poll>)
    requires Silent(polls)
    ensures ReceiveResponse(opcode, RX_START, polls).0 == RX_START
    decreases |polls|
  {
    if polls != [] && !polls[0].Expired? {
      SilentTail(polls);
      ReceiveSilent(opcode, polls[1..]);
    }
  }

  /** A queue that never delivers a byte yields no response, and what remains of it delivers none either. */
  lemma GetResponseSilent(opcode: byte, polls: seq<Poll>)
    requires Silent(polls)
    ensures GetResponse(opcode, polls).0 == None
    ensures Silent(GetResponse(opcode, polls).1)
  {
    ReceiveSilent(opcode, polls);
    var rest := GetResponse(opcode, polls).1;
    forall i | 0 <= i < |rest| ensures !rest[i].Arrived? {
      assert rest[i] == polls[|polls| - |rest| + i];
    }
  }

  // ---------------------------------------------------------------------------
  // readBuffer

  /** One iteration of `readBuffer`: decode, then drop a leading byte that is not 0xC0. */
  function BufferStep(reply: seq<byte>, escaped: bool, p: Poll): (seq<byte>, bool)
  {
    var a := Absorb(reply, escaped, p);
    var r := if |a.0| > 0 && a.0[0] != SLIP_END then a.0[1..] else a.0;
    (r, a.1)
  }

  /** The loop stops once the reply has two bytes or more and ends with 0xC0. */
  function ReceiveBuffer(reply: seq<byte>, escaped: bool, polls: seq<Poll>): (r: (seq<byte>, seq<Poll>))
    ensures |r.1| <= |polls| && r.1 == polls[|polls| - |r.1|..]
    decreases |polls|
  {
    if polls == [] then (reply, [])
    else if polls[0].Expired? then (reply, polls[1..])
    else
      var next := BufferStep(reply, escaped, polls[0]);
      if |next.0| > 1 && next.0[|next.0| - 1] == SLIP_END then (next.0, polls[1..])
      else ReceiveBuffer(next.0, next.1, polls[1..])
  }

  /** `readBuffer`: null when fewer than two bytes were collected, otherwise the
      bytes between the first and the last, whether or not a closing 0xC0 came. */
  function ReadBuffer(polls: seq<Poll>): (r: (Option<seq<byte>>, seq<Poll>))
    ensures |r.1| <= |polls| && r.1 == polls[|polls| - |r.1|..]
  {
    var (reply, rest) := ReceiveBuffer([], false, polls);
    if |reply| < 2 then (None, rest) else (Some(reply[1..|reply| - 1]), rest)
  }

  lemma PollsCons(s: seq<byte>, rest: seq<Poll>)
    requires s != []
    ensures (Arrivals(s) + rest)[0] == Arrived(s[0])
    ensures (Arrivals(s) + rest)[1..] == Arrivals(s[1..]) + rest
  {
    assert Arrivals(s) == [Arrived(s[0])] + Arrivals(s[1..]);
  }

  lemma AbsorbPlain(reply: seq<byte>, x: byte)
    requires x != SLIP_ESC
    ensures Absorb(reply, false, Arrived(x)) == (reply + [x], false)
  {
  }

  lemma {:induction false} ReceiveBufferPlain(payload: seq<byte>, j: nat, rest: seq<Poll>)
    requires SLIP_END !in payload && SLIP_ESC !in payload
    requires j <= |payload|
    ensures ReceiveBuffer([SLIP_END] + payload[..j], false, Arrivals(payload[j..] + [SLIP_END]) + rest)
            == ([SLIP_END] + payload + [SLIP_END], rest)
    decreases |payload| - j
  {
    var s := payload[j..] + [SLIP_END];
    var polls := Arrivals(s) + rest;
    var reply := [SLIP_END] + payload[..j];
    PollsCons(s, rest);
    if j == |payload| {
      assert s == [SLIP_END];
      assert s[1..] == [];
      assert payload[..j] == payload;
      AbsorbPlain(reply, SLIP_END);
      assert BufferStep(reply, false, polls[0]) == (reply + [SLIP_END], false);
    } else {
      var x := payload[j];
      assert x in payload;
      assert s[0] == x;
      assert s[1..] == payload[j + 1..] + [SLIP_END];
      AbsorbPlain(reply, x);
      assert reply + [x] == [SLIP_END] + payload[..j + 1];
      assert BufferStep(reply, false, polls[0]) == (reply + [x], false);
      ReceiveBufferPlain(payload, j + 1, rest);
    }
  }

  /** A delimited frame whose bytes need no escaping is read back exactly. */
  lemma ReadBufferOfFrame(payload: seq<byte>, rest: seq<Poll>)
    requires SLIP_END !in payload && SLIP_ESC !in payload
    ensures ReadBuffer(Arrivals([SLIP_END] + payload + [SLIP_END]) + rest) == (Some(payload), rest)
  {
    var s := [SLIP_END] + payload + [SLIP_END];
    var polls := Arrivals(s) + rest;
    PollsCons(s, rest);
    assert s[1..] == payload[0..] + [SLIP_END];
    assert [SLIP_END] + payload[..0] == [SLIP_END];
    assert s[0] == SLIP_END;
    AbsorbPlain([], SLIP_END);
    assert [] + [SLIP_END] == [SLIP_END];
    assert BufferStep([], false, polls[0]) == ([SLIP_END], false);
    ReceiveBufferPlain(payload, 0, rest);
    assert ReceiveBuffer([], false, polls) == (s, rest);
    assert s[1..|s| - 1] == payload;
  }

  /** A queue that never delivers a byte yields null. */
  lemma ReadBufferSilence(polls: seq<Poll>)
    requires Silent(polls)
    ensures ReadBuffer(polls).0 == None
  {
    SilenceKeepsEmpty(polls);
  }

  lemma {:induction false} SilenceKeepsEmpty(polls: seq<Poll>)
    requires Silent(polls)
    ensures ReceiveBuffer([], false, polls).0 == []
  {
    if polls != [] && !polls[0].Expired? {
      SilentTail(polls);
      SilenceKeepsEmpty(polls[1..]);
    }
  }

  // ---------------------------------------------------------------------------
  // checkCommand

  /** How many trailing status bytes a response carries: 2 for the stub and the
      ESP8266 ROM, 4 for the ESP32 and ESP32-S2 ROMs, otherwise the whole data
      when it is 2 or 4 bytes long, else 0. */
  function StatusLength(loader: Loader, dataLength: nat): (r: nat)
    ensures r == 0 || r == 2 || r == 4
    ensures loader.isStub || loader.family == Some(ESP8266) ==> r == 2
    ensures !loader.isStub && (loader.family == Some(ESP32) || loader.family == Some(ESP32S2)) ==> r == 4
    ensures r == 0 <==> !loader.isStub && loader.family.None? && dataLength != 2 && dataLength != 4
  {
    if loader.isStub then 2
    else match loader.family
      case Some(ESP8266) => 2
      case Some(_) => 4
      case None => if dataLength == 2 || dataLength == 4 then dataLength else 0
  }

  /** The status check of `checkCommand`. With a status length of 0,
      `data.slice(-0)` is the whole data and `data.slice(0, -0)` is empty. */
  function CheckStatus(loader: Loader, opcode: byte, resp: Response): (r: Result<Response, LoaderError>)
    ensures var n := StatusLength(loader, |resp.data|);
            r.Ok? ==> n <= |resp.data| && r.value.value == resp.value
                      && r.value.data == (if n == 0 then [] else resp.data[..|resp.data| - n])
  {
    var data := resp.data;
    var statusLen := StatusLength(loader, |data|);
    if |data| < statusLen then Err(NotEnoughStatusBytes)
    else
      var status := if statusLen == 0 then data else data[|data| - statusLen..];
      var rest := if statusLen == 0 then [] else data[..|data| - statusLen];
      if |status| > 0 && status[0] == 1 then
        if |status| > 1 && status[1] == ROM_INVALID_RECV_MSG then Err(InvalidCommand(opcode))
        else Err(CommandFailed(if |status| > 1 then Some(status[1]) else None))
      else Ok(Response(resp.value, rest))
  }

  /** One command exchange: the timeout actually used, the outcome, and the
      polls left in the queue. The frame written is `CommandFrame(cmd)`. */
  datatype Exchange = Exchange(timeout: int, result: Result<Response, LoaderError>, rest: seq<Poll>)

  /** `checkCommand`: clamp the timeout, send the frame, await the response and check its status. */
  function CheckCommand(loader: Loader, cmd: Command, polls: seq<Poll>): (r: Exchange)
    ensures r.timeout <= MAX_TIMEOUT && (cmd.timeout <= MAX_TIMEOUT ==> r.timeout == cmd.timeout)
    ensures GetResponse(cmd.opcode, polls).0.None? ==> r.result == Err(NotEnoughStatusBytes)
    ensures r.result.Ok? ==> GetResponse(cmd.opcode, polls).0.Some?
    ensures |r.rest| <= |polls|
  {
    var timeout := if cmd.timeout < MAX_TIMEOUT then cmd.timeout else MAX_TIMEOUT;
    var (resp, rest) := GetResponse(cmd.opcode, polls);
    var result := if resp.None? then Err(NotEnoughStatusBytes) else CheckStatus(loader, cmd.opcode, resp.value);
    Exchange(timeout, result, rest)
  }

  /** With a two-byte status (the stub, the ESP8266 ROM, or an undetected
      family answering with two bytes of data), a response fails exactly
      when it is shorter than the status or the first status byte is 1, and a
      success strips the two status bytes. */
  lemma CheckStatusTwoBytes(loader: Loader, opcode: byte, resp: Response)
    requires StatusLength(loader, |resp.data|) == 2
    ensures var r := CheckStatus(loader, opcode, resp);
            var d := resp.data;
            && (|d| < 2 ==> r == Err(NotEnoughStatusBytes))
            && (|d| >= 2 && d[|d| - 2] == 1 && d[|d| - 1] == ROM_INVALID_RECV_MSG ==> r == Err(InvalidCommand(opcode)))
            && (|d| >= 2 && d[|d| - 2] == 1 && d[|d| - 1] != ROM_INVALID_RECV_MSG ==> r == Err(CommandFailed(Some(d[|d| - 1]))))
            && (|d| >= 2 && d[|d| - 2] != 1 ==> r == Ok(Response(resp.value, d[..|d| - 2])))
  {
  }

  /** With a four-byte status (the ESP32 and ESP32-S2 ROMs, or an undetected
      family answering with four bytes of data), only the first two of the four
      status bytes decide. */
  lemma CheckStatusFourBytes(loader: Loader, opcode: byte, resp: Response)
    requires StatusLength(loader, |resp.data|) == 4
    ensures var r := CheckStatus(loader, opcode, resp);
            var d := resp.data;
            && (|d| < 4 ==> r == Err(NotEnoughStatusBytes))
            && (|d| >= 4 && d[|d| - 4] == 1 && d[|d| - 3] == ROM_INVALID_RECV_MSG ==> r == Err(InvalidCommand(opcode)))
            && (|d| >= 4 && d[|d| - 4] == 1 && d[|d| - 3] != ROM_INVALID_RECV_MSG ==> r == Err(CommandFailed(Some(d[|d| - 3]))))
            && (|d| >= 4 && d[|d| - 4] != 1 ==> r == Ok(Response(resp.value, d[..|d| - 4])))
  {
  }

  /** Before the family is known, a response whose data is neither 2 nor 4 bytes
      long is checked against its whole data and, when it passes, loses all of it. */
  lemma CheckStatusUndetermined(opcode: byte, resp: Response)
    requires |resp.data| != 2 && |resp.data| != 4
    ensures var r := CheckStatus(Loader(None, false), opcode, resp);
            && (r.Ok? <==> (|resp.data| == 0 || resp.data[0] != 1))
            && (r.Ok? ==> r.value.data == [])
  {
  }

  /** `readRegister`: READ_REG with the packed address; the register is the
      response's value field read as a signed 32-bit number. */
  function ReadRegister(loader: Loader, addr: int, polls: seq<Poll>): (r: Result<int, LoaderError>)
    ensures r.Ok? ==> -TWO_31 <= r.value < TWO_31
  {
    var ex := CheckCommand(loader, ReadRegCommand(addr), polls);
    match ex.result
    case Err(e) => Err(e)
    case Ok(resp) => Ok(UnpackField('I', resp.value, 0))
  }

  /** The READ_REG command: the address as a 4-byte little-endian payload,
      no checksum, the default timeout. */
  function ReadRegCommand(addr: int): (r: Command)
    ensures r.opcode == ESP_READ_REG && r.checksum == 0 && r.timeout == DEFAULT_TIMEOUT
    ensures |r.payload| == 4 && Word32(r.payload) == addr % TWO_32
  {
    Word32OfU32(addr);
    Command(ESP_READ_REG, U32(addr), 0, DEFAULT_TIMEOUT)
  }

  lemma StatusPasses(loader: Loader, value: seq<byte>, status: seq<byte>)
    requires |status| == StatusLength(loader, |status|) && |status| > 0 && status[0] != 1
    ensures CheckStatus(loader, ESP_READ_REG, Response(value, status)).Ok?
  {
    assert status[|status| - |status|..] == status;
  }

  /** A register read answered with the register's 32 bits and a passing
      status yields the register's signed 32-bit reading. */
  lemma ReadRegisterOfReply(loader: Loader, addr: int, v: int, status: seq<byte>, rest: seq<Poll>)
    requires |status| == StatusLength(loader, |status|) && |status| > 0 && status[0] != 1
    requires SLIP_ESC !in ReplyBody(ESP_READ_REG, U32(v), status)
    ensures ReadRegister(loader, addr, Arrivals(DeviceReply(ESP_READ_REG, U32(v), status)) + rest) == Ok(ToInt32(v))
  {
    GetResponseOfDeviceReply(ESP_READ_REG, U32(v), status, rest);
    StatusPasses(loader, U32(v), status);
    WordReads(v);
  }
}

=== FILE: identify.dfy ===
/** Chip identification after sync: the family from the magic register, the
    four eFuse words, the chip name, and the MAC address burned into them. */
module Identify {
  import opened Results
  import opened Bytes
  import opened EspConst
  import opened EspUtil
  import opened Framing
  import opened Session

  /** The register `initialize` reads to tell the families apart. */
  const DATAREG_ADDR: int := 0x6000_0078

  /** Maps the magic register to a family; any other value is an unknown chip. */
  function DetectFamily(datareg: int): (r: Result<ChipFamily, LoaderError>)
    ensures r.Ok? ==> r.value.DataRegValue() == datareg
    ensures r.Err? <==> (datareg != ESP32_DATAREGVALUE && datareg != ESP8266_DATAREGVALUE && datareg != ESP32S2_DATAREGVALUE)
    ensures r.Err? ==> r.error == UnknownChip
  {
    if datareg == ESP32_DATAREGVALUE then Ok(ESP32)
    else if datareg == ESP8266_DATAREGVALUE then Ok(ESP8266)
    else if datareg == ESP32S2_DATAREGVALUE then Ok(ESP32S2)
    else Err(UnknownChip)
  }

  /** Detection inverts the magic-value table. */
  lemma DetectFamilyInverse(f: ChipFamily)
    ensures DetectFamily(f.DataRegValue()) == Ok(f)
  {
    FamilyTablesInjective(f, DetectFamily(f.DataRegValue()).value);
  }

  /** Base address of the eFuse words for a family: the ESP8266 has its own,
      the ESP32 and ESP32-S2 share one. */
  function EfuseBase(f: ChipFamily): (r: int)
    ensures f == ESP8266 <==> r == 0x3FF0_0050
    ensures f != ESP8266 <==> r == 0x6001_A000
  {
    if f == ESP8266 then 0x3FF0_0050 else 0x6001_A000
  }

  /** The name `initialize` gives the chip. An ESP8266 is an ESP8285 when bit
      4 of eFuse word 0 or bit 16 of eFuse word 2 is set. */
  function ChipName(f: ChipFamily, efuses: seq<int>): (r: string)
    requires |efuses| == 4
    ensures f == ESP8266 <==> (r == "ESP8285" || r == "ESP8266EX")
    ensures f == ESP8266 ==> (r == "ESP8285" <==> BitSet(efuses[0], 4) || BitSet(efuses[2], 16))
    ensures f == ESP32 ==> r == "ESP32"
    ensures f == ESP32S2 ==> r == "ESP32-S2"
  {
    match f
    case ESP32 => "ESP32"
    case ESP32S2 => "ESP32-S2"
    case ESP8266 => if BitSet(efuses[0], 4) || BitSet(efuses[2], 16) then "ESP8285" else "ESP8266EX"
  }

  /** What `initialize` leaves in the loader. */
  datatype Chip = Chip(family: ChipFamily, efuses: seq<int>, name: string)

  /** Addresses of the four eFuse words. */
  function EfuseAddresses(f: ChipFamily): (r: seq<int>)
    ensures |r| == 4 && forall k :: 0 <= k < 4 ==> r[k] == EfuseBase(f) + 4 * k
  {
    var base := EfuseBase(f);
    [base, base + 4, base + 8, base + 12]
  }

  /** Register reads, each with its own stream. */
  function RegisterReads(loader: Loader, addrs: seq<int>, streams: seq<seq<Poll>>): (r: seq<Result<int, LoaderError>>)
    ensures |r| == |addrs|
    ensures forall k {:trigger ReadRegister(loader, addrs[k], StreamAt(streams, k))} ::
              0 <= k < |addrs| ==> r[k] == ReadRegister(loader, addrs[k], StreamAt(streams, k))
  {
    seq(|addrs|, k requires 0 <= k < |addrs| => ReadRegister(loader, addrs[k], StreamAt(streams, k)))
  }

  /** `initialize` after the soft reset: sync, read the magic register with the
      family still unset, then read the four eFuse words as the detected family.
      `syncStreams` answers the SYNC frames, `regStreams` the five register reads. */
  function Initialize(syncStreams: seq<seq<Poll>>, regStreams: seq<seq<Poll>>): (r: Result<Chip, LoaderError>)
    ensures r.Ok? ==> Sync(syncStreams).Ok?
    ensures r.Ok? ==> var datareg := ReadRegister(Loader(None, false), DATAREG_ADDR, StreamAt(regStreams, 0));
                      datareg.Ok? && r.value.family.DataRegValue() == datareg.value
    ensures r.Ok? ==> |r.value.efuses| == 4
    ensures r.Ok? ==> forall k :: 0 <= k < 4 ==>
              RegisterReads(Loader(Some(r.value.family), false), EfuseAddresses(r.value.family), Later(regStreams))[k]
              == Ok(r.value.efuses[k])
    ensures r.Ok? ==> r.value.name == ChipName(r.value.family, r.value.efuses)
    ensures Sync(syncStreams).Err? ==> r == Err(SyncFailed)
  {
    var _ :- Sync(syncStreams);
    var datareg :- ReadRegister(Loader(None, false), DATAREG_ADDR, StreamAt(regStreams, 0));
    var family :- DetectFamily(datareg);
    var efuses :- Collect(RegisterReads(Loader(Some(family), false), EfuseAddresses(family), Later(regStreams)));
    Ok(Chip(family, efuses, ChipName(family, efuses)))
  }

  // ---------------------------------------------------------------------------
  // macAddr

  /** `macAddr` from the four eFuse words: the ESP8266 takes the OUI from word 3
      or from a fixed table keyed by byte 2 of word 1; the ESP32 and ESP32-S2
      take the low 16 bits of word 2 followed by all of word 1. */
  function MacAddr(family: Option<ChipFamily>, efuses: seq<int>): (r: Result<seq<byte>, LoaderError>)
    requires |efuses| == 4
    ensures r.Ok? ==> |r.value| == 6
    ensures r.Err? <==> family.None? || (family == Some(ESP8266) && efuses[3] == 0 && ByteOf(efuses[1], 2) > 1)
    ensures family.None? ==> r == Err(UnknownChipFamily)
  {
    var mac0, mac1, mac2, mac3 := efuses[0], efuses[1], efuses[2], efuses[3];
    match family
    case None => Err(UnknownChipFamily)
    case Some(ESP8266) =>
      var oui :- if mac3 != 0 then Ok([ByteOf(mac3, 2), ByteOf(mac3, 1), ByteOf(mac3, 0)])
                 else if ByteOf(mac1, 2) == 0 then Ok([0x18, 0xFE, 0x34])
                 else if ByteOf(mac1, 2) == 1 then Ok([0xAC, 0xD0, 0x74])
                 else Err(OuiUnknown);
      Ok(oui + [ByteOf(mac1, 1), ByteOf(mac1, 0), ByteOf(mac0, 3)])
    case Some(_) =>
      Ok([ByteOf(mac2, 1), ByteOf(mac2, 0), ByteOf(mac1, 3), ByteOf(mac1, 2), ByteOf(mac1, 1), ByteOf(mac1, 0)])
  }

  /** Big-endian reading of a byte sequence. */
  function BigEndian(bytes: seq<byte>): nat
  {
    if bytes == [] then 0 else BigEndian(bytes[..|bytes| - 1]) * 0x100 + bytes[|bytes| - 1] as int
  }

  lemma BigEndianStep(b: seq<byte>, k: nat)
    requires k < |b|
    ensures BigEndian(b[..k + 1]) == BigEndian(b[..k]) * 0x100 + b[k] as int
  {
    assert b[..k + 1][..k] == b[..k];
  }

  lemma BigEndianSix(b: seq<byte>)
    requires |b| == 6
    ensures BigEndian(b) == (b[0] as int * 0x100 + b[1] as int) * TWO_32
                            + (b[2] as int * 0x100_0000 + b[3] as int * 0x1_0000 + b[4] as int * 0x100 + b[5] as int)
  {
    assert b[..0] == [];
    BigEndianStep(b, 0);
    BigEndianStep(b, 1);
    BigEndianStep(b, 2);
    BigEndianStep(b, 3);
    BigEndianStep(b, 4);
    BigEndianStep(b, 5);
    assert b[..6] == b;
  }

  /** On the ESP32 and ESP32-S2 the MAC, read as a 48-bit number, is the low 16 bits
      of eFuse word 2 above the 32 bits of word 1. */
  lemma MacAddrEsp32Value(family: ChipFamily, efuses: seq<int>)
    requires |efuses| == 4 && family != ESP8266
    ensures BigEndian(MacAddr(Some(family), efuses).value) == (efuses[2] % TWO_16) * TWO_32 + efuses[1] % TWO_32
  {
    var mac := MacAddr(Some(family), efuses).value;
    BigEndianSix(mac);
    LowBytes(efuses[2]);
    ByteOfRecombine(efuses[1]);
  }

  /** On an ESP8266 whose word 3 is zero, byte 2 of word 1 picks one of two
      fixed OUIs, 18:FE:34 for 0 and AC:D0:74 for 1; any other value fails. */
  lemma MacAddrEsp8266FixedOui(efuses: seq<int>)
    requires |efuses| == 4 && efuses[3] == 0
    ensures var r := MacAddr(Some(ESP8266), efuses);
            && (ByteOf(efuses[1], 2) == 0 ==> r.Ok? && r.value[..3] == [0x18, 0xFE, 0x34])
            && (ByteOf(efuses[1], 2) == 1 ==> r.Ok? && r.value[..3] == [0xAC, 0xD0, 0x74])
            && (ByteOf(efuses[1], 2) > 1 ==> r == Err(OuiUnknown))
            && (r.Ok? ==> r.value[3..] == [ByteOf(efuses[1], 1), ByteOf(efuses[1], 0), ByteOf(efuses[0], 3)])
  {
  }

  /** On the ESP8266 the last three bytes are bytes 1 and 0 of word 1 and byte 3
      of word 0, and a non-zero word 3 supplies the OUI as its low 24 bits. */
  lemma MacAddrEsp8266Value(efuses: seq<int>)
    requires |efuses| == 4 && efuses[3] != 0
    ensures var mac := MacAddr(Some(ESP8266), efuses).value;
            BigEndian(mac[..3]) == efuses[3] % 0x100_0000
            && mac[3..] == [ByteOf(efuses[1], 1), ByteOf(efuses[1], 0), ByteOf(efuses[0], 3)]
  {
    var mac := MacAddr(Some(ESP8266), efuses).value;
    var v := efuses[3];
    assert mac[..3] == [ByteOf(v, 2), ByteOf(v, 1), ByteOf(v, 0)];
    var m := mac[..3];
    assert m[..0] == [];
    BigEndianStep(m, 0);
    BigEndianStep(m, 1);
    BigEndianStep(m, 2);
    assert m[..3] == m;
    LowThreeBytes(v);
  }
}

=== FILE: manifest.dfy ===
/** The firmware manifest: a name and one build per chip family, each a list
    of parts to write at given flash offsets. */
module Manifests {
  import opened Results

  datatype Part = Part(filename: string, offset: int)

  datatype Build = Build(chipFamily: string, improv: bool, parts: seq<Part>)

  datatype Manifest = Manifest(name: string, builds: seq<Build>)

  /** The first build for a chip family, as `find` and the first-match loop
      both select it: its index, or `None` when no build matches. */
  function FirstBuildIndex(builds: seq<Build>, family: string): (r: Option<nat>)
    ensures r.Some? ==> r.value < |builds| && builds[r.value].chipFamily == family
    ensures r.Some? ==> forall j :: 0 <= j < r.value ==> builds[j].chipFamily != family
    ensures r.None? <==> forall j :: 0 <= j < |builds| ==> builds[j].chipFamily != family
  {
    if builds == [] then None
    else if builds[0].chipFamily == family then Some(0)
    else match FirstBuildIndex(builds[1..], family)
         case None => None
         case Some(k) => Some(k + 1)
  }

  function FirstBuild(builds: seq<Build>, family: string): (r: Option<Build>)
    ensures r.Some? ==> r.value in builds && r.value.chipFamily == family
    ensures r.None? <==> forall j :: 0 <= j < |builds| ==> builds[j].chipFamily != family
  {
    match FirstBuildIndex(builds, family)
    case None => None
    case Some(k) => Some(builds[k])
  }

  /** Builds placed after a matching one never change the selection. */
  lemma {:induction false} FirstBuildIgnoresLater(builds: seq<Build>, more: seq<Build>, family: string)
    requires FirstBuild(builds, family).Some?
    ensures FirstBuild(builds + more, family) == FirstBuild(builds, family)
  {
    var k := FirstBuildIndex(builds, family).value;
    FirstBuildIndexPrefix(builds, more, family);
    assert (builds + more)[k] == builds[k];
  }

  lemma {:induction false} FirstBuildIndexPrefix(builds: seq<Build>, more: seq<Build>, family: string)
    requires FirstBuildIndex(builds, family).Some?
    ensures FirstBuildIndex(builds + more, family) == FirstBuildIndex(builds, family)
  {
    assert (builds + more)[0] == builds[0];
    if builds[0].chipFamily != family {
      assert (builds + more)[1..] == builds[1..] + more;
      FirstBuildIndexPrefix(builds[1..], more, family);
    }
  }

  /** The download of part i: `None` when it failed (or was never made). */
  function DownloadAt<T>(downloads: seq<Option<T>>, i: nat): Option<T>
  {
    if i < |downloads| then downloads[i] else None
  }

  /** Index of the first part whose download fails, in part order, if any. */
  function FirstFailedDownload<T>(downloads: seq<Option<T>>, parts: nat): (r: Option<nat>)
    ensures r.Some? ==> r.value < parts && DownloadAt(downloads, r.value).None?
                        && forall j :: 0 <= j < r.value ==> DownloadAt(downloads, j).Some?
    ensures r.None? <==> forall j :: 0 <= j < parts ==> DownloadAt(downloads, j).Some?
  {
    FirstFailedFrom(downloads, 0, parts)
  }

  function FirstFailedFrom<T>(downloads: seq<Option<T>>, from: nat, parts: nat): (r: Option<nat>)
    requires from <= parts
    ensures r.Some? ==> from <= r.value < parts && DownloadAt(downloads, r.value).None?
                        && forall j :: from <= j < r.value ==> DownloadAt(downloads, j).Some?
    ensures r.None? <==> forall j :: from <= j < parts ==> DownloadAt(downloads, j).Some?
    decreases parts - from
  {
    if from == parts then None
    else if DownloadAt(downloads, from).None? then Some(from)
    else FirstFailedFrom(downloads, from + 1, parts)
  }
}

=== FILE: results.dfy ===
/** Option and Result: the model's stand-ins for JavaScript's `undefined`/`null`
    and for thrown exceptions. */
module Results {

  datatype Option<+T> = None | Some(value: T)

  datatype Result<+T, +E> = Ok(value: T) | Err(error: E) {
    predicate IsFailure() {
      Err?
    }

    function PropagateFailure<U>(): Result<U, E>
      requires Err?
    {
      Err(error)
    }

    function Extract(): T
      requires Ok?
    {
      value
    }
  }

  /** All the values when every result is Ok, otherwise the first error. */
  function Collect<T(==), E(==)>(rs: seq<Result<T, E>>): (r: Result<seq<T>, E>)
    ensures r.Ok? <==> forall i :: 0 <= i < |rs| ==> rs[i].Ok?
    ensures r.Ok? ==> |r.value| == |rs| && forall i :: 0 <= i < |rs| ==> rs[i] == Ok(r.value[i])
    ensures r.Err? ==> exists i :: 0 <= i < |rs| && rs[i] == Err(r.error) && forall j :: 0 <= j < i ==> rs[j].Ok?
  {
    if rs == [] then Ok([])
    else
      match rs[0]
      case Err(e) => Err(e)
      case Ok(v) =>
        match Collect(rs[1..])
        case Err(e) => 
          var i :| 0 <= i < |rs[1..]| && rs[1..][i] == Err(e) && forall j :: 0 <= j < i ==> rs[1..][j].Ok?;
          assert rs[i + 1] == Err(e) && forall j :: 0 <= j < i + 1 ==> rs[j].Ok?;
          Err(e)
        case Ok(vs) => Ok([v] + vs)
  }
}

=== FILE: session.dfy ===
/** Sequences of command exchanges, and the sync handshake.

    The chip's side of a conversation is given as one poll stream per
    exchange, in the order the exchanges happen; a missing stream is a line
    that stays silent until the timeout. */
module Session {
  import opened Results
  import opened Bytes
  import opened EspConst
  import opened EspUtil
  import opened Framing

  function StreamAt(streams: seq<seq<Poll>>, i: nat): seq<Poll>
  {
    if i < |streams| then streams[i] else []
  }

  function Later(streams: seq<seq<Poll>>): (r: seq<seq<Poll>>)
    ensures forall i: nat :: StreamAt(r, i) == StreamAt(streams, i + 1)
  {
    if streams == [] then [] else streams[1..]
  }

  /** The commands written, and either every checked response or the first error. */
  datatype Run = Run(sent: seq<Command>, result: Result<seq<Response>, LoaderError>)

  /** What `checkCommand` makes of each command, each with its own stream. */
  function Outcomes(loader: Loader, cmds: seq<Command>, streams: seq<seq<Poll>>): (r: seq<Result<Response, LoaderError>>)
    ensures |r| == |cmds|
    ensures forall i {:trigger CheckCommand(loader, cmds[i], StreamAt(streams, i))} ::
              0 <= i < |cmds| ==> r[i] == CheckCommand(loader, cmds[i], StreamAt(streams, i)).result
  {
    seq(|cmds|, i requires 0 <= i < |cmds| => CheckCommand(loader, cmds[i], StreamAt(streams, i)).result)
  }

  /** The number of exchanges that happen when each one must succeed before the
      next is sent, and the responses or the error that stopped them. */
  function FirstFailure(outcomes: seq<Result<Response, LoaderError>>): (r: (nat, Result<seq<Response>, LoaderError>))
    ensures r.0 <= |outcomes|
    ensures r.1.Ok? <==> forall i :: 0 <= i < |outcomes| ==> outcomes[i].Ok?
    ensures r.1.Ok? ==> r.0 == |outcomes| == |r.1.value| && forall i :: 0 <= i < |outcomes| ==> outcomes[i] == Ok(r.1.value[i])
    ensures r.1.Err? ==> 1 <= r.0 && outcomes[r.0 - 1] == Err(r.1.error)
    ensures r.1.Err? ==> forall i :: 0 <= i < r.0 - 1 ==> outcomes[i].Ok?
  {
    if outcomes == [] then (0, Ok([]))
    else
      match outcomes[0]
      case Err(e) => (1, Err(e))
      case Ok(resp) =>
        var tail := FirstFailure(outcomes[1..]);
        (1 + tail.0, match tail.1
                     case Ok(rs) => Ok([resp] + rs)
                     case Err(e) => Err(e))
  }

  /** Awaits each command with `checkCommand` in turn; the first failure propagates. */
  function RunCommands(loader: Loader, cmds: seq<Command>, streams: seq<seq<Poll>>): (r: Run)
    ensures var outcomes := Outcomes(loader, cmds, streams);
            && |r.sent| <= |cmds| && r.sent == cmds[..|r.sent|]
            && (r.result.Ok? <==> forall i :: 0 <= i < |cmds| ==> outcomes[i].Ok?)
            && (r.result.Ok? ==> r.sent == cmds && |r.result.value| == |cmds|
                                 && forall i :: 0 <= i < |cmds| ==> outcomes[i] == Ok(r.result.value[i]))
            && (r.result.Err? ==> 1 <= |r.sent| && outcomes[|r.sent| - 1] == Err(r.result.error))
            && (forall i :: 0 <= i < |r.sent| - 1 ==> outcomes[i].Ok?)
  {
    var outcomes := Outcomes(loader, cmds, streams);
    var (n, result) := FirstFailure(outcomes);
    Run(cmds[..n], result)
  }

  /** Once an exchange has failed, later commands are never sent. */
  lemma {:induction false} FirstFailurePrefix(xs: seq<Result<Response, LoaderError>>, ys: seq<Result<Response, LoaderError>>)
    requires FirstFailure(xs).1.Err?
    ensures FirstFailure(xs + ys) == FirstFailure(xs)
  {
    assert (xs + ys)[0] == xs[0];
    if xs[0].Ok? {
      assert (xs + ys)[1..] == xs[1..] + ys;
      FirstFailurePrefix(xs[1..], ys);
    }
  }

  // ---------------------------------------------------------------------------
  // sync

  const SYNC_ATTEMPTS: nat := 5
  const SYNC_PROBES: nat := 8

  /** The SYNC command `_sync` writes. Its responses are awaited with SYNC_TIMEOUT. */
  const SYNC_COMMAND: Command := Command(ESP_SYNC, SYNC_PACKET, 0, SYNC_TIMEOUT)

  /** A sync response counts when its data starts with two zero bytes. */
  predicate SyncAccepted(data: seq<byte>)
  {
    |data| > 1 && data[0] == 0 && data[1] == 0
  }

  /** The reads of one `_sync` call: up to `probes` responses from the same
      queue, skipping timeouts and responses whose data does not count. */
  function SyncProbes(polls: seq<Poll>, probes: nat): (r: bool)
    ensures r ==> probes > 0
    decreases probes
  {
    if probes == 0 then false
    else
      var (resp, rest) := GetResponse(ESP_SYNC, polls);
      if resp.Some? && SyncAccepted(resp.value.data) then true
      else SyncProbes(rest, probes - 1)
  }

  /** Whether each of the five `_sync` attempts was answered. */
  function Answered(streams: seq<seq<Poll>>): (r: seq<bool>)
    ensures |r| == SYNC_ATTEMPTS
    ensures forall j {:trigger SyncProbes(StreamAt(streams, j), SYNC_PROBES)} ::
              0 <= j < SYNC_ATTEMPTS ==> r[j] == SyncProbes(StreamAt(streams, j), SYNC_PROBES)
  {
    seq(SYNC_ATTEMPTS, j requires 0 <= j < SYNC_ATTEMPTS => SyncProbes(StreamAt(streams, j), SYNC_PROBES))
  }

  /** `sync`: up to five `_sync` attempts, each writing one SYNC frame; the
      result is the number of frames written before one was answered. */
  function Sync(streams: seq<seq<Poll>>): (r: Result<nat, LoaderError>)
    ensures var answered := Answered(streams);
            && (r.Ok? ==> 1 <= r.value <= SYNC_ATTEMPTS && answered[r.value - 1])
            && (r.Ok? ==> forall j :: 0 <= j < r.value - 1 ==> !answered[j])
            && (r.Err? <==> forall j :: 0 <= j < SYNC_ATTEMPTS ==> !answered[j])
            && (r.Err? ==> r.error == SyncFailed)
  {
    SyncOutcome(Answered(streams))
  }

  function SyncOutcome(answered: seq<bool>): (r: Result<nat, LoaderError>)
    ensures r.Ok? ==> 1 <= r.value <= |answered| && answered[r.value - 1]
    ensures r.Ok? ==> forall j :: 0 <= j < r.value - 1 ==> !answered[j]
    ensures r.Err? <==> forall j :: 0 <= j < |answered| ==> !answered[j]
    ensures r.Err? ==> r.error == SyncFailed
  {
    var n := FirstAnswered(answered);
    if n == |answered| then Err(SyncFailed) else Ok(n + 1)
  }

  /** Index of the first attempt that was answered, or the number of attempts. */
  function FirstAnswered(answered: seq<bool>): (r: nat)
    ensures r <= |answered|
    ensures r < |answered| ==> answered[r]
    ensures forall j :: 0 <= j < r ==> !answered[j]
  {
    if answered == [] || answered[0] then 0 else 1 + FirstAnswered(answered[1..])
  }

  /** The SYNC frames written by a sync that ended with `r`. */
  function SyncFrames(r: Result<nat, LoaderError>): (frames: seq<seq<byte>>)
    ensures |frames| == if r.Ok? then r.value else SYNC_ATTEMPTS
  {
    seq(if r.Ok? then r.value else SYNC_ATTEMPTS, _ => CommandFrame(SYNC_COMMAND))
  }

  /** A chip answering the first probe with two zero status bytes syncs. */
  lemma SyncProbesOfReply(value: seq<byte>, data: seq<byte>, rest: seq<Poll>, probes: nat)
    requires probes > 0 && |value| == 4 && |data| < TWO_16
    requires SyncAccepted(data) && SLIP_ESC !in ReplyBody(ESP_SYNC, value, data)
    ensures SyncProbes(Arrivals(DeviceReply(ESP_SYNC, value, data)) + rest, probes)
  {
    GetResponseOfDeviceReply(ESP_SYNC, value, data, rest);
  }

  lemma {:induction false} SyncProbesSilent(polls: seq<Poll>, probes: nat)
    requires Silent(polls)
    ensures !SyncProbes(polls, probes)
    decreases probes
  {
    if probes > 0 {
      GetResponseSilent(ESP_SYNC, polls);
      SyncProbesSilent(GetResponse(ESP_SYNC, polls).1, probes - 1);
    }
  }

  /** A chip that never answers makes sync write five SYNC frames and fail. */
  lemma SyncSilentFails(streams: seq<seq<Poll>>)
    requires forall i :: 0 <= i < |streams| ==> Silent(streams[i])
    ensures Sync(streams) == Err(SyncFailed)
    ensures |SyncFrames(Sync(streams))| == SYNC_ATTEMPTS
  {
    forall j | 0 <= j < SYNC_ATTEMPTS ensures !SyncProbes(StreamAt(streams, j), SYNC_PROBES) {
      SyncProbesSilent(StreamAt(streams, j), SYNC_PROBES);
    }
  }

  /** A chip that answers the first SYNC frame syncs after writing exactly one frame. */
  lemma SyncFirstAnswer(streams: seq<seq<Poll>>, value: seq<byte>, data: seq<byte>, rest: seq<Poll>)
    requires |streams| > 0 && streams[0] == Arrivals(DeviceReply(ESP_SYNC, value, data)) + rest
    requires |value| == 4 && |data| < TWO_16
    requires SyncAccepted(data) && SLIP_ESC !in ReplyBody(ESP_SYNC, value, data)
    ensures Sync(streams) == Ok(1)
  {
    SyncProbesOfReply(value, data, rest, SYNC_PROBES);
  }
}

=== FILE: start_flash.dfy ===
/** `startFlash`: connect, identify the chip, pick the manifest's build for it,
    start the stub, download the parts and write them one after the other,
    reporting progress to the log element. The serial port, the downloads and
    the manifest fetch are given as outcomes; the exchanges with the chip are
    the poll streams the rest of the model consumes. */
module StartFlash {
  import opened Results
  import opened Bytes
  import opened EspConst
  import opened Framing
  import opened Session
  import opened Identify
  import opened Flashing
  import opened Bootstrap
  import opened Manifests
  import opened ChipFamilyName

  /** The error messages the log element shows. */
  datatype Message = InitializeFailed | ManifestUnavailable | BoardNotSupported(chipFamily: string)
                   | DownloadFailed(filename: string)

  /** What `startFlash` does that can be observed. */
  datatype Effect =
    | ErrorMessage(message: Message)
    | Disconnect
    | TotalBytes(size: nat)                     // the log element's total
    | FlashPart(offset: int, data: seq<byte>)   // one `flashData` call
    | BytesWritten(bytes: nat)                  // the log element's progress
    | SoftReset

  /** How the call ends: it returns, or the promise rejects (an uncaught failure). */
  datatype Ending = Returned | Rejected

  /** What the outside world does during one call. `downloads[i]` is part i's
      file, `None` (or missing) when its download fails; `flashStreams[i]` are
      the chip's answers while part i is written. */
  datatype Outcome = Outcome(
    connected: bool,
    syncStreams: seq<seq<Poll>>, regStreams: seq<seq<Poll>>,
    connectedAfterInit: bool,
    manifest: Option<Manifest>,
    stub: StubImage, stubStreams: seq<seq<Poll>>,
    downloads: seq<Option<seq<byte>>>,
    flashStreams: seq<seq<seq<Poll>>>)

  // ---------------------------------------------------------------------------
  // Progress percentages

  /** `Math.floor(bytes / totalSize * 100)`; `None` when that is not a finite number. */
  function Percent(bytes: nat, totalSize: nat): (r: Option<int>)
    ensures r.Some? <==> totalSize > 0
    ensures r.Some? ==> 0 <= r.value && r.value * totalSize <= 100 * bytes < (r.value + 1) * totalSize
  {
    if totalSize == 0 then None else Some(100 * bytes / totalSize)
  }

  /** `newPct === lastPct` on finite percentages. A non-finite percentage (NaN
      for 0 / 0, Infinity otherwise) arises only with a total size of 0, when
      every file is empty and `flashData` never calls back; the model lets it
      equal nothing. */
  predicate SamePercent(a: Option<int>, b: Option<int>)
  {
    a.Some? && a == b
  }

  /** The percentage remembered after reporting `reported`, starting from `last`. */
  function LastPercent(reported: seq<nat>, totalSize: nat, last: Option<int>): Option<int>
  {
    if reported == [] then last else Percent(reported[|reported| - 1], totalSize)
  }

  /** Every reported value moves the percentage: the first away from `last`,
      each later one away from the one before. */
  predicate Changes(reported: seq<nat>, totalSize: nat, last: Option<int>)
  {
    && (|reported| > 0 ==> !SamePercent(Percent(reported[0], totalSize), last))
    && forall k :: 0 <= k < |reported| - 1 ==>
         !SamePercent(Percent(reported[k], totalSize), Percent(reported[k + 1], totalSize))
  }

  /** The progress callback over one part's values: the values it passes on,
      and the percentage it remembers. */
  function Dedup(values: seq<nat>, totalSize: nat, last: Option<int>): (r: (seq<nat>, Option<int>))
    ensures Changes(r.0, totalSize, last)
    ensures r.1 == LastPercent(r.0, totalSize, last)
    ensures forall k :: 0 <= k < |r.0| ==> r.0[k] in values
    ensures values != [] ==> r.1 == Percent(values[|values| - 1], totalSize)
    decreases |values|
  {
    if values == [] then ([], last)
    else
      var p := Percent(values[0], totalSize);
      if SamePercent(p, last) then Dedup(values[1..], totalSize, last)
      else
        var rest := Dedup(values[1..], totalSize, p);
        ([values[0]] + rest.0, rest.1)
  }

  /** A value whose percentage differs from the one before it is never dropped. */
  lemma {:induction false} DedupKeepsChanges(values: seq<nat>, totalSize: nat, last: Option<int>)
    ensures |values| > 0 && !SamePercent(Percent(values[0], totalSize), last)
            ==> values[0] in Dedup(values, totalSize, last).0
    ensures forall k :: (0 < k < |values| && !SamePercent(Percent(values[k], totalSize), Percent(values[k - 1], totalSize))
                         ==> values[k] in Dedup(values, totalSize, last).0)
    decreases |values|
  {
    if values != [] {
      var p := Percent(values[0], totalSize);
      var next := if SamePercent(p, last) then last else p;
      var rest := Dedup(values[1..], totalSize, next);
      DedupKeepsChanges(values[1..], totalSize, next);
      forall k | 0 < k < |values| && !SamePercent(Percent(values[k], totalSize), Percent(values[k - 1], totalSize))
        ensures values[k] in Dedup(values, totalSize, last).0
      {
        if k == 1 {
          // the percentage remembered before values[1] is that of values[0]
          assert SamePercent(p, last) ==> next == p;
          assert !SamePercent(Percent(values[1..][0], totalSize), next);
        } else {
          assert values[1..][k - 1] == values[k] && values[1..][k - 2] == values[k - 1];
        }
        assert values[k] in rest.0;
      }
    }
  }

  /** The percentage the callback holds when value `i` arrives: `last` for the
      first value, the previous value's percentage after that (a dropped value
      has the percentage already held). */
  function HeldBefore(values: seq<nat>, totalSize: nat, last: Option<int>, i: nat): Option<int>
    requires i < |values|
  {
    if i == 0 then last else Percent(values[i - 1], totalSize)
  }

  /** The values from index `i` on whose percentage differs from the one held
      when they arrive, in order: an independent reading of the callback. */
  function KeptFrom(values: seq<nat>, totalSize: nat, last: Option<int>, i: nat): seq<nat>
    requires i <= |values|
    decreases |values| - i
  {
    if i == |values| then []
    else
      var keep := !SamePercent(Percent(values[i], totalSize), HeldBefore(values, totalSize, last, i));
      (if keep then [values[i]] else []) + KeptFrom(values, totalSize, last, i + 1)
  }

  /** One step of the callback: the first value is kept exactly when its
      percentage differs from the held one, and either way its percentage is
      held afterwards. */
  lemma DedupStep(v: seq<nat>, totalSize: nat, held: Option<int>)
    requires v != []
    ensures var p := Percent(v[0], totalSize);
            Dedup(v, totalSize, held).0 == (if SamePercent(p, held) then [] else [v[0]]) + Dedup(v[1..], totalSize, p).0
  {
    var p := Percent(v[0], totalSize);
    if SamePercent(p, held) {
      assert held == p;
    }
  }

  lemma {:induction false} DedupFrom(values: seq<nat>, totalSize: nat, last: Option<int>, i: nat)
    requires i < |values|
    ensures Dedup(values[i..], totalSize, HeldBefore(values, totalSize, last, i)).0 == KeptFrom(values, totalSize, last, i)
    decreases |values| - i
  {
    var v := values[i..];
    assert v[0] == values[i] && v[1..] == values[i + 1..];
    DedupStep(v, totalSize, HeldBefore(values, totalSize, last, i));
    if i + 1 < |values| {
      DedupFrom(values, totalSize, last, i + 1);
    } else {
      assert values[i + 1..] == [];
    }
  }

  /** The callback passes on exactly the values whose percentage differs from
      the one held when they arrive, in their original order. */
  lemma DedupIsFilter(values: seq<nat>, totalSize: nat, last: Option<int>)
    ensures Dedup(values, totalSize, last).0 == KeptFrom(values, totalSize, last, 0)
  {
    if values != [] {
      DedupFrom(values, totalSize, last, 0);
      assert values[0..] == values;
    }
  }

  lemma ChangesAppend(a: seq<nat>, b: seq<nat>, totalSize: nat, last: Option<int>)
    requires Changes(a, totalSize, last) && Changes(b, totalSize, LastPercent(a, totalSize, last))
    ensures Changes(a + b, totalSize, last)
    ensures LastPercent(a + b, totalSize, last) == LastPercent(b, totalSize, LastPercent(a, totalSize, last))
  {
    var ab := a + b;
    forall k | 0 <= k < |ab| - 1
      ensures !SamePercent(Percent(ab[k], totalSize), Percent(ab[k + 1], totalSize))
    {
      if k + 1 < |a| {
        assert ab[k] == a[k] && ab[k + 1] == a[k + 1];
      } else if k + 1 == |a| {
        assert ab[k] == a[|a| - 1] && ab[k + 1] == b[0];
      } else {
        assert ab[k] == b[k - |a|] && ab[k + 1] == b[k - |a| + 1];
      }
    }
    if a == [] {
      assert ab == b;
    }
  }

  // ---------------------------------------------------------------------------
  // Writing the parts

  function Updates(values: seq<nat>): (r: seq<Effect>)
    ensures |r| == |values| && forall k :: 0 <= k < |values| ==> r[k] == BytesWritten(values[k])
  {
    seq(|values|, k requires 0 <= k < |values| => BytesWritten(values[k]))
  }

  /** The values of the progress updates among some effects, in order. */
  function Written(effects: seq<Effect>): seq<nat>
  {
    if effects == [] then []
    else (if effects[0].BytesWritten? then [effects[0].bytes] else []) + Written(effects[1..])
  }

  /** The `flashData` calls among some effects, in order. */
  function Calls(effects: seq<Effect>): seq<Effect>
  {
    if effects == [] then []
    else (if effects[0].FlashPart? then [effects[0]] else []) + Calls(effects[1..])
  }

  lemma FilterAppend(a: seq<Effect>, b: seq<Effect>)
    ensures Written(a + b) == Written(a) + Written(b)
    ensures Calls(a + b) == Calls(a) + Calls(b)
  {
    WrittenAppend(a, b);
    CallsAppend(a, b);
  }

  lemma {:induction false} WrittenAppend(a: seq<Effect>, b: seq<Effect>)
    ensures Written(a + b) == Written(a) + Written(b)
  {
    if a == [] {
      assert a + b == b;
    } else {
      assert (a + b)[0] == a[0] && (a + b)[1..] == a[1..] + b;
      WrittenAppend(a[1..], b);
    }
  }

  lemma {:induction false} CallsAppend(a: seq<Effect>, b: seq<Effect>)
    ensures Calls(a + b) == Calls(a) + Calls(b)
  {
    if a == [] {
      assert a + b == b;
    } else {
      assert (a + b)[0] == a[0] && (a + b)[1..] == a[1..] + b;
      CallsAppend(a[1..], b);
    }
  }

  lemma {:induction false} NoCalls(effects: seq<Effect>)
    requires forall k :: 0 <= k < |effects| ==> !effects[k].FlashPart?
    ensures Calls(effects) == []
  {
    if effects != [] {
      NoCalls(effects[1..]);
    }
  }

  lemma {:induction false} UpdatesFilter(values: seq<nat>)
    ensures Written(Updates(values)) == values
    ensures Calls(Updates(values)) == []
    decreases |values|
  {
    if values != [] {
      assert Updates(values) == [BytesWritten(values[0])] + Updates(values[1..]);
      FilterAppend([BytesWritten(values[0])], Updates(values[1..]));
      UpdatesFilter(values[1..]);
    }
  }

  /** The effects of writing some parts, whether all writes succeeded, and the
      percentage remembered at the end. */
  datatype Flashed = Flashed(effects: seq<Effect>, ok: bool, last: Option<int>)

  /** Every progress value is a positive whole number of write blocks. */
  predicate WholeBlocks(values: seq<nat>, blockSize: nat)
  {
    forall k :: 0 <= k < |values| ==> WholeBlock(values[k], blockSize)
  }

  predicate WholeBlock(v: nat, blockSize: nat)
  {
    blockSize > 0 && v > 0 && v % blockSize == 0
  }

  /** What one `flashData` call gives back: whether it succeeded, and the
      values it passed to the progress callback. */
  datatype PartWrite = PartWrite(ok: bool, progress: seq<nat>)

  /** `flashData` on one part: its progress values are block counts times the
      block size, so whole blocks. */
  function WritePart(stub: Loader, part: Part, file: seq<byte>, streams: seq<seq<Poll>>): (r: PartWrite)
    ensures WholeBlocks(r.progress, FlashWriteSize(stub))
  {
    var data := FlashData(stub, file, part.offset, streams);
    BlockCountsWhole(data.1, FlashWriteSize(stub));
    PartWrite(data.0.result.Ok?, data.1)
  }

  lemma BlockCountsWhole(progress: seq<nat>, blockSize: nat)
    requires blockSize > 0
    requires forall k :: 0 <= k < |progress| ==> progress[k] == (k + 1) * blockSize
    ensures WholeBlocks(progress, blockSize)
  {
    forall k | 0 <= k < |progress|
      ensures WholeBlock(progress[k], blockSize)
    {
      DivUnique(progress[k], blockSize, k + 1, 0);
    }
  }

  lemma WholeBlocksSubset(values: seq<nat>, progress: seq<nat>, blockSize: nat)
    requires WholeBlocks(progress, blockSize)
    requires forall k :: 0 <= k < |values| ==> values[k] in progress
    ensures WholeBlocks(values, blockSize)
  {
    forall k | 0 <= k < |values|
      ensures WholeBlock(values[k], blockSize)
    {
      var j :| 0 <= j < |progress| && progress[j] == values[k];
    }
  }

  lemma WholeBlocksAppend(a: seq<nat>, b: seq<nat>, blockSize: nat)
    requires WholeBlocks(a, blockSize) && WholeBlocks(b, blockSize)
    ensures WholeBlocks(a + b, blockSize)
  {
    forall k | 0 <= k < |a + b|
      ensures WholeBlock((a + b)[k], blockSize)
    {
      if k < |a| {
        assert (a + b)[k] == a[k];
      } else {
        assert (a + b)[k] == b[k - |a|];
      }
    }
  }

  /** The effects of one call: the call itself, then its updates. */
  lemma OneCallLog(offset: int, file: seq<byte>, values: seq<nat>)
    ensures Calls([FlashPart(offset, file)] + Updates(values)) == [FlashPart(offset, file)]
    ensures Written([FlashPart(offset, file)] + Updates(values)) == values
  {
    FilterAppend([FlashPart(offset, file)], Updates(values));
    UpdatesFilter(values);
    assert [FlashPart(offset, file)][1..] == [];
  }

  /** One `flashData` call: the call, then the progress updates it lets through. */
  function FlashOne(part: Part, file: seq<byte>, write: PartWrite, blockSize: nat,
                    totalSize: nat, last: Option<int>): (r: Flashed)
    requires WholeBlocks(write.progress, blockSize)
    ensures r.ok == write.ok
    ensures Calls(r.effects) == [FlashPart(part.offset, file)]
    ensures Changes(Written(r.effects), totalSize, last) && r.last == LastPercent(Written(r.effects), totalSize, last)
    ensures WholeBlocks(Written(r.effects), blockSize)
  {
    var dedup := Dedup(write.progress, totalSize, last);
    OneCallLog(part.offset, file, dedup.0);
    WholeBlocksSubset(dedup.0, write.progress, blockSize);
    Flashed([FlashPart(part.offset, file)] + Updates(dedup.0), write.ok, dedup.1)
  }

  /** The reads of part `i`'s write: none once the streams run out. */
  function PartStreams(streams: seq<seq<seq<Poll>>>, i: nat): seq<seq<Poll>>
  {
    if i < |streams| then streams[i] else []
  }

  /** What `flashData` gives back for each part, written with its own file at
      its own offset over its own reads. Each write depends on nothing the
      writes before it change, so they are listed up front. */
  function Writes(stub: Loader, parts: seq<Part>, files: seq<seq<byte>>, streams: seq<seq<seq<Poll>>>)
    : (r: seq<PartWrite>)
    requires |files| == |parts|
    ensures |r| == |parts|
    ensures forall i :: 0 <= i < |r| ==> r[i] == WritePart(stub, parts[i], files[i], PartStreams(streams, i))
    ensures AllWhole(r, FlashWriteSize(stub))
  {
    seq(|parts|, i requires 0 <= i < |parts| => WritePart(stub, parts[i], files[i], PartStreams(streams, i)))
  }

  predicate AllWhole(writes: seq<PartWrite>, blockSize: nat)
  {
    forall i :: 0 <= i < |writes| ==> WholeBlocks(writes[i].progress, blockSize)
  }

  /** The loop over the build's parts, each written with its own file at its
      own offset; a failed write rejects and ends the loop. */
  function FlashParts(parts: seq<Part>, files: seq<seq<byte>>, writes: seq<PartWrite>, blockSize: nat,
                      totalSize: nat, last: Option<int>): (r: Flashed)
    requires |files| == |parts| == |writes| && AllWhole(writes, blockSize)
    ensures r.ok <==> forall i :: 0 <= i < |writes| ==> writes[i].ok
    decreases |parts|
  {
    if parts == [] then Flashed([], true, last)
    else
      var head := FlashOne(parts[0], files[0], writes[0], blockSize, totalSize, last);
      if !head.ok then head
      else
        var rest := FlashParts(parts[1..], files[1..], writes[1..], blockSize, totalSize, head.last);
        assert forall i :: 1 <= i < |writes| ==> writes[i] == writes[1..][i - 1];
        Flashed(head.effects + rest.effects, rest.ok, rest.last)
  }

  /** The files of a build whose downloads all succeeded, in part order. */
  function Files(downloads: seq<Option<seq<byte>>>, parts: nat): (r: seq<seq<byte>>)
    requires forall j :: 0 <= j < parts ==> DownloadAt(downloads, j).Some?
    ensures |r| == parts && forall j :: 0 <= j < parts ==> r[j] == DownloadAt(downloads, j).value
  {
    seq(parts, j requires 0 <= j < parts => DownloadAt(downloads, j).value)
  }

  function TotalLength(files: seq<seq<byte>>): nat
  {
    if files == [] then 0 else |files[0]| + TotalLength(files[1..])
  }

  /** The effects close with the disconnect, after at least one other effect. */
  predicate EndsWithDisconnect(effects: seq<Effect>)
  {
    |effects| >= 2 && effects[|effects| - 1] == Disconnect
  }

  /** `startFlash`: the effects, in order, and how the call ends. A port that
      is not connected does nothing; every run that returns having done
      something ends with the disconnect; a rejection comes only after the chip
      was initialised and the manifest fetched. */
  function StartFlash(o: Outcome): (r: (seq<Effect>, Ending))
    ensures !o.connected ==> r == ([], Returned)
    ensures r.1 == Returned ==> r.0 == [] || EndsWithDisconnect(r.0)
    ensures r.1 == Rejected ==> o.connected && Initialize(o.syncStreams, o.regStreams).Ok? && o.manifest.Some?
  {
    if !o.connected then ([], Returned)
    else Initialized(o, Initialize(o.syncStreams, o.regStreams))
  }

  /** What `initialize` gave: a failure shows a message and disconnects only
      while the port is still connected. */
  function Initialized(o: Outcome, init: Result<Chip, LoaderError>): (r: (seq<Effect>, Ending))
    ensures r.1 == Returned ==> r.0 == [] || EndsWithDisconnect(r.0)
    ensures r.1 == Rejected ==> init.Ok? && o.manifest.Some?
    ensures init.Err? ==> r.1 == Returned && (r.0 == [] <==> !o.connectedAfterInit)
  {
    if init.Err? then (if o.connectedAfterInit then [ErrorMessage(InitializeFailed), Disconnect] else [], Returned)
    else Identified(o, init.value)
  }

  /** After `initialize`: fetch the manifest and pick the build for the chip's
      family. A run that returns ends with the disconnect; one that rejects had
      a manifest. */
  function Identified(o: Outcome, chip: Chip): (r: (seq<Effect>, Ending))
    ensures r.1 == Returned ==> EndsWithDisconnect(r.0)
    ensures r.1 == Rejected ==> o.manifest.Some?
  {
    match o.manifest
    case None => ([ErrorMessage(ManifestUnavailable), Disconnect], Returned)
    case Some(m) =>
      var chipFamily := GetChipFamilyName(Some(chip.family.Code()));
      Selected(o, chipFamily, FirstBuild(m.builds, chipFamily), chip.family)
  }

  /** The build picked for the family's display name: with none the board is
      named as unsupported. */
  function Selected(o: Outcome, chipFamily: string, build: Option<Build>, family: ChipFamily): (r: (seq<Effect>, Ending))
    ensures build.None? ==> r == ([ErrorMessage(BoardNotSupported(chipFamily)), Disconnect], Returned)
    ensures r.1 == Returned ==> EndsWithDisconnect(r.0)
  {
    match build
    case None => ([ErrorMessage(BoardNotSupported(chipFamily)), Disconnect], Returned)
    case Some(b) => Stubbed(o, b, family)
  }

  /** `runStub` on the detected chip: a stub that does not start rejects with no effects. */
  function Stubbed(o: Outcome, build: Build, family: ChipFamily): (r: (seq<Effect>, Ending))
    ensures RunStub(Loader(Some(family), false), o.stub, o.stubStreams).1.Err? ==> r == ([], Rejected)
    ensures RunStub(Loader(Some(family), false), o.stub, o.stubStreams).1.Ok? ==> |r.0| >= 1
    ensures r.1 == Returned ==> EndsWithDisconnect(r.0)
  {
    var started := RunStub(Loader(Some(family), false), o.stub, o.stubStreams).1;
    if started.Err? then ([], Rejected) else Downloaded(o, build, started.value)
  }

  /** With the stub running: wait for the downloads in part order, then write.
      An error message opens the effects exactly when a download failed, and a
      run that returns ends with the disconnect. */
  function Downloaded(o: Outcome, build: Build, stub: Loader): (r: (seq<Effect>, Ending))
    ensures |r.0| >= 1
    ensures r.0[0].ErrorMessage? <==> FirstFailedDownload(o.downloads, |build.parts|).Some?
    ensures r.1 == Returned ==> EndsWithDisconnect(r.0)
  {
    match FirstFailedDownload(o.downloads, |build.parts|)
    case Some(i) => ([ErrorMessage(DownloadFailed(build.parts[i].filename)), Disconnect], Returned)
    case None =>
      var files := Files(o.downloads, |build.parts|);
      Write(stub, build.parts, files, o.flashStreams)
  }

  /** Announce the total, write every part, then reset and disconnect. The
      total is the sum of the files' lengths. */
  function Write(stub: Loader, parts: seq<Part>, files: seq<seq<byte>>, streams: seq<seq<seq<Poll>>>)
    : (r: (seq<Effect>, Ending))
    requires |files| == |parts|
    ensures |r.0| >= 1 && r.0[0] == TotalBytes(TotalLength(files))
    ensures r.1 == Returned ==> |r.0| >= 4 && r.0[|r.0| - 3..] == [SoftReset, BytesWritten(TotalLength(files)), Disconnect]
  {
    var totalSize := TotalLength(files);
    Close(totalSize, FlashParts(parts, files, Writes(stub, parts, files, streams), FlashWriteSize(stub), totalSize, Some(-1)))
  }

  /** The total announced before the loop, and after a loop that did not
      reject: the reset, the full total and the disconnect. */
  function Close(totalSize: nat, flashed: Flashed): (r: (seq<Effect>, Ending))
    ensures |r.0| >= 1 && r.0[0] == TotalBytes(totalSize)
    ensures r.1 == Returned <==> flashed.ok
    ensures flashed.ok ==> |r.0| >= 4 && r.0[|r.0| - 3..] == [SoftReset, BytesWritten(totalSize), Disconnect]
    ensures !flashed.ok ==> r.0[1..] == flashed.effects
  {
    if !flashed.ok then ([TotalBytes(totalSize)] + flashed.effects, Rejected)
    else ([TotalBytes(totalSize)] + flashed.effects + [SoftReset, BytesWritten(totalSize), Disconnect], Returned)
  }

  // ---------------------------------------------------------------------------
  // Properties

  /** The calls write the first parts in manifest order, each with its own
      file at its own offset. */
  predicate InOrder(calls: seq<Effect>, parts: seq<Part>, files: seq<seq<byte>>)
    requires |files| == |parts|
  {
    |calls| <= |parts| && forall j :: 0 <= j < |calls| ==> calls[j] == FlashPart(parts[j].offset, files[j])
  }

  lemma InOrderCons(calls: seq<Effect>, parts: seq<Part>, files: seq<seq<byte>>)
    requires |files| == |parts| > 0 && InOrder(calls, parts[1..], files[1..])
    ensures InOrder([FlashPart(parts[0].offset, files[0])] + calls, parts, files)
  {
    var all := [FlashPart(parts[0].offset, files[0])] + calls;
    forall j | 0 < j < |all|
      ensures all[j] == FlashPart(parts[j].offset, files[j])
    {
      assert all[j] == calls[j - 1];
      assert parts[1..][j - 1] == parts[j] && files[1..][j - 1] == files[j];
    }
  }

  /** The parts are written in manifest order, each with its own file at its
      own offset; a failed write stops the loop after its own call. */
  lemma {:induction false} FlashPartsCalls(parts: seq<Part>, files: seq<seq<byte>>, writes: seq<PartWrite>,
                                           blockSize: nat, totalSize: nat, last: Option<int>)
    requires |files| == |parts| == |writes| && AllWhole(writes, blockSize)
    ensures var r := FlashParts(parts, files, writes, blockSize, totalSize, last);
            && InOrder(Calls(r.effects), parts, files)
            && (r.ok ==> |Calls(r.effects)| == |parts|)
            && (!r.ok ==> |Calls(r.effects)| > 0)
    decreases |parts|
  {
    if parts != [] {
      var head := FlashOne(parts[0], files[0], writes[0], blockSize, totalSize, last);
      if head.ok {
        var rest := FlashParts(parts[1..], files[1..], writes[1..], blockSize, totalSize, head.last);
        FlashPartsCalls(parts[1..], files[1..], writes[1..], blockSize, totalSize, head.last);
        FilterAppend(head.effects, rest.effects);
        InOrderCons(Calls(rest.effects), parts, files);
      } else {
        InOrderCons([], parts, files);
      }
    }
  }

  /** Across all parts, every progress update moves the percentage, starting from `last`. */
  lemma {:induction false} FlashPartsChanges(parts: seq<Part>, files: seq<seq<byte>>, writes: seq<PartWrite>,
                                             blockSize: nat, totalSize: nat, last: Option<int>)
    requires |files| == |parts| == |writes| && AllWhole(writes, blockSize)
    ensures var r := FlashParts(parts, files, writes, blockSize, totalSize, last);
            && Changes(Written(r.effects), totalSize, last)
            && r.last == LastPercent(Written(r.effects), totalSize, last)
    decreases |parts|
  {
    if parts != [] {
      var head := FlashOne(parts[0], files[0], writes[0], blockSize, totalSize, last);
      if head.ok {
        var rest := FlashParts(parts[1..], files[1..], writes[1..], blockSize, totalSize, head.last);
        FlashPartsChanges(parts[1..], files[1..], writes[1..], blockSize, totalSize, head.last);
        FilterAppend(head.effects, rest.effects);
        ChangesAppend(Written(head.effects), Written(rest.effects), totalSize, last);
      }
    }
  }

  /** Every progress update of every part is a whole number of write blocks. */
  lemma {:induction false} FlashPartsWholeBlocks(parts: seq<Part>, files: seq<seq<byte>>, writes: seq<PartWrite>,
                                                 blockSize: nat, totalSize: nat, last: Option<int>)
    requires |files| == |parts| == |writes| && AllWhole(writes, blockSize)
    ensures WholeBlocks(Written(FlashParts(parts, files, writes, blockSize, totalSize, last).effects), blockSize)
    decreases |parts|
  {
    if parts != [] {
      var head := FlashOne(parts[0], files[0], writes[0], blockSize, totalSize, last);
      if head.ok {
        var rest := FlashParts(parts[1..], files[1..], writes[1..], blockSize, totalSize, head.last);
        FlashPartsWholeBlocks(parts[1..], files[1..], writes[1..], blockSize, totalSize, head.last);
        FilterAppend(head.effects, rest.effects);
        WholeBlocksAppend(Written(head.effects), Written(rest.effects), blockSize);
      }
    }
  }

  /** A cancelled port request ends the call silently. */
  lemma StartFlashCancelled(o: Outcome)
    requires !o.connected
    ensures StartFlash(o) == ([], Returned)
  {
  }

  /** A failed initialisation disconnects, with a message, exactly when the port is still connected. */
  lemma StartFlashInitFailure(o: Outcome)
    requires o.connected && Initialize(o.syncStreams, o.regStreams).Err?
    ensures StartFlash(o).1 == Returned
    ensures Disconnect in StartFlash(o).0 <==> o.connectedAfterInit
    ensures StartFlash(o).0 == [] <==> !o.connectedAfterInit
  {
  }

  /** A chip that fails to sync never gets further than the initialisation message. */
  lemma StartFlashSyncFailure(o: Outcome)
    requires o.connected && o.connectedAfterInit && Sync(o.syncStreams).Err?
    ensures StartFlash(o) == ([ErrorMessage(InitializeFailed), Disconnect], Returned)
  {
  }

  /** A manifest that cannot be fetched is reported, the loader disconnects, and nothing is written. */
  lemma IdentifiedManifestFailure(o: Outcome, chip: Chip)
    requires o.manifest.None?
    ensures Identified(o, chip) == ([ErrorMessage(ManifestUnavailable), Disconnect], Returned)
    ensures Calls(Identified(o, chip).0) == []
  {
  }

  /** With no build for the chip's family, nothing is written and the board is named as unsupported. */
  lemma IdentifiedNoBuild(o: Outcome, chip: Chip)
    requires o.manifest.Some?
    requires forall j :: 0 <= j < |o.manifest.value.builds| ==>
               o.manifest.value.builds[j].chipFamily != GetChipFamilyName(Some(chip.family.Code()))
    ensures Identified(o, chip) == ([ErrorMessage(BoardNotSupported(GetChipFamilyName(Some(chip.family.Code())))), Disconnect], Returned)
    ensures Calls(Identified(o, chip).0) == []
  {
    var name := GetChipFamilyName(Some(chip.family.Code()));
    NoCalls([ErrorMessage(BoardNotSupported(name)), Disconnect]);
  }

  /** A stub that does not start rejects the call before any download is looked at, and nothing is disconnected. */
  lemma IdentifiedStubFailure(o: Outcome, chip: Chip)
    requires o.manifest.Some?
    requires FirstBuild(o.manifest.value.builds, GetChipFamilyName(Some(chip.family.Code()))).Some?
    requires RunStub(Loader(Some(chip.family), false), o.stub, o.stubStreams).1.Err?
    ensures Identified(o, chip) == ([], Rejected)
  {
  }

  /** The stub `runStub` hands over writes in 0x200-byte blocks. */
  lemma IdentifiedWritesWithStub(o: Outcome, chip: Chip)
    requires o.manifest.Some?
    requires var build := FirstBuild(o.manifest.value.builds, GetChipFamilyName(Some(chip.family.Code())));
             build.Some? && RunStub(Loader(Some(chip.family), false), o.stub, o.stubStreams).1.Ok?
    ensures var build := FirstBuild(o.manifest.value.builds, GetChipFamilyName(Some(chip.family.Code()))).value;
            Identified(o, chip) == Downloaded(o, build, Loader(None, true))
    ensures FlashWriteSize(Loader(None, true)) == FLASH_WRITE_SIZE
  {
  }

  /** The first failed download, in part order, is reported by its file name. */
  lemma DownloadedFailure(o: Outcome, build: Build, stub: Loader, i: nat)
    requires i < |build.parts| && DownloadAt(o.downloads, i).None?
    requires forall j :: 0 <= j < i ==> DownloadAt(o.downloads, j).Some?
    ensures Downloaded(o, build, stub) == ([ErrorMessage(DownloadFailed(build.parts[i].filename)), Disconnect], Returned)
  {
    var first := FirstFailedDownload(o.downloads, |build.parts|);
    assert first.Some?;
    assert first.value == i;
  }

  /** Closing the loop keeps its calls and its updates, announces the total
      first, and on success adds the full total as the last update. */
  lemma CloseLog(totalSize: nat, flashed: Flashed)
    ensures var (effects, ending) := Close(totalSize, flashed);
            && effects[0] == TotalBytes(totalSize)
            && Calls(effects) == Calls(flashed.effects)
            && (ending == Returned <==> flashed.ok)
            && (flashed.ok ==> Written(effects) == Written(flashed.effects) + [totalSize])
            && (flashed.ok ==> |effects| >= 4 && effects[|effects| - 3..] == [SoftReset, BytesWritten(totalSize), Disconnect])
            && (!flashed.ok ==> Written(effects) == Written(flashed.effects))
  {
    var start := [TotalBytes(totalSize)];
    assert Written(start) == [];
    NoCalls(start);
    FilterAppend(start, flashed.effects);
    if flashed.ok {
      var closing := [SoftReset, BytesWritten(totalSize), Disconnect];
      NoCalls(closing);
      assert closing[1..] == [BytesWritten(totalSize), Disconnect] && closing[1..][1..] == [Disconnect];
      assert Written([Disconnect]) == [] by {
        assert [Disconnect][1..] == [];
      }
      assert Written([BytesWritten(totalSize), Disconnect]) == [totalSize] + Written([Disconnect]);
      assert Written(closing) == [totalSize];
      FilterAppend(start + flashed.effects, closing);
    }
  }

  /** The writes announce the total first and write the parts in manifest
      order, each with its own file at its own offset; a run that returns has
      written every part and closes with the reset, the full total and the
      disconnect, a run that rejects has made at least one call. */
  lemma WriteCalls(stub: Loader, parts: seq<Part>, files: seq<seq<byte>>, streams: seq<seq<seq<Poll>>>)
    requires |files| == |parts|
    ensures var (effects, ending) := Write(stub, parts, files, streams);
            var totalSize := TotalLength(files);
            && effects[0] == TotalBytes(totalSize)
            && InOrder(Calls(effects), parts, files)
            && (ending == Returned ==> |Calls(effects)| == |parts|)
            && (ending == Returned ==> |effects| >= 4 && effects[|effects| - 3..] == [SoftReset, BytesWritten(totalSize), Disconnect])
            && (ending == Rejected ==> |Calls(effects)| > 0)
  {
    var totalSize := TotalLength(files);
    var writes := Writes(stub, parts, files, streams);
    var flashed := FlashParts(parts, files, writes, FlashWriteSize(stub), totalSize, Some(-1));
    FlashPartsCalls(parts, files, writes, FlashWriteSize(stub), totalSize, Some(-1));
    CloseLog(totalSize, flashed);
  }

  /** Every progress update the loop lets through is a whole number of blocks
      that moves the percentage away from -1 and from the one before. */
  lemma {:induction false} WriteLoopProgress(stub: Loader, parts: seq<Part>, files: seq<seq<byte>>, streams: seq<seq<seq<Poll>>>)
    requires |files| == |parts|
    ensures var flashed := FlashParts(parts, files, Writes(stub, parts, files, streams), FlashWriteSize(stub), TotalLength(files), Some(-1));
            var w := Written(flashed.effects);
            Changes(w, TotalLength(files), Some(-1)) && WholeBlocks(w, FlashWriteSize(stub))
  {
    var writes := Writes(stub, parts, files, streams);
    FlashPartsChanges(parts, files, writes, FlashWriteSize(stub), TotalLength(files), Some(-1));
    FlashPartsWholeBlocks(parts, files, writes, FlashWriteSize(stub), TotalLength(files), Some(-1));
  }

  /** A run that returns reports the loop's updates, then the full total. */
  lemma WriteReturnedProgress(stub: Loader, parts: seq<Part>, files: seq<seq<byte>>, streams: seq<seq<seq<Poll>>>)
    requires |files| == |parts| && Write(stub, parts, files, streams).1 == Returned
    ensures var w := Written(Write(stub, parts, files, streams).0);
            && |w| > 0 && w[|w| - 1] == TotalLength(files)
            && Changes(w[..|w| - 1], TotalLength(files), Some(-1))
            && WholeBlocks(w[..|w| - 1], FlashWriteSize(stub))
  {
    var flashed := FlashParts(parts, files, Writes(stub, parts, files, streams), FlashWriteSize(stub), TotalLength(files), Some(-1));
    WriteLoopProgress(stub, parts, files, streams);
    CloseLog(TotalLength(files), flashed);
    var w := Written(Close(TotalLength(files), flashed).0);
    assert w[..|w| - 1] == Written(flashed.effects);
  }

  /** A run that rejects reports only the loop's updates. */
  lemma WriteRejectedProgress(stub: Loader, parts: seq<Part>, files: seq<seq<byte>>, streams: seq<seq<seq<Poll>>>)
    requires |files| == |parts| && Write(stub, parts, files, streams).1 == Rejected
    ensures var w := Written(Write(stub, parts, files, streams).0);
            Changes(w, TotalLength(files), Some(-1)) && WholeBlocks(w, FlashWriteSize(stub))
  {
    var flashed := FlashParts(parts, files, Writes(stub, parts, files, streams), FlashWriteSize(stub), TotalLength(files), Some(-1));
    WriteLoopProgress(stub, parts, files, streams);
    CloseLog(TotalLength(files), flashed);
  }

  /** The total is the sum of the downloaded files' lengths. */
  lemma {:induction false} TotalLengthAppend(a: seq<seq<byte>>, b: seq<seq<byte>>)
    ensures TotalLength(a + b) == TotalLength(a) + TotalLength(b)
  {
    if a == [] {
      assert a + b == b;
    } else {
      assert (a + b)[1..] == a[1..] + b;
      TotalLengthAppend(a[1..], b);
    }
  }
}
